=== FILE: README.md ===
# diychess checkers rules in Dafny

This project models the rule engine of *diychess*, a browser checkers game,
together with the earlier prototype it grew out of (`src/app/checkers`). The
model covers what happens on the board and in the turn sequence; what is
drawn, animated or played as sound is not modelled.

- **Board** (`Boards`, `Selection`). A board is an immutable value. It maps
  occupied coordinates to piece ids and keeps a list of piece states: owner,
  square, whether the piece is set down, and its available moves. It also
  keeps one roster of piece ids per player name and an optional selected
  piece. A captured piece stays in the piece list; it leaves only its square
  and its owner's roster.
- **Board consistency** (`Boards.Consistent`, `Occupancy`). A consistent
  board is well formed, each occupied square's piece stands on that square,
  every rostered piece stands and belongs to its roster's player, and a
  selected piece stands. Moving, placing, adding and capturing keep it. A
  human pick or a whole CPU turn keeps it too, together with the fact that
  every move on offer lands on the mover's own square or an empty one.
- **Moves** (`Moves`). A move is a tagged value: Movement, Jump, Capture with
  a capture square, or Cancel. It carries the piece, its origin, its target
  and the `doNotEndTurn` option. A piece's move map is a sequence without
  repeated targets, in the map's insertion order.
- **Selection rules** (`Scan`, `Rules`, `RuleSets`):
  - the colour, rank-band, around, diagonal-extent and piece-between rules;
  - additive/masking rule sets;
  - the diagonal scan `checkSquaresBetweenSquaresOnDiagonals`. Its
    as-written form is modelled and proved defective (see "## Findings").
    The rules use the corrected walk, which agrees with the as-written scan
    on every rule the game ships.
- **Move generation** (`MoveGen`). `CheckersPawn.calcAvailableMoves` with
  its square mask and tag filter. It is proved equal, square by square, to
  a geometric reference definition.
- **Setup** (`Setup`). `createPieces` with rule lists, the shipped setup, and
  the TypeError raised by rules that need a centre.
- **Tile names** (`TileNames`). Rank letter plus file number, with UTF-16
  code units and `String.fromCharCode`'s 16-bit truncation.
- **Sequencing** (`Rounds`, `GameManager`, `GameLoop`). Rounds, turns, the
  player queue, move registration, the render loop and ending a turn.
- **Human play** (`Play`). The pick handlers on pieces and on squares,
  including the jump/capture chain.
- **CPU player** (`Cpu`). Weighed move choices, drawing one of the heaviest,
  and performing a move with its chain continuation.
- **Prototype** (`ProtoPawn`, `ProtoSetup`, `ProtoMoveGen`, `ProtoCpu`,
  `ProtoTurns`):
  - the lift/place toggle and the neighbourhood moves;
  - the 8×8 placement predicate and tile colours;
  - the one-step generator;
  - the "pawn with most moves" CPU;
  - the white/black turn counter.

Conventions:

- Every thrown error becomes an `Err` of `Outcomes.Result`, and no partial
  state is returned with it. The `Error` kinds are:
  - `RuleError` for `GameRuleError`;
  - `StateError` for `GameStateError`;
  - `EngineError` for `GameEngineError`;
  - `PlainError` for a plain `Error`;
  - `RuntimeTypeError` for a JavaScript TypeError or an undefined result
    that is then used;
  - `FuelExhausted` for the draw budget below.
- Object identity is modelled by value: a piece by its id, a square by its
  coordinate.
- JavaScript's `%` is modelled by `Coords.JsRem2`, a truncating remainder
  whose sign follows the dividend.
- `Math.random()` becomes a caller-supplied `draw: nat`, reduced modulo the
  length of the list it indexes. The CPU's chain of continuations consumes
  one draw per step, so the length of `draws` bounds the chain.

The move classes in `src/app/diychess/game/board/piece/move.tsx` take only
a target. Every caller constructs moves with a piece, an origin, a target
and options, and reads `move.piece`, `move.origin` and
`move.options.doNotEndTurn`. The model follows the callers. A move built
without options (`MovementMove`, `CancelMove`, a plain `CaptureMove`) is read
as `doNotEndTurn = false`. That default is an assumption about the `Move`
base class, which is not part of this model.

## Model

| member | source | states |
|---|---|---|
| Coords.JsRem2 | src/app/diychess/game/board/squareSelectionRule.tsx:30-32 | JavaScript's `% 2` is 0 or 1 on non-negative numbers and 0 or −1 on negative ones |
| Coords.JsRem2IsParity | src/app/diychess/game/board/board.tsx:134 | the truncating remainder is zero exactly on even numbers, so the colour tests agree with parity on zero-remainder cases |
| Coords.StepTowardOnShortDiagonals | src/app/checkers/board/boardUtils.tsx:13-18 | the unit diagonal step from a square reaches the far end at distance one and the midpoint at distance two, never either endpoint at distance two |
| Coords.Column | src/app/diychess/game/board/board.tsx:79-84 | the inner loop of the square iteration visits ranks 0 … height−1 of one file, in order |
| Coords.SquareOrderCovers | src/app/diychess/game/board/board.tsx:75-86 | the board iteration visits a coordinate exactly when it lies inside the dimensions |
| Coords.SquareOrderSorted | src/app/diychess/game/board/board.tsx:77-79 | files are visited in ascending order and ranks ascending within a file |
| Coords.SquareOrderDistinct | src/app/diychess/game/board/board.tsx:75-86 | no coordinate is visited twice |
| Coords.SquareOrderInBounds | src/app/diychess/game/board/board.tsx:80-83 | every visited coordinate has a square |
| Moves.NewMovementMove | src/app/diychess/game/board/piece/checkersPawn.tsx:65 | a plain movement is a movement move, not a jump, and ends the turn |
| Moves.NewCaptureMove | src/app/diychess/game/board/piece/move.tsx:15-24 | a plain capture removes the piece on its own target |
| Moves.NewCancelMove | src/app/diychess/game/board/piece/checkersPawn.tsx:102-104 | a cancel is not a movement move and ends the turn |
| Moves.NewJumpMove | src/app/diychess/game/board/piece/checkersPawn.tsx:72 | a jump counts as a movement move and keeps the turn open |
| Moves.NewCheckersCaptureMove | src/app/diychess/game/board/piece/checkersPawn.tsx:108-125 | a checkers capture removes the piece on its capture square and keeps the turn open unless options say otherwise |
| Moves.IsMovementMove | src/app/diychess/game/player/cpu.tsx:122 | `instanceof MovementMove` holds exactly for the moves that are neither a capture nor a Cancel, the jump included |
| Moves.MoveTo | src/app/diychess/game/board/square.tsx:76-79 | a map lookup returns an entry of the map with the requested target, or nothing when no entry has that target |
| Moves.MoveToDistinct | src/app/diychess/game/board/square.tsx:76 | in a map without repeated keys, looking up an entry's key finds that entry |
| Moves.SetEntry | src/app/diychess/game/board/piece/checkersPawn.tsx:65 | `Map.set` makes the key map to the new move, leaves every other key's entry alone, and appends when the key is new |
| Moves.SetEntryKeepsKeysDistinct | src/app/diychess/game/board/piece/checkersPawn.tsx:96 | setting an entry keeps keys distinct and introduces no move other than the one set |
| Boards.NewBoard | src/app/diychess/game/board/board.tsx:26 | a new board is well formed and consistent, has no pieces, no selection, and its origin tile is black whatever the configuration says |
| Boards.CanBePlayedBy | src/app/diychess/game/board/piece/piece.tsx:93-95 | a piece can be played by exactly the players on its owner's side: its owner and any teammate can, no player of the other side can |
| Boards.GetPawn | src/app/diychess/game/board/square.tsx:52-58 | `getPawn` returns a piece exactly when `hasPawn` holds |
| Boards.OwnerAt | src/app/diychess/game/board/squareSelectionRule.tsx:158-160 | the owner read through a square is that of the piece standing on it, and exists exactly when the square is occupied |
| Boards.PlacePawn | src/app/diychess/game/board/square.tsx:44-46 | placing a piece on a square makes it that square's piece and changes no other square |
| Boards.RemovePawn | src/app/diychess/game/board/square.tsx:48-50 | removing empties the square and changes no other square |
| Boards.PlaceThenRemove | src/app/diychess/game/board/square.tsx:44-54 | place then remove on an empty square restores the board |
| Boards.Lift | src/app/diychess/game/board/piece/piece.tsx:184-193 | lifting only marks the piece as in hand: its square, owner and the occupancy stay |
| Boards.MoveToSquare | src/app/diychess/game/board/piece/piece.tsx:217-234 | the piece leaves its old square empty, occupies the target, and no other piece or square changes |
| Boards.Place | src/app/diychess/game/board/piece/piece.tsx:195-215 | placing a piece already set down changes nothing; otherwise it is set down on the target, its old square emptied, everything else kept |
| Boards.LiftThenPlaceInPlace | src/app/diychess/game/board/piece/piece.tsx:184-215 | lifting and placing back on the current square restores the board |
| Boards.AddPiece | src/app/diychess/game/board/board.tsx:162-173 | a new piece is appended, set on its square and pushed on its owner's roster if that roster exists; earlier pieces and squares are kept |
| Boards.WithoutPiecesOn | src/app/diychess/game/board/board.tsx:116-118 | the filtered roster holds only pieces off the captured square, and every roster piece off that square is still in it |
| Boards.WithoutPiecesOnKeepsOrder | src/app/diychess/game/board/board.tsx:116-118 | the filter keeps the roster's order (its result is a subsequence of the roster) and each kept piece as often as the roster lists it, dropping every piece on the captured square |
| Boards.CapturePawn | src/app/diychess/game/board/board.tsx:109-123 | capturing an empty square is a no-op; otherwise the square is emptied and the owner's roster filtered, and a missing roster is a TypeError |
| Boards.StandingApart | src/app/diychess/game/board/square.tsx:44-54 | two pieces standing on their squares are different pieces exactly when their squares differ |
| Boards.RecordInPlaceConsistent | src/app/diychess/game/board/piece/piece.tsx:184-193 | changing a piece's state without changing its square or owner keeps the board consistent |
| Boards.MoveToSquareConsistent | src/app/diychess/game/board/piece/piece.tsx:217-234 | moving a standing piece to its own square or an empty one keeps the board consistent, and the piece stands on the target |
| Boards.PlaceConsistent | src/app/diychess/game/board/piece/piece.tsx:195-215 | placing a standing piece on its own square or an empty one keeps the board consistent, and the piece stands on the target |
| Boards.AddPieceConsistent | src/app/diychess/game/board/board.tsx:162-173 | adding a piece on an empty square keeps the board consistent, and the new piece stands |
| Boards.CapturePawnConsistent | src/app/diychess/game/board/board.tsx:109-123 | capturing a square other than the selected piece's keeps the board consistent: the captured piece leaves its square and its roster together |
| Scan.Probes | src/app/checkers/board/boardUtils.tsx:17-24 | every square the as-written scan hands its callback is the one beside `from`, so no square two or more steps out is ever probed |
| Scan.CheckSquaresBetween | src/app/checkers/board/boardUtils.tsx:5-26 | the scan rejects non-diagonal pairs, always returns false, and hands its callback the one square beside `from` as often as the distance (or never when that square does not exist) |
| Scan.ProbesAtDistanceOne | src/app/checkers/board/boardUtils.tsx:17-24 | at distance one the callback sees the far endpoint once |
| Scan.ProbesAtDistanceTwo | src/app/checkers/board/boardUtils.tsx:17-24 | at distance two the callback sees the midpoint twice |
| Scan.ProbesOfSamePoint | src/app/checkers/board/boardUtils.tsx:17 | from a square to itself the callback never runs |
| Scan.Walk | src/app/checkers/board/boardUtils.tsx:13-24 | the intended walk lists the d−1 squares strictly between the endpoints, nearest first |
| Scan.WalkUpTo | src/app/checkers/board/boardUtils.tsx:17-23 | the first n squares of the diagonal, the k-th being k steps from `from` |
| Scan.StrictlyBetweenIsInterior | src/app/checkers/board/boardUtils.tsx:17-24 | the corrected walk visits exactly the existing squares k steps from one end and d−k from the other, 0<k<d |
| Scan.ProbesMissInterior | src/app/checkers/board/boardUtils.tsx:18 | at distance three the as-written scan visits the first square three times and never the second, which the corrected walk visits |
| Scan.ProbesReachEndpoint | src/app/checkers/board/boardUtils.tsx:18 | at distance one the as-written scan visits the far endpoint, where the corrected walk visits nothing |
| Scan.WalkOnShortDiagonals | src/app/checkers/board/boardUtils.tsx:17-24 | the corrected walk is empty at distance one and is the midpoint alone at distance two |
| Rules.Selects | src/app/diychess/game/board/squareSelectionRule.tsx:11-174 | the empty-square rule selects exactly the coordinates without a piece; a diagonal-extent or piece-between rule selects only points on a diagonal within its distance, never the centre; a piece-between rule needs at least two steps. The piece-between case uses the corrected walk (see "## Left out") |
| Rules.CenterlessRules | src/app/checkers/board/SquareSelectionRule.tsx:4-58 | the prototype's centreless colour and rank rules give one verdict whatever the centre, a square is black exactly when it is not white, and a top band of no ranks selects no square of the board |
| Rules.NewPieceBetween | src/app/diychess/game/board/squareSelectionRule.tsx:112-117 | the piece-between constructors succeed exactly for a distance of at least two |
| Rules.SelectWithoutCenter | src/app/diychess/game/board/board.tsx:150-155 | calling a rule without a centre fails with a TypeError exactly for the rules that read the centre; the others give their verdict for every centre |
| Rules.EmptySquareMeansNoPawn | src/app/diychess/game/board/squareSelectionRule.tsx:18-20 | the empty-square rule selects a coordinate exactly when no piece stands on it, including coordinates with no square |
| Rules.ColoursComplementary | src/app/diychess/game/board/squareSelectionRule.tsx:30-44 | exactly one colour rule holds at every coordinate; with the origin black the white squares among non-negative coordinates are the even-sum ones; the remainder is not a parity test across mixed signs |
| Rules.RankBands | src/app/diychess/game/board/squareSelectionRule.tsx:56-72 | the bottom band is the ranks below n, the top band the last n ranks, disjoint when 2n fits the board |
| Rules.AroundIsChebyshevBall | src/app/diychess/game/board/squareSelectionRule.tsx:84-87 | the around rule is the Chebyshev ball of radius d, centre included |
| Rules.DiagonalExtentsAreDiagonalSteps | src/app/diychess/game/board/squareSelectionRule.tsx:96-105 | the diagonal extents are the squares 1…d diagonal steps from the centre, never the centre, and inside the around ball |
| Rules.PieceBetweenScansInterior | src/app/diychess/game/board/squareSelectionRule.tsx:123-146 | with the corrected walk, a piece-between rule selects a point of its extents exactly when some existing square strictly between the centre and the point holds a qualifying piece |
| Rules.PieceBetweenAtShortRange | src/app/diychess/game/board/squareSelectionRule.tsx:123-146 | with the corrected walk, up to distance two a piece-between rule selects exactly the points two diagonal steps away whose midpoint holds a qualifying piece |
| Rules.PieceBetweenAsWritten | src/app/diychess/game/board/squareSelectionRule.tsx:123-146 | the piece-between rule over the scan as written (src/app/checkers/board/boardUtils.tsx:17-24): it selects only points on a diagonal within its distance, never the centre, and only when the centre's neighbour toward the point exists and holds a qualifying piece |
| Rules.PieceBetweenInspectsNeighbour | src/app/diychess/game/board/squareSelectionRule.tsx:130-145 | with the scan as written, the rule selects a point of its extents exactly when the centre's neighbour toward it exists and holds a qualifying piece, whatever lies further along |
| Rules.OwnershipVariantsExclusive | src/app/diychess/game/board/squareSelectionRule.tsx:150-174 | the current-player and other-than variants never accept the same square, so with the scan as written they never select the same point at any distance, and with the corrected walk never up to distance two; the ownerless test is occupancy |
| Rules.PieceBetweenDiffersOneStepOut | src/app/diychess/game/board/squareSelectionRule.tsx:123-146 | one diagonal step out, a qualifying piece on the point itself makes the as-written rule select it while the corrected walk does not |
| Rules.PieceBetweenDiffersThreeStepsOut | src/app/diychess/game/board/squareSelectionRule.tsx:123-146 | three steps out, with an empty first square and a qualifying piece on the second, the corrected walk selects the point and the as-written rule does not |
| Rules.ShippedDistanceAgreesWithWalk | src/app/diychess/game/board/piece/checkersPawn.tsx:31-35 | at distance two under the empty-square mask the as-written scan and the corrected walk select the same points, so the shipped rules are unaffected by the scan defect |
| RuleSets.AddAdditiveRule | src/app/checkers/board/squareSelectionRuleSet.tsx:14-16 | an additive rule is appended and the masking list kept |
| RuleSets.AddMaskingRule | src/app/checkers/board/squareSelectionRuleSet.tsx:18-20 | a masking rule is appended and the additive list kept |
| RuleSets.EveryRejects | src/app/checkers/board/squareSelectionRuleSet.tsx:27-29 | `every(!select)` holds exactly when no rule selects |
| RuleSets.EveryAccepts | src/app/checkers/board/squareSelectionRuleSet.tsx:39-41 | `every(select)` holds exactly when all rules select |
| RuleSets.AdditivePart | src/app/checkers/board/squareSelectionRuleSet.tsx:22-32 | the additive part holds exactly when some additive rule selects, and never with none |
| RuleSets.MaskingPart | src/app/checkers/board/squareSelectionRuleSet.tsx:34-44 | the masking part holds exactly when every masking rule selects, and always with none |
| RuleSets.SetSelects | src/app/checkers/board/squareSelectionRuleSet.tsx:46-48 | a set without additive rules selects nothing, and whatever it selects every masking rule selects |
| RuleSets.SetSelectsMeaning | src/app/checkers/board/squareSelectionRuleSet.tsx:46-48 | a set selects exactly when some additive and every masking rule selects; never without additive rules |
| RuleSets.AddingMaskNarrows | src/app/checkers/board/squareSelectionRuleSet.tsx:18-20 | adding a mask narrows the selection to the points the new rule also selects |
| RuleSets.AddingAdditiveWidens | src/app/checkers/board/squareSelectionRuleSet.tsx:14-16 | adding an additive rule widens the selection by its unmasked points and loses none |
| MoveGen.RegularRuleMeaning | src/app/diychess/game/board/piece/checkersPawn.tsx:28-29 | the regular set selects the empty squares one diagonal step away |
| MoveGen.PieceBetweenRuleMeaning | src/app/diychess/game/board/piece/checkersPawn.tsx:31-35 | the jump/capture sets select the empty squares two diagonal steps away whose midpoint holds an own/another player's piece |
| MoveGen.FirstOpponentSquare | src/app/diychess/game/board/piece/checkersPawn.tsx:81-90 | the capture target search keeps the first square holding another player's piece, and finds none exactly when no scanned square does |
| MoveGen.GenerateAt | src/app/diychess/game/board/piece/checkersPawn.tsx:58-99 | a generated move belongs to the piece, starts on its square and targets the visited square |
| MoveGen.AvailableMoves | src/app/diychess/game/board/piece/checkersPawn.tsx:56-105 | the map holds only moves of the piece from its square, keyed by distinct targets |
| MoveGen.CalcAvailableMoves | src/app/diychess/game/board/piece/checkersPawn.tsx:56-57 | recomputing changes only the piece's move map, which becomes the generated one |
| MoveGen.GenerateAtMatchesReference | src/app/diychess/game/board/piece/checkersPawn.tsx:58-99 | at every square the loop body never fails and yields the geometric reference move (movement one step, jump or capture two steps over an own/opponent piece, nothing on masked or occupied squares) |
| MoveGen.GenerateAtCurrentSquare | src/app/diychess/game/board/squareSelectionRule.tsx:102-104 | the loop body yields nothing at the piece's own square |
| MoveGen.AvailableMovesMatchReference | src/app/diychess/game/board/piece/checkersPawn.tsx:56-105 | generation never fails (the "could not find target" throw is unreachable), keys are distinct, and each coordinate maps to exactly the reference move |
| MoveGen.CollectOverBoard | src/app/diychess/game/board/board.tsx:75-86 | visiting every square of the board in order gives each coordinate other than the piece's own square exactly its reference move, and never fails |
| MoveGen.CollectSkipsCurrent | src/app/diychess/game/board/board.tsx:75-86 | folding over squares that include the current square gives each other coordinate its reference move |
| MoveGen.CollectStep | src/app/diychess/game/board/board.tsx:75-86 | one visited square sets its move, if any, into the map; the map keeps belonging to the piece, starting on its square and staying on the board |
| Selection.SelectPiece | src/app/diychess/game/board/board.tsx:264-267 | the piece becomes the selection and is lifted; nothing else changes |
| Selection.DeselectPiece | src/app/diychess/game/board/board.tsx:301-304 | the selection is cleared and the formerly selected piece is set down; with nothing selected the board is unchanged |
| Selection.SelectDeselectRoundTrip | src/app/diychess/game/board/board.tsx:264-304 | selecting a set-down piece and deselecting restores the board, unselected |
| Selection.CreateAvailableMoves | src/app/diychess/game/board/board.tsx:269-281 | with no selection it is an engine error; otherwise the selected piece's moves are recomputed |
| Selection.HasAvailableMoves | src/app/diychess/game/board/board.tsx:297-299 | moves are available exactly when a piece is selected and its move map is non-empty; when none are, the all-Cancel test never answers false |
| Selection.SelectedMovesAreAllCancel | src/app/diychess/game/board/board.tsx:292-295 | undefined without a selection, otherwise whether every move of the selection is a Cancel |
| Selection.ChainFilterAdmits | src/app/diychess/game/board/square.tsx:108 | the chain filter admits jumps, captures and the Cancel but not plain movement |
| Selection.ChainRegeneration | src/app/diychess/game/board/square.tsx:108-113 | regenerating with the origin masked never fails, offers no plain movement, always offers the Cancel, and is all-Cancel exactly when no jump or capture is available |
| Selection.ChainMovesShape | src/app/diychess/game/board/square.tsx:108-113 | the map generated under the chain filter holds no plain movement, holds the Cancel on the piece's square, and is all-Cancel exactly when no jump or capture lands elsewhere |
| Setup.ReduceSelect | src/app/diychess/game/board/board.tsx:150-155 | the reduce short-circuits once false, and its first centre-reading rule raises a TypeError |
| Setup.SetupSelects | src/app/diychess/game/board/board.tsx:150-155 | an empty rule list selects nothing; otherwise a square is selected when all rules select it |
| Setup.PlaceAt | src/app/diychess/game/board/board.tsx:148-174 | one square's placement changes no other square |
| Setup.PlaceOver | src/app/diychess/game/board/board.tsx:148-175 | placement over a list of squares changes no square outside it |
| Setup.EmptyRosters | src/app/diychess/game/board/board.tsx:144-146 | both players get an empty roster and nobody else does |
| Setup.CreatePieces | src/app/diychess/game/board/board.tsx:143-176 | placement keeps the board well formed, its dimensions and its colouring |
| Setup.StaticIgnoresPieces | src/app/diychess/game/board/squareSelectionRule.tsx:30-72 | colour and rank rules give the same verdict on any two boards of the same configuration |
| Setup.PlaceAtStatic | src/app/diychess/game/board/board.tsx:157-174 | with static rules one square fails iff both lists select it, and otherwise gets white iff the white rules select it, black iff only the black rules do |
| Setup.PlaceOverStatic | src/app/diychess/game/board/board.tsx:148-175 | with static rules the placement fails iff some square is claimed by both colours, and otherwise places pieces exactly on the squares each list selects |
| Setup.PlaceOverStaticSucceeds | src/app/diychess/game/board/board.tsx:148-175 | with static rules the placement fails exactly when some visited square is selected by both lists |
| Setup.PlaceOverStaticOwners | src/app/diychess/game/board/board.tsx:148-175 | with static rules a successful placement gives each visited square white iff the white rules select it, black iff only the black rules do, and leaves every other square as it was |
| Setup.AllSelectPair | src/app/diychess/game/board/board.tsx:261 | a two-rule list selects exactly where both rules do |
| Setup.DefaultSetupPlacement | src/app/diychess/game/board/board.tsx:257-261 | on a new board at least four ranks high the shipped setup succeeds: white on the even-sum squares of ranks 0–1, black on those of the top two ranks, everything else empty |
| Setup.CenterRuleFailsSetup | src/app/diychess/game/board/board.tsx:150-155 | a setup list headed by a centre-reading rule fails with a TypeError |
| TileNames.Digits | src/app/diychess/game/board/board.tsx:59-61 | a number's decimal text is digits only and has no leading zero |
| TileNames.DigitsRoundTrip | src/app/diychess/game/board/board.tsx:59-61 | reading a number's decimal text gives the number back |
| TileNames.IntNameRoundTrip | src/app/diychess/game/board/board.tsx:59-61 | reading the text of any integer, sign included, gives it back |
| TileNames.RankName | src/app/diychess/game/board/board.tsx:63-65 | while the code stays inside 16 bits, the rank letter is `A` shifted by the rank |
| TileNames.FileName | src/app/diychess/game/board/board.tsx:59-61 | the file text reads back as the file plus one, and is digits only for non-negative files |
| TileNames.TileName | src/app/diychess/game/board/board.tsx:55-57 | a tile name is the rank letter followed by text that reads back as the file plus one |
| TileNames.TileNameRoundTrip | src/app/diychess/game/board/board.tsx:55-65 | a tile name whose rank letter stays in 16 bits reads back as its coordinate |
| TileNames.TileNamesDistinct | src/app/diychess/game/board/board.tsx:55-65 | on a board at most 65471 ranks high distinct squares have distinct names |
| TileNames.RankLetterWraps | src/app/diychess/game/board/board.tsx:63-65 | beyond 16 bits the rank letter wraps, so ranks 65536 apart share a name |
| TileNames.OriginIsA1 | src/app/diychess/game/board/board.tsx:55-65 | the origin square is named "A1" |
| Rounds.NewRound | src/app/diychess/game/round.tsx:11-18 | the first round is number 0, each later one one more than its predecessor, with the given queue and no turns |
| Rounds.OnLastTurnOfRound | src/app/diychess/game/round.tsx:40-42 | the round is on its last turn exactly when no player is left waiting in its queue |
| Rounds.SetUpNextTurn | src/app/diychess/game/round.tsx:20-38 | it fails exactly on an exhausted queue; otherwise the front player leaves the queue and receives a fresh active turn |
| Rounds.GetLatestMove | src/app/diychess/game/round.tsx:44-46 | the active turn's last move, none when it has no moves, a TypeError without an active turn |
| Rounds.GetCurrentPlayer | src/app/diychess/game/round.tsx:48-53 | the active turn's player; a state error without one |
| Rounds.RegisterMove | src/app/diychess/game/round.tsx:55-60 | the move is appended to the active turn only; a state error without one |
| Rounds.RegisterThenLatest | src/app/diychess/game/round.tsx:44-60 | a registered move is the latest, and registering changes neither the current player nor the end-of-round test |
| Rounds.TurnsDrainQueue | src/app/diychess/game/round.tsx:20-42 | N set-ups give the N queued players one turn each in queue order and leave the round on its last turn; one more fails |
| GameManager.NewManager | src/app/diychess/game/gameManager.tsx:40-54 | a fresh manager has a human white and a CPU black, no rounds, and neither flag raised |
| GameManager.CurrentRound | src/app/diychess/game/gameManager.tsx:82-90 | the current round is the last one pushed, absent before any |
| GameManager.SetUpNextRound | src/app/diychess/game/gameManager.tsx:82-92 | a new round over a copy of the players, numbered after the current one, is appended and its first turn set up; it fails only with no players |
| GameManager.RegisterMove | src/app/diychess/game/gameManager.tsx:94-96 | ignored before the first round, otherwise logged in the current round (a state error before its first turn) |
| GameManager.GetLatestMove | src/app/diychess/game/gameManager.tsx:98-103 | a state error before the first round, otherwise the current round's latest move |
| GameManager.GetCurrentPlayer | src/app/diychess/game/gameManager.tsx:143-148 | the current round's active player; a state error before a round or turn exists |
| GameManager.RegisterThenLatestMove | src/app/diychess/game/gameManager.tsx:94-103 | a move registered in an active turn is the latest move, and the current player is unchanged |
| GameManager.AdvanceTurn | src/app/diychess/game/gameManager.tsx:120-133 | a state error before the first round; a new round when the current one is exhausted, else its next turn; the turn flag is lowered |
| GameManager.StartGame | src/app/diychess/game/gameManager.tsx:78-80 | starting raises the game flag and nothing else |
| GameManager.RegisterMoveKeepsSeats | src/app/diychess/game/gameManager.tsx:94-96 | registering a move leaves every seating intact |
| GameManager.AdvanceTurnSeats | src/app/diychess/game/gameManager.tsx:120-133 | one end of turn moves the seat to the next player, or to seat 0 of the next round after the last player |
| GameManager.SeatsWithinRound | src/app/diychess/game/round.tsx:20-30 | within a round, m ends of turn from its first seat reach seat m |
| GameManager.SeatsAcrossRounds | src/app/diychess/game/gameManager.tsx:127-131 | every k ends of turn (k players) start the next round at seat 0 |
| GameManager.AdvanceTurnsSeats | src/app/diychess/game/gameManager.tsx:120-141 | after q·k+m ends of turn (m<k) the manager sits at round q, seat m, with the players unchanged |
| GameManager.PlayersAlternate | src/app/diychess/game/gameManager.tsx:74-148 | after setting up the game and q·k+m ends of turn the current player is player m and the current round is number q |
| GameManager.DefaultPlayersAlternate | src/app/diychess/game/gameManager.tsx:42-46 | with the built-in players white and black alternate, and the round number is half the ends of turn |
| Play.EndTurn | src/app/diychess/game/gameManager.tsx:120-133 | ending a turn deselects the board and advances the sequence; a state error before the first round |
| Play.PickPiece | src/app/diychess/game/board/piece/piece.tsx:256-260 | picking changes nothing unless the piece is the current player's and nothing is selected; then the piece is selected, lifted, and its moves are exactly the reference moves |
| Play.DefaultPlayersSplitPieces | src/app/diychess/game/board/piece/piece.tsx:93-95 | with the built-in human white and CPU black players, exactly one of them can play any given piece: the one on its owner's side |
| Play.SameReference | src/app/diychess/game/board/board.tsx:264-267 | selecting a piece does not change the moves the rules promise to it |
| Play.PickSquare | src/app/diychess/game/board/square.tsx:70-122 | picking a square with no selection, or with no move of the selection to it, changes nothing |
| Play.AvailableMoveOnBoard | src/app/diychess/game/board/square.tsx:76 | a move found in a piece's map belongs to that piece and stays on the board |
| Play.PickCancel | src/app/diychess/game/board/square.tsx:81-93 | picking the Cancel sets the piece down, clears the selection, registers nothing, and ends the turn exactly when the latest move exists and is not a Cancel |
| Play.PickMove | src/app/diychess/game/board/square.tsx:81-120 | picking any other move puts the piece on the target and empties the captured square; the turn either ends with the piece set down and deselected, or the chain continues with the piece lifted and a jump or capture on offer |
| Play.ApplyPicked | src/app/diychess/game/board/square.tsx:81-120 | applying a picked move keeps the board well formed; a Cancel or a move that ends the turn leaves nothing selected; any other move is registered; a Cancel fails when the latest move cannot be read |
| Play.ChainEnds | src/app/diychess/game/board/square.tsx:113 | the chain ends exactly when nothing is selected or every move the selection offers is a Cancel (an empty map included); the CPU uses the same test at src/app/diychess/game/player/cpu.tsx:97 |
| Play.ContinueChain | src/app/diychess/game/board/square.tsx:108-120 | continuing fails when the latest move cannot be read, with a TypeError when there is none, and with an engine error when nothing is selected; on success the board stays well formed and either nothing is selected or the piece is selected again, lifted, with the turn unchanged |
| Play.ContinueChainMeaning | src/app/diychess/game/board/square.tsx:108-119 | continuing a chain leaves every occupant in place; either the turn ends with the piece set down and deselected, or the piece is selected again, lifted, with a jump or capture on offer and the turn unchanged |
| GameLoop.StartTurn | src/app/diychess/game/gameManager.tsx:109-118 | a human's turn is only marked in progress; a CPU's turn is taken and ended, leaving nothing selected and no turn in progress |
| GameLoop.RenderLoop | src/app/diychess/game/gameManager.tsx:68-72 | a turn is started exactly while the game is in progress and no turn is |
| GameLoop.HumanTurnStartsOnce | src/app/diychess/game/gameManager.tsx:68-72 | after one pass starts a human's turn, further passes change nothing |
| GameLoop.CpuTurnHandsOver | src/app/diychess/game/gameManager.tsx:109-133 | one pass with the CPU to move hands the turn to the next seat |
| Cpu.NewMoveChoices | src/app/diychess/game/player/cpu.tsx:18-21 | no choices and a maximum of −MAX_VALUE, which satisfies the maximum-tracking invariant |
| Cpu.AddMove | src/app/diychess/game/player/cpu.tsx:27-32 | the choice is appended and the maximum becomes the larger of the old maximum and the new weight, keeping the invariant |
| Cpu.WithWeight | src/app/diychess/game/player/cpu.tsx:38-40 | the filter keeps exactly the moves whose choice has the given weight |
| Cpu.ChooseMove | src/app/diychess/game/player/cpu.tsx:34-43 | a rule error with no choices; otherwise a move of maximal weight, always found once the invariant holds |
| Cpu.HeaviestExists | src/app/diychess/game/player/cpu.tsx:38-42 | under the invariant some choice carries the maximum, so the random pick is defined |
| Cpu.EveryHeaviestCanBeDrawn | src/app/diychess/game/player/cpu.tsx:42 | every move of maximal weight is picked by some draw |
| Cpu.Weight | src/app/diychess/game/player/cpu.tsx:121-133 | a weight is 2 exactly for a capture, positive exactly for anything but the Cancel, and between −1 and 2 |
| Cpu.WeightOrder | src/app/diychess/game/player/cpu.tsx:121-133 | captures weigh most, any non-cancel at least one, and every weight exceeds −MAX_VALUE |
| Cpu.AddMoves | src/app/diychess/game/player/cpu.tsx:121-135 | each move of the map is appended in order with its weight, keeping the invariant |
| Cpu.AddPieceMoves | src/app/diychess/game/player/cpu.tsx:117-120 | a rule error exactly for a piece the CPU cannot play |
| Cpu.AddMovesOffers | src/app/diychess/game/player/cpu.tsx:121-135 | adding a map offers all its moves, keeps what was offered, and introduces nothing else |
| Cpu.GatherChoices | src/app/diychess/game/player/cpu.tsx:62-65 | gathering fails exactly when a rostered piece is not the CPU's, and otherwise keeps the invariant and every earlier offer |
| Cpu.GatherOffers | src/app/diychess/game/player/cpu.tsx:62-65 | every move the rules promise to a rostered piece is among the choices |
| Cpu.ApplyCpuMove | src/app/diychess/game/player/cpu.tsx:74-85 | the piece is selected, set down on the target, the captured square emptied, and everything but a Cancel registered |
| Cpu.CpuBoardAfter | src/app/diychess/game/player/cpu.tsx:74-81 | the board after a CPU move: the piece is selected and set down on the target, and the captured square is emptied |
| Cpu.ChainStepAfter | src/app/diychess/game/player/cpu.tsx:94-111 | a continuation is a jump or capture of the same piece drawn after re-lifting it, and needs a draw |
| Cpu.ContinuationIsJumpOrCapture | src/app/diychess/game/player/cpu.tsx:103-110 | when the regenerated map is not all-Cancel, every heaviest move is a jump or capture of that piece, never the Cancel |
| Cpu.PerformMove | src/app/diychess/game/player/cpu.tsx:73-115 | a performed chain starts with the given move, continues only with jumps or captures of the same piece, only after chainable moves, and keeps the seating |
| Cpu.TakeTurn | src/app/diychess/game/player/cpu.tsx:58-71 | a CPU turn performs at least one move, all by one piece, and keeps the seating and flags |
| Cpu.CpuPrefersHeaviest | src/app/diychess/game/player/cpu.tsx:58-69 | the first move is a capture whenever any CPU piece has one, and never the Cancel while any piece can move |
| Cpu.HeaviestOutweighs | src/app/diychess/game/player/cpu.tsx:38-42 | a move of maximal weight is a capture if any offered move is, and a Cancel only if all are |
| Occupancy.GeneratedMovesLand | src/app/diychess/game/board/piece/checkersPawn.tsx:56-105 | every move generated for a standing piece lands: it targets the piece's own square or an empty one, and a capture's square is neither the target nor the piece's own |
| Occupancy.SelectPieceConsistent | src/app/diychess/game/board/board.tsx:264-267 | selecting a standing piece keeps the board consistent |
| Occupancy.DeselectPieceConsistent | src/app/diychess/game/board/board.tsx:301-304 | deselecting sets the piece down where it stands and keeps the board consistent |
| Occupancy.CreateAvailableMovesPlayable | src/app/diychess/game/board/board.tsx:269-281 | recomputing the selected piece's moves keeps the board consistent, and every recomputed move lands |
| Occupancy.EndTurnPlayable | src/app/diychess/game/gameManager.tsx:120-133 | ending a turn keeps the board consistent and leaves nothing selected |
| Occupancy.PickPiecePlayable | src/app/diychess/game/board/piece/piece.tsx:256-260 | picking a piece that stands keeps the board consistent, and the moves it offers land |
| Occupancy.ContinueChainPlayable | src/app/diychess/game/board/square.tsx:108-120 | continuing a chain keeps the board consistent, and a re-lifted piece offers only moves that land |
| Occupancy.ApplyPickedPlayable | src/app/diychess/game/board/square.tsx:81-120 | applying a move that lands keeps the board consistent: the mover goes to an empty square or its own, and the captured piece leaves its square and roster together |
| Occupancy.PickSquarePlayable | src/app/diychess/game/board/square.tsx:70-122 | a pick on a square keeps the board consistent, with every move on offer landing |
| Occupancy.CpuBoardAfterConsistent | src/app/diychess/game/player/cpu.tsx:74-81 | a CPU move by a standing piece that lands keeps the board consistent |
| Occupancy.ChainStepConsistent | src/app/diychess/game/player/cpu.tsx:94-111 | a chain step keeps the board consistent, and a drawn continuation belongs to the standing mover and lands |
| Occupancy.PerformMoveConsistent | src/app/diychess/game/player/cpu.tsx:73-115 | a performed move, its whole chain included, keeps the board consistent |
| Occupancy.GatherLands | src/app/diychess/game/player/cpu.tsx:62-65 | gathering over pieces that stand offers only choices of standing pieces that land |
| Occupancy.TakeTurnConsistent | src/app/diychess/game/player/cpu.tsx:58-71 | a whole CPU turn keeps the board consistent |
| ProtoPawn.Lift | src/app/checkers/pawn.tsx:78-86 | lifting always leaves the pawn in hand |
| ProtoPawn.Place | src/app/checkers/pawn.tsx:88-98 | placing always sets the pawn down |
| ProtoPawn.ToggleLift | src/app/checkers/pawn.tsx:65-76 | the toggle keeps the undefined state and changes every defined one |
| ProtoPawn.ToggleLiftInvolution | src/app/checkers/pawn.tsx:65-76 | the toggle swaps in-hand and set-down, fixes only the undefined state, and undoes itself |
| ProtoPawn.NewBoardPawn | src/app/checkers/board/pawn/pawn.tsx:107 | the board pawn starts set down, so its first toggle lifts it |
| ProtoPawn.NewScenePawn | src/app/checkers/pawn.tsx:54-58 | the scene pawn starts in hand, so its first toggle places it |
| ProtoPawn.TogglesAlternate | src/app/checkers/board/pawn/pawn.tsx:114-125 | from a defined state an even number of toggles returns to it and an odd number swaps it |
| ProtoPawn.Neighbourhood | src/app/checkers/board/pawn/pawn.tsx:29-33 | the kept squares are exactly those within one step in both directions |
| ProtoPawn.NeighbourhoodMoves | src/app/checkers/board/pawn/pawn.tsx:26-35 | every move is an on-board square at most one step from the pawn in each direction |
| ProtoPawn.NeighbourhoodMovesMeaning | src/app/checkers/board/pawn/pawn.tsx:26-35 | the moves are exactly the on-board squares of the 3×3 block around the pawn, its own square included |
| ProtoSetup.Accepted | src/app/checkers/board/board.tsx:59-68 | a square is kept exactly when it is visited and the placement predicate accepts it |
| ProtoSetup.PawnSquaresMeaning | src/app/checkers/board/board.tsx:59-77 | a pawn is created exactly on the in-bounds squares the predicate accepts |
| ProtoSetup.GroupsOnOppositeColours | src/app/checkers/board/board.tsx:43-76 | near-group pawns stand on white tiles and far-group pawns on black ones, so no square is in both |
| ProtoSetup.GroupsKeepToTheirRows | src/app/checkers/board/board.tsx:74-76 | on a board at least six deep the groups keep to their own three rows and the rows between stay empty |
| ProtoMoveGen.ProtoGenerateAt | src/app/checkers/board/piece/checkersPawn.tsx:49-59 | a generated move belongs to the pawn and targets the visited square |
| ProtoMoveGen.ProtoCollect | src/app/checkers/board/piece/checkersPawn.tsx:48-61 | the loop keeps the map's keys distinct and its moves the pawn's own |
| ProtoMoveGen.ProtoAvailableMoves | src/app/checkers/board/piece/checkersPawn.tsx:45-64 | the map holds only the pawn's moves, keyed by distinct targets |
| ProtoMoveGen.ProtoGenerateAtMatchesReference | src/app/checkers/board/piece/checkersPawn.tsx:49-59 | the loop body yields nothing on the pawn's own square and the reference move elsewhere |
| ProtoMoveGen.ProtoCollectLookup | src/app/checkers/board/piece/checkersPawn.tsx:48-61 | a visited square decides its own entry, others keep theirs |
| ProtoMoveGen.ProtoMovesMatchReference | src/app/checkers/board/piece/checkersPawn.tsx:45-64 | each coordinate maps to exactly the reference move: Cancel on the own square, movement onto an empty neighbour, capture onto a piece the current player cannot play |
| ProtoMoveGen.ProtoMoveShapes | src/app/checkers/board/piece/checkersPawn.tsx:53-58 | the prototype never offers a jump or a move longer than one step, and a capture lands on the captured piece's own square |
| ProtoCpu.PawnWithMostMoves | src/app/checkers/cpu.tsx:18-32 | the chosen pawn is usable, has at least as many moves as every usable pawn, strictly more than every earlier one, and is absent exactly when none is usable |
| ProtoCpu.FirstHeaviest | src/app/checkers/cpu.tsx:18-32 | the position chosen is usable, weighs at least as much as every usable entry and strictly more than every earlier one, and is absent exactly when nothing is usable |
| ProtoCpu.ProtoTakeTurn | src/app/checkers/cpu.tsx:17-53 | a rule error with no usable pawn; otherwise the pawn with most moves is placed on the target of one of its moves, leaving its old square empty |
| ProtoTurns.NewProtoManager | src/app/checkers/gameManager.tsx:32-42 | turn zero, white to move, a human white and a CPU black |
| ProtoTurns.NextTurnType | src/app/checkers/gameManager.tsx:69-76 | the next turn type is the other colour |
| ProtoTurns.DelegatesToCpu | src/app/checkers/gameManager.tsx:51-56 | the turn goes to the CPU exactly when the colour whose turn it is is played by the computer |
| ProtoTurns.CurrentPlayer | src/app/checkers/gameManager.tsx:60-67 | the current player is the one the turn type names |
| ProtoTurns.NextTurn | src/app/checkers/gameManager.tsx:44-49 | the counter rises by one and the turn passes to the other colour, players kept |
| ProtoTurns.TurnsAlternate | src/app/checkers/gameManager.tsx:37-58 | after n turns the counter is n, white moves exactly when n is even, and the CPU is asked exactly when n is odd |

## Left out

- Rendering, meshes, materials, animations, sound, highlighting, labels (`createLabels`), pickability toggling (`makePickable`/`makeUnpickable`) and the GUI update: presentation only.
- Timing: `setTimeout` delays and promise scheduling are collapsed. A CPU turn runs to completion inside one render-loop pass, and no user input can interleave with it.
- The `console.warn` on capturing an empty square, and the `console.log` in the square pick handler: logging only.
- `GameManager.reset`, `dispose` and the engine and scene set-up: lifecycle plumbing around the model.
- `Board.foreachPawn` without a player (all rosters): nothing in the modelled core calls it.
- `Cpu.PerformMove`: the chain recursion is bounded by the number of draws supplied, because the source's chain need not end. Each step masks only the previous origin (src/app/diychess/game/player/cpu.tsx:94-110), and a jump (weight 1) always outweighs the Cancel (weight −1). For example, take a CPU piece on (2,2) with its own pieces on (3,3), (5,3), (5,1) and (3,1), and (4,4), (6,2) and (4,0) empty. It can jump (2,2)→(4,4)→(6,2)→(4,0)→(2,2) and round again forever. `FuelExhausted`, which the source never raises, stands for such a chain that does not end. The contracts say nothing about chains longer than the draws.
- `Cpu.ChooseMove`: the random index is the draw modulo the number of heaviest moves, rather than a uniform random choice. The contract states which moves can be drawn, not their distribution.
- `Cpu.AddPieceMoves`: the "Unexpected type of move" throw is unreachable, because every move is a Movement, Jump, Capture or Cancel. It is not modelled.
- The condition `numberOfChoices() >= 0` in `performMove` always holds, so the model continues the chain unconditionally.
- `Rules.Selects`: the piece-between case uses the corrected walk over the squares strictly between the centre and the point, not the scan as written. The two differ one step out, where the as-written scan inspects the point itself (`Rules.PieceBetweenDiffersOneStepOut`). They also differ from three steps out, where it inspects only the first square (`Rules.PieceBetweenDiffersThreeStepsOut`). The as-written rule is `Rules.PieceBetweenAsWritten`, described by `Rules.PieceBetweenInspectsNeighbour`.
- `MoveGen.GenerateAt`: it uses the piece-between rules through `Rules.Selects`, and so the corrected walk. With the shipped distance two under the empty-square mask, both forms select the same points (`Rules.ShippedDistanceAgreesWithWalk`), so the generated moves are those of the source.
- `Occupancy.PickPiecePlayable`: consistency after a pick is stated for a piece that stands on its square. That holds for every piece on the board's rosters. A captured piece's mesh is disposed (`onCapture`, src/app/diychess/game/board/piece/piece.tsx:164-166), so it can no longer be picked.
- `TileNames.TileNameRoundTrip`: proved only for ranks whose letter stays inside 16 bits. Beyond that the names wrap, as `TileNames.RankLetterWraps` states.
- `ProtoMoveGen.ProtoGenerateAt`: the prototype pawn imports `SelectDiagonalExtents` from a `squareSelectionRule` module and `Piece` (with `canBePlayedBy`) from a `piece` module that are not part of this model; the prototype's own `checkers/board/SquareSelectionRule.tsx` has no diagonal rule and a one-argument `select`. The diychess `Rules.DiagonalExtents` (through `Rules.Selects`) and `Boards.CanBePlayedBy` stand in for them.
- `ProtoCpu.ProtoTakeTurn`:
  - the prototype's own board, square and piece helpers (`board.foreachPawn`, `board.capturePawn`, `pawn.lift`, `pawn.place`) are not part of this model;
  - their diychess counterparts (`Boards.Lift`, `Boards.CapturePawn`, `Boards.Place`) stand in for them;
  - the pawns are passed in as a list.
- Prototype versions disagree:
  - `src/app/checkers/gameManager.tsx` builds a `Board` with a constructor that `src/app/checkers/board/board.tsx` does not have, so the 5×5 configuration there is not connected to the 8×8 `setup` modelled in `ProtoSetup`;
  - the Player constructors also differ in arity.
- The prototype pick guards (`board.selectedPawn == undefined`) and `onLift` callbacks: they only decide which pawn the GUI treats as selected.
- `Board.hasAvailableMoves` parses as `size ?? (0 > 0)`. Behaviourally that is "a non-empty map" whenever a piece is selected, and that is how it is modelled.
- Floating point: coordinates are integers and weights are exact. `Number.MAX_VALUE` is written out as the exact integer value of the largest finite double.

## Findings

| source | as written | input that shows it | evidently intended | confidence | as-written member | corrected member |
|---|---|---|---|---|---|---|
| src/app/checkers/board/boardUtils.tsx:17-24 | the probe is always `from + unit` and never advances, so the callback sees the neighbour of `from` once per step (and the far endpoint at distance one) | from (0,0) to (3,3): the callback sees (1,1) three times and never (2,2) | visit each square strictly between the endpoints once, nearest first | high (from reading boardUtils.tsx:17-24); not executed; the shipped distance-2 rules are unaffected (`Rules.ShippedDistanceAgreesWithWalk`) | Scan.ProbesMissInterior | Scan.StrictlyBetweenIsInterior |

=== FILE: boards.dfy ===
/**
 * The board's occupancy state: which piece stands on which square, each
 * piece's own record, and the per-owner lists of pieces still in play.
 */
module Boards {
  import opened Coords
  import opened Outcomes
  import opened Players
  import opened Moves

  /**
   * One piece: its owner, the square it stands on, whether it is set down
   * (`placed`) or lifted, and the moves last computed for it.
   */
  datatype PieceState = PieceState(owner: Player, square: Coord, placed: bool, available: seq<Move>)

  /**
   * The board. `occupant` maps a square to the piece on it; `pieces` holds
   * every piece ever created, indexed by `PieceId` (a captured piece stays
   * here but leaves its square and its owner's roster); `rosters` maps an
   * owner's name to the pieces it still has in play.
   */
  datatype Board = Board(
    dims: Dimensions,
    originTileIsBlack: bool,
    occupant: map<Coord, PieceId>,
    pieces: seq<PieceState>,
    rosters: map<string, seq<PieceId>>,
    selected: Option<PieceId>)

  /** A square exists for every coordinate inside the dimensions, and only there. */
  predicate HasSquare(b: Board, c: Coord) {
    InBounds(b.dims, c)
  }

  predicate MoveOnBoard(b: Board, m: Move) {
    && HasSquare(b, m.origin)
    && HasSquare(b, m.target)
    && (m.kind.Capture? ==> HasSquare(b, m.kind.captureSquare))
  }

  /** Every reference the board holds points to an existing piece or square. */
  ghost predicate Valid(b: Board) {
    && (forall c | c in b.occupant :: HasSquare(b, c) && b.occupant[c] < |b.pieces|)
    && (forall i | 0 <= i < |b.pieces| :: HasSquare(b, b.pieces[i].square))
    && (forall i, k | 0 <= i < |b.pieces| && 0 <= k < |b.pieces[i].available| ::
          b.pieces[i].available[k].piece == i && MoveOnBoard(b, b.pieces[i].available[k]))
    && (forall n, k | n in b.rosters && 0 <= k < |b.rosters[n]| :: b.rosters[n][k] < |b.pieces|)
    && (b.selected.Some? ==> b.selected.value < |b.pieces|)
  }

  /** Clearing the selection drops the only reference it held. */
  lemma UnselectedStaysValid(b: Board)
    requires Valid(b)
    ensures Valid(b.(selected := None))
  {
  }

  /** A board of empty squares; the origin tile is black whatever the configuration says. */
  function NewBoard(dims: Dimensions): (b: Board)
    ensures Valid(b)
    ensures b.originTileIsBlack
    ensures forall c :: !HasPawn(b, c)
    ensures |b.pieces| == 0 && b.selected.None?
    ensures Consistent(b)
  {
    Board(dims, true, map[], [], map[], None)
  }

  predicate HasPawn(b: Board, c: Coord) {
    c in b.occupant
  }

  function GetPawn(b: Board, c: Coord): (r: Option<PieceId>)
    ensures r.Some? <==> HasPawn(b, c)
  {
    if c in b.occupant then Some(b.occupant[c]) else None
  }

  /** The owner of the piece on `c`, if one stands there. */
  function OwnerAt(b: Board, c: Coord): (r: Option<Player>)
    requires Valid(b)
    ensures r.Some? <==> HasPawn(b, c)
    ensures r.Some? ==> r.value == b.pieces[b.occupant[c]].owner
  {
    if c in b.occupant then Some(b.pieces[b.occupant[c]].owner) else None
  }

  /**
   * A piece can be played by every player on its owner's side, its owner
   * first of all, and by no player of the other side.
   */
  function CanBePlayedBy(p: PieceState, player: Player): (r: bool)
    ensures player == p.owner ==> r
    ensures player.side == p.owner.side ==> r
    ensures player.side != p.owner.side ==> !r
  {
    p.owner.side == player.side
  }

  /** Square.placePawn: the square now holds `id`, whatever it held before. */
  function PlacePawn(b: Board, c: Coord, id: PieceId): (r: Board)
    requires Valid(b) && HasSquare(b, c) && id < |b.pieces|
    ensures Valid(r)
    ensures GetPawn(r, c) == Some(id)
    ensures forall d | d != c :: GetPawn(r, d) == GetPawn(b, d)
    ensures r.pieces == b.pieces && r.rosters == b.rosters && r.selected == b.selected
    ensures r.dims == b.dims && r.originTileIsBlack == b.originTileIsBlack
  {
    b.(occupant := b.occupant[c := id])
  }

  /** Square.removePawn: the square is empty afterwards. */
  function RemovePawn(b: Board, c: Coord): (r: Board)
    requires Valid(b)
    ensures Valid(r)
    ensures !HasPawn(r, c)
    ensures forall d | d != c :: GetPawn(r, d) == GetPawn(b, d)
    ensures r.pieces == b.pieces && r.rosters == b.rosters && r.selected == b.selected
    ensures r.dims == b.dims && r.originTileIsBlack == b.originTileIsBlack
  {
    b.(occupant := b.occupant - {c})
  }

  /** Square.placePawn then Square.getPawn / hasPawn give back the piece; removePawn undoes it. */
  lemma PlaceThenRemove(b: Board, c: Coord, id: PieceId)
    requires Valid(b) && HasSquare(b, c) && id < |b.pieces|
    ensures HasPawn(PlacePawn(b, c, id), c)
    ensures !HasPawn(RemovePawn(PlacePawn(b, c, id), c), c)
    ensures !HasPawn(b, c) ==> RemovePawn(PlacePawn(b, c, id), c) == b
  {
    if !HasPawn(b, c) {
      assert RemovePawn(PlacePawn(b, c, id), c).occupant == b.occupant;
    }
  }

  function SetPiece(b: Board, id: PieceId, p: PieceState): (r: Board)
    requires Valid(b) && id < |b.pieces| && HasSquare(b, p.square)
    requires forall k | 0 <= k < |p.available| :: p.available[k].piece == id && MoveOnBoard(b, p.available[k])
    ensures |r.pieces| == |b.pieces|
    ensures Valid(r)
    ensures r == b.(pieces := b.pieces[id := p])
  {
    SetPieceValid(b, id, p);
    b.(pieces := b.pieces[id := p])
  }

  lemma SetPieceValid(b: Board, id: PieceId, p: PieceState)
    requires Valid(b) && id < |b.pieces| && HasSquare(b, p.square)
    requires forall k | 0 <= k < |p.available| :: p.available[k].piece == id && MoveOnBoard(b, p.available[k])
    ensures Valid(b.(pieces := b.pieces[id := p]))
  {
    var r := b.(pieces := b.pieces[id := p]);
    forall i, k | 0 <= i < |r.pieces| && 0 <= k < |r.pieces[i].available|
      ensures r.pieces[i].available[k].piece == i && MoveOnBoard(r, r.pieces[i].available[k])
    {
      if i != id {
        assert r.pieces[i] == b.pieces[i];
      }
    }
  }

  /** Piece.lift: the piece is in hand; nothing else changes. */
  function Lift(b: Board, id: PieceId): (r: Board)
    requires Valid(b) && id < |b.pieces|
    ensures |r.pieces| == |b.pieces|
    ensures Valid(r)
    ensures !r.pieces[id].placed
    ensures r.pieces[id].square == b.pieces[id].square && r.pieces[id].owner == b.pieces[id].owner
    ensures r.occupant == b.occupant && r.rosters == b.rosters && r.selected == b.selected
  {
    SetPiece(b, id, b.pieces[id].(placed := false))
  }

  /**
   * Piece.moveToSquare: vacate the current square, occupy `target`, and
   * record `target` as the current square.
   */
  function MoveToSquare(b: Board, id: PieceId, target: Coord): (r: Board)
    requires Valid(b) && id < |b.pieces| && HasSquare(b, target)
    ensures Valid(r)
    ensures GetPawn(r, target) == Some(id) && r.pieces[id].square == target
    ensures target != b.pieces[id].square ==> !HasPawn(r, b.pieces[id].square)
    ensures forall d | d != target && d != b.pieces[id].square :: GetPawn(r, d) == GetPawn(b, d)
    ensures |r.pieces| == |b.pieces|
    ensures forall j | 0 <= j < |b.pieces| && j != id :: r.pieces[j] == b.pieces[j]
    ensures r.pieces[id].owner == b.pieces[id].owner && r.pieces[id].placed == b.pieces[id].placed
    ensures r.rosters == b.rosters && r.selected == b.selected && r.dims == b.dims
  {
    var vacated := RemovePawn(b, b.pieces[id].square);
    var occupied := PlacePawn(vacated, target, id);
    SetPiece(occupied, id, occupied.pieces[id].(square := target))
  }

  /**
   * Piece.place: a no-op while the piece is set down; otherwise it moves the
   * piece to `target` and sets it down.
   */
  function Place(b: Board, id: PieceId, target: Coord): (r: Board)
    requires Valid(b) && id < |b.pieces| && HasSquare(b, target)
    ensures |r.pieces| == |b.pieces|
    ensures Valid(r)
    ensures b.pieces[id].placed ==> r == b
    ensures !b.pieces[id].placed ==> r.pieces[id].placed && r.pieces[id].square == target && GetPawn(r, target) == Some(id)
    ensures !b.pieces[id].placed && target != b.pieces[id].square ==> !HasPawn(r, b.pieces[id].square)
    ensures forall d | d != target && d != b.pieces[id].square :: GetPawn(r, d) == GetPawn(b, d)
    ensures r.pieces[id].owner == b.pieces[id].owner
    ensures forall j | 0 <= j < |b.pieces| && j != id :: r.pieces[j] == b.pieces[j]
    ensures r.rosters == b.rosters && r.selected == b.selected && r.dims == b.dims
  {
    if b.pieces[id].placed then b
    else
      var moved := MoveToSquare(b, id, target);
      SetPiece(moved, id, moved.pieces[id].(placed := true))
  }

  /** Lifting and then placing on the current square leaves the piece set down where it was. */
  lemma LiftThenPlaceInPlace(b: Board, id: PieceId)
    requires Valid(b) && id < |b.pieces|
    requires GetPawn(b, b.pieces[id].square) == Some(id)
    ensures var r := Place(Lift(b, id), id, b.pieces[id].square);
      r.pieces[id].placed && r.pieces[id].square == b.pieces[id].square && r.occupant == b.occupant
  {
    var l := Lift(b, id);
    var r := Place(l, id, b.pieces[id].square);
    assert r.occupant == b.occupant;
  }

  /**
   * Piece constructor plus Board.createPieces' bookkeeping: a fresh piece,
   * not placed, standing on `c` (the constructor's moveToSquare and the
   * explicit placePawn both put it there), appended to its owner's roster
   * when the owner has one.
   */
  function AddPiece(b: Board, owner: Player, c: Coord): (r: Board)
    requires Valid(b) && HasSquare(b, c)
    ensures Valid(r)
    ensures |r.pieces| == |b.pieces| + 1 && r.pieces[..|b.pieces|] == b.pieces
    ensures r.pieces[|b.pieces|] == PieceState(owner, c, false, [])
    ensures GetPawn(r, c) == Some(|b.pieces|)
    ensures forall d | d != c :: GetPawn(r, d) == GetPawn(b, d)
    ensures owner.name in b.rosters ==> r.rosters == b.rosters[owner.name := b.rosters[owner.name] + [|b.pieces|]]
    ensures owner.name !in b.rosters ==> r.rosters == b.rosters
    ensures r.selected == b.selected && r.dims == b.dims && r.originTileIsBlack == b.originTileIsBlack
  {
    var id := |b.pieces|;
    var rosters := if owner.name in b.rosters then b.rosters[owner.name := b.rosters[owner.name] + [id]] else b.rosters;
    var r := b.(occupant := b.occupant[c := id], pieces := b.pieces + [PieceState(owner, c, false, [])], rosters := rosters);
    AddPieceValid(b, r, c, id);
    r
  }

  lemma AddPieceValid(b: Board, r: Board, c: Coord, id: PieceId)
    requires Valid(b) && HasSquare(b, c) && id == |b.pieces|
    requires |r.pieces| == id + 1 && r.pieces[..id] == b.pieces && r.pieces[id].square == c && r.pieces[id].available == []
    requires r.occupant == b.occupant[c := id] && r.dims == b.dims && r.selected == b.selected
    requires forall n, k | n in r.rosters && 0 <= k < |r.rosters[n]| :: r.rosters[n][k] <= id
    ensures Valid(r)
  {
    forall i | 0 <= i < id
      ensures r.pieces[i] == b.pieces[i]
    {
      assert r.pieces[..id][i] == r.pieces[i];
    }
  }

  /** `s` is `t` with some entries left out and the others in their order. */
  predicate IsSubsequence(s: seq<PieceId>, t: seq<PieceId>)
    decreases |t|
  {
    if |s| == 0 then true
    else if |t| == 0 then false
    else (s[0] == t[0] && IsSubsequence(s[1..], t[1..])) || IsSubsequence(s, t[1..])
  }

  /** The roster without the pieces recorded on `sq`, order kept. */
  function WithoutPiecesOn(b: Board, ids: seq<PieceId>, sq: Coord): (r: seq<PieceId>)
    requires forall k | 0 <= k < |ids| :: ids[k] < |b.pieces|
    ensures |r| <= |ids|
    ensures forall k | 0 <= k < |r| :: r[k] in ids && r[k] < |b.pieces| && b.pieces[r[k]].square != sq
    ensures forall k | 0 <= k < |ids| && b.pieces[ids[k]].square != sq :: ids[k] in r
  {
    if |ids| == 0 then []
    else
      var rest := WithoutPiecesOn(b, ids[1..], sq);
      if b.pieces[ids[0]].square != sq then [ids[0]] + rest else rest
  }

  /**
   * The filter is exactly `Array.filter`: its result is a subsequence of the
   * roster, and each kept piece occurs as often as in the roster while each
   * dropped piece does not occur at all.
   */
  lemma WithoutPiecesOnKeepsOrder(b: Board, ids: seq<PieceId>, sq: Coord)
    requires forall k | 0 <= k < |ids| :: ids[k] < |b.pieces|
    ensures IsSubsequence(WithoutPiecesOn(b, ids, sq), ids)
    ensures forall x | x in ids ::
      multiset(WithoutPiecesOn(b, ids, sq))[x] == if b.pieces[x].square != sq then multiset(ids)[x] else 0
  {
    WithoutPiecesOnSubsequence(b, ids, sq);
    WithoutPiecesOnCounts(b, ids, sq);
  }

  lemma {:induction false} WithoutPiecesOnSubsequence(b: Board, ids: seq<PieceId>, sq: Coord)
    requires forall k | 0 <= k < |ids| :: ids[k] < |b.pieces|
    ensures IsSubsequence(WithoutPiecesOn(b, ids, sq), ids)
    decreases |ids|
  {
    if |ids| > 0 {
      var rest := WithoutPiecesOn(b, ids[1..], sq);
      WithoutPiecesOnSubsequence(b, ids[1..], sq);
      if b.pieces[ids[0]].square != sq {
        var r := [ids[0]] + rest;
        assert WithoutPiecesOn(b, ids, sq) == r;
        assert r[0] == ids[0] && r[1..] == rest;
      } else {
        assert WithoutPiecesOn(b, ids, sq) == rest;
        SubsequenceOfTail(rest, ids);
      }
    }
  }

  lemma {:induction false} WithoutPiecesOnCounts(b: Board, ids: seq<PieceId>, sq: Coord)
    requires forall k | 0 <= k < |ids| :: ids[k] < |b.pieces|
    ensures forall x | x in ids ::
      multiset(WithoutPiecesOn(b, ids, sq))[x] == if b.pieces[x].square != sq then multiset(ids)[x] else 0
    decreases |ids|
  {
    if |ids| > 0 {
      var rest := WithoutPiecesOn(b, ids[1..], sq);
      WithoutPiecesOnCounts(b, ids[1..], sq);
      assert ids == [ids[0]] + ids[1..];
      var r := WithoutPiecesOn(b, ids, sq);
      assert multiset(ids) == multiset([ids[0]]) + multiset(ids[1..]);
      assert multiset(r) == if b.pieces[ids[0]].square != sq then multiset([ids[0]]) + multiset(rest) else multiset(rest);
      forall x | x in ids
        ensures multiset(r)[x] == if b.pieces[x].square != sq then multiset(ids)[x] else 0
      {
        if x != ids[0] {
          assert x in ids[1..];
        } else if x !in ids[1..] {
          assert multiset(ids[1..])[x] == 0;
          assert x !in rest;
        }
      }
    }
  }

  /** Dropping the head of the longer sequence keeps a subsequence of its tail one of the whole. */
  lemma {:induction false} SubsequenceOfTail(s: seq<PieceId>, t: seq<PieceId>)
    requires |t| > 0 && IsSubsequence(s, t[1..])
    ensures IsSubsequence(s, t)
  {
  }

  /**
   * Board.capturePawn. An empty square only draws a warning and changes
   * nothing; otherwise the occupant leaves its owner's roster (every roster
   * entry recorded on the occupant's square is dropped) and the square is
   * vacated. An owner without a roster is a TypeError.
   */
  function CapturePawn(b: Board, c: Coord): (r: Result<Board>)
    requires Valid(b)
    ensures !HasPawn(b, c) ==> r == Ok(b)
    ensures HasPawn(b, c) ==> (r.Ok? <==> b.pieces[b.occupant[c]].owner.name in b.rosters)
    ensures r.Ok? ==> Valid(r.value)
    ensures r.Ok? ==> !HasPawn(r.value, c)
    ensures r.Ok? ==> forall d | d != c :: GetPawn(r.value, d) == GetPawn(b, d)
    ensures r.Ok? ==> r.value.pieces == b.pieces && r.value.selected == b.selected && r.value.dims == b.dims
    ensures r.Ok? && HasPawn(b, c) ==>
      var victim := b.occupant[c];
      var name := b.pieces[victim].owner.name;
      && r.value.rosters.Keys == b.rosters.Keys
      && victim !in r.value.rosters[name]
      && (forall n | n in b.rosters && n != name :: r.value.rosters[n] == b.rosters[n])
      && (forall k | 0 <= k < |b.rosters[name]| && b.pieces[b.rosters[name][k]].square != b.pieces[victim].square ::
            b.rosters[name][k] in r.value.rosters[name])
  {
    match GetPawn(b, c)
    case None => Ok(b)
    case Some(victim) =>
      var name := b.pieces[victim].owner.name;
      if name !in b.rosters then Err(RuntimeTypeError)
      else
        var kept := WithoutPiecesOn(b, b.rosters[name], b.pieces[victim].square);
        Ok(RemovePawn(b.(rosters := b.rosters[name := kept]), c))
  }

  /** Piece `id` stands on the square it records. */
  predicate Stands(b: Board, id: PieceId)
    requires id < |b.pieces|
  {
    GetPawn(b, b.pieces[id].square) == Some(id)
  }

  /**
   * The occupancy invariant: the piece on a square records that square;
   * every piece a roster lists stands on its square and belongs to the
   * roster's owner; the selected piece stands on its square.
   */
  ghost predicate Consistent(b: Board) {
    && Valid(b)
    && (forall c | c in b.occupant :: b.pieces[b.occupant[c]].square == c)
    && (forall n, k | n in b.rosters && 0 <= k < |b.rosters[n]| ::
          Stands(b, b.rosters[n][k]) && b.pieces[b.rosters[n][k]].owner.name == n)
    && (b.selected.Some? ==> Stands(b, b.selected.value))
  }

  /** Two pieces that both stand are on different squares exactly when they differ. */
  lemma StandingApart(b: Board, i: PieceId, j: PieceId)
    requires i < |b.pieces| && j < |b.pieces| && Stands(b, i) && Stands(b, j)
    ensures i != j <==> b.pieces[i].square != b.pieces[j].square
  {
  }

  /**
   * Rewriting a piece's record without moving it or changing its owner
   * (lifting, setting down in place, storing new moves) keeps the board
   * consistent.
   */
  lemma {:induction false} RecordInPlaceConsistent(b: Board, id: PieceId, p: PieceState)
    requires Consistent(b) && id < |b.pieces|
    requires p.square == b.pieces[id].square && p.owner == b.pieces[id].owner
    requires forall k | 0 <= k < |p.available| :: p.available[k].piece == id && MoveOnBoard(b, p.available[k])
    ensures Consistent(b.(pieces := b.pieces[id := p]))
  {
    var r := b.(pieces := b.pieces[id := p]);
    SetPieceValid(b, id, p);
    assert forall j | 0 <= j < |b.pieces| :: r.pieces[j].square == b.pieces[j].square && r.pieces[j].owner == b.pieces[j].owner;
  }

  /**
   * Moving a piece that stands on its square to an empty square, or back
   * onto its own, keeps the board consistent, and the piece stands on the
   * target afterwards.
   */
  lemma {:induction false} MoveToSquareConsistent(b: Board, id: PieceId, target: Coord)
    requires Consistent(b) && id < |b.pieces| && HasSquare(b, target) && Stands(b, id)
    requires target == b.pieces[id].square || !HasPawn(b, target)
    ensures Consistent(MoveToSquare(b, id, target))
    ensures Stands(MoveToSquare(b, id, target), id)
  {
    var r := MoveToSquare(b, id, target);
    var sq := b.pieces[id].square;
    forall c | c in r.occupant
      ensures r.pieces[r.occupant[c]].square == c
    {
      if c != target {
        assert GetPawn(r, c) == GetPawn(b, c);
      }
    }
    forall j | 0 <= j < |b.pieces| && j != id && Stands(b, j)
      ensures Stands(r, j)
    {
      StandingApart(b, id, j);
      assert GetPawn(r, b.pieces[j].square) == GetPawn(b, b.pieces[j].square);
    }
  }

  /** Setting down a standing piece on an empty square or its own keeps the board consistent; it stands where it is. */
  lemma {:induction false} PlaceConsistent(b: Board, id: PieceId, target: Coord)
    requires Consistent(b) && id < |b.pieces| && HasSquare(b, target) && Stands(b, id)
    requires target == b.pieces[id].square || !HasPawn(b, target)
    ensures Consistent(Place(b, id, target))
    ensures Stands(Place(b, id, target), id)
  {
    if !b.pieces[id].placed {
      var moved := MoveToSquare(b, id, target);
      MoveToSquareConsistent(b, id, target);
      RecordInPlaceConsistent(moved, id, moved.pieces[id].(placed := true));
    }
  }

  /** A new piece on an empty square keeps the board consistent, and stands there. */
  lemma {:induction false} AddPieceConsistent(b: Board, owner: Player, c: Coord)
    requires Consistent(b) && HasSquare(b, c) && !HasPawn(b, c)
    ensures Consistent(AddPiece(b, owner, c))
    ensures Stands(AddPiece(b, owner, c), |b.pieces|)
  {
    var r := AddPiece(b, owner, c);
    var id := |b.pieces|;
    forall j | 0 <= j < id
      ensures r.pieces[j] == b.pieces[j]
    {
      assert r.pieces[..id][j] == r.pieces[j];
    }
    forall j | 0 <= j < id && Stands(b, j)
      ensures Stands(r, j)
    {
      assert GetPawn(r, b.pieces[j].square) == GetPawn(b, b.pieces[j].square);
    }
    forall n, k | n in r.rosters && 0 <= k < |r.rosters[n]|
      ensures Stands(r, r.rosters[n][k]) && r.pieces[r.rosters[n][k]].owner.name == n
    {
      if n == owner.name && k == |b.rosters[n]| {
        assert r.rosters[n][k] == id;
      } else {
        assert r.rosters[n][k] == b.rosters[n][k];
      }
    }
    forall d | d in r.occupant
      ensures r.pieces[r.occupant[d]].square == d
    {
      if d != c {
        assert GetPawn(r, d) == GetPawn(b, d);
      }
    }
  }

  /**
   * Capturing any piece but the selected one keeps the board consistent:
   * the victim leaves its square and its owner's roster together.
   */
  lemma {:induction false} CapturePawnConsistent(b: Board, c: Coord)
    requires Consistent(b) && CapturePawn(b, c).Ok?
    requires b.selected.Some? ==> b.pieces[b.selected.value].square != c
    ensures Consistent(CapturePawn(b, c).value)
  {
    if HasPawn(b, c) {
      var r := CapturePawn(b, c).value;
      var victim := b.occupant[c];
      var name := b.pieces[victim].owner.name;
      forall j | 0 <= j < |b.pieces| && Stands(b, j) && b.pieces[j].square != c
        ensures Stands(r, j)
      {
        assert GetPawn(r, b.pieces[j].square) == GetPawn(b, b.pieces[j].square);
      }
      forall n, k | n in r.rosters && 0 <= k < |r.rosters[n]|
        ensures Stands(r, r.rosters[n][k]) && r.pieces[r.rosters[n][k]].owner.name == n
      {
        var j := r.rosters[n][k];
        if n == name {
          var i :| 0 <= i < |b.rosters[n]| && b.rosters[n][i] == j;
        } else {
          assert j == b.rosters[n][k];
          StandingApart(b, victim, j);
        }
      }
      forall d | d in r.occupant
        ensures r.pieces[r.occupant[d]].square == d
      {
        assert GetPawn(r, d) == GetPawn(b, d);
      }
    }
  }

  /** Piece.allAvailableMovesAreCancel. */
  predicate AllAvailableMovesAreCancel(b: Board, id: PieceId)
    requires id < |b.pieces|
  {
    AllCancel(b.pieces[id].available)
  }
}

=== FILE: coords.dfy ===
/** Integer board coordinates and the grid arithmetic the rules rely on. */
module Coords {

  /** A square's (file, rank) pair; `x` is the file, `y` the rank. */
  datatype Coord = Coord(x: int, y: int)

  function Abs(n: int): nat {
    if n < 0 then -n else n
  }

  /** The result of `n / |n|` for a non-zero `n`; 0 stands in for the NaN of `0 / 0`. */
  function Sign(n: int): int {
    if n > 0 then 1 else if n < 0 then -1 else 0
  }

  /** JavaScript's `n % 2`: the remainder takes the sign of the dividend. */
  function JsRem2(n: int): (r: int)
    ensures n >= 0 ==> r == 0 || r == 1
    ensures n < 0 ==> r == 0 || r == -1
  {
    if n >= 0 then n % 2 else -((-n) % 2)
  }

  /** Truncating and Euclidean remainders by 2 agree on which numbers are even. */
  lemma JsRem2IsParity(n: int)
    ensures JsRem2(n) == 0 <==> n % 2 == 0
  {
  }

  function Dx(from: Coord, to: Coord): int {
    to.x - from.x
  }

  function Dy(from: Coord, to: Coord): int {
    to.y - from.y
  }

  /** `to` is exactly `k` diagonal steps away from `from`. */
  predicate OnDiagonal(from: Coord, to: Coord, k: int) {
    Abs(Dx(from, to)) == k && Abs(Dy(from, to)) == k
  }

  /** The square one diagonal step from `from` in the direction of `to`. */
  function StepToward(from: Coord, to: Coord): Coord {
    Coord(from.x + Sign(Dx(from, to)), from.y + Sign(Dy(from, to)))
  }

  /** The centre of a two-step diagonal, by halving the offset. */
  function Midpoint(from: Coord, to: Coord): Coord {
    Coord(from.x + Dx(from, to) / 2, from.y + Dy(from, to) / 2)
  }

  lemma StepTowardOnShortDiagonals(from: Coord, to: Coord)
    ensures OnDiagonal(from, to, 1) ==> StepToward(from, to) == to
    ensures OnDiagonal(from, to, 2) ==> StepToward(from, to) == Midpoint(from, to)
    ensures OnDiagonal(from, to, 2) ==> StepToward(from, to) != to && StepToward(from, to) != from
  {
  }

  /** The board's dimensions; every coordinate inside them has exactly one square. */
  datatype Dimensions = Dimensions(width: int, height: int)

  predicate InBounds(dims: Dimensions, c: Coord) {
    0 <= c.x < dims.width && 0 <= c.y < dims.height
  }

  /** The coordinates of one file, ranks ascending. */
  function Column(x: int, height: int): (col: seq<Coord>)
    ensures |col| == if height > 0 then height else 0
    ensures forall i | 0 <= i < |col| :: col[i] == Coord(x, i)
    decreases if height < 0 then 0 else height
  {
    if height <= 0 then [] else Column(x, height - 1) + [Coord(x, height - 1)]
  }

  /**
   * The order in which the board visits its squares: files ascending in the
   * outer loop, ranks ascending in the inner loop.
   */
  function SquareOrder(width: int, height: int): seq<Coord>
    decreases if width < 0 then 0 else width
  {
    if width <= 0 then [] else SquareOrder(width - 1, height) + Column(width - 1, height)
  }

  /** Lexicographic order on (file, rank): the order the two nested loops produce. */
  predicate VisitedBefore(a: Coord, b: Coord) {
    a.x < b.x || (a.x == b.x && a.y < b.y)
  }

  lemma {:induction false} SquareOrderCovers(width: int, height: int, c: Coord)
    ensures c in SquareOrder(width, height) <==> InBounds(Dimensions(width, height), c)
    decreases if width < 0 then 0 else width
  {
    if width > 0 {
      SquareOrderCovers(width - 1, height, c);
      var col := Column(width - 1, height);
      if c.x == width - 1 && 0 <= c.y < height {
        assert col[c.y] == c;
      }
    }
  }

  lemma {:induction false} SquareOrderSorted(width: int, height: int)
    ensures forall i, j | 0 <= i < j < |SquareOrder(width, height)| ::
      VisitedBefore(SquareOrder(width, height)[i], SquareOrder(width, height)[j])
    decreases if width < 0 then 0 else width
  {
    if width > 0 {
      SquareOrderSorted(width - 1, height);
      var pre := SquareOrder(width - 1, height);
      var col := Column(width - 1, height);
      var s := pre + col;
      forall i | 0 <= i < |pre|
        ensures s[i].x < width - 1
      {
        SquareOrderCovers(width - 1, height, pre[i]);
        assert pre[i] in pre;
      }
    }
  }

  /** Each coordinate is visited at most once. */
  lemma SquareOrderDistinct(width: int, height: int)
    ensures forall i, j | 0 <= i < j < |SquareOrder(width, height)| ::
      SquareOrder(width, height)[i] != SquareOrder(width, height)[j]
  {
    SquareOrderSorted(width, height);
  }

  /** Every coordinate the board order visits is inside the dimensions. */
  lemma SquareOrderInBounds(dims: Dimensions)
    ensures forall k | 0 <= k < |SquareOrder(dims.width, dims.height)| ::
      InBounds(dims, SquareOrder(dims.width, dims.height)[k])
  {
    forall k | 0 <= k < |SquareOrder(dims.width, dims.height)|
      ensures InBounds(dims, SquareOrder(dims.width, dims.height)[k])
    {
      SquareOrderCovers(dims.width, dims.height, SquareOrder(dims.width, dims.height)[k]);
    }
  }
}

=== FILE: cpu.dfy ===
/**
 * The CPU player: every move of every piece it owns is weighed, one of the
 * heaviest is performed, and a chainable move is followed by further jumps
 * or captures of the same piece for as long as the regenerated moves offer one.
 */
module Cpu {
  import opened Coords
  import opened Outcomes
  import opened Players
  import opened Moves
  import opened Boards
  import opened MoveGen
  import opened Selection
  import opened GameManager
  import opened Play

  /** One weighed candidate. */
  datatype Choice = Choice(move: Move, weight: int)

  /** The candidates in the order added, and the running maximum weight. */
  datatype MoveChoices = MoveChoices(choices: seq<Choice>, maxWeight: int)

  /** Number.MAX_VALUE, the largest finite double, as an exact integer: (2 − 2^−52)·2^1023. */
  const MaxValue: int := 179769313486231570814527423731704356798070567525844996598917476803157260780028538760589558632766878171540458953514382464234321326889464182768467546703537516986049910576551282076245490090389328944075868508455133942304583236903222948165808559332123348274797826204144723168738177180919299881250404026184124858368

  /** The running maximum never falls below −MAX_VALUE, bounds every weight, and is reached unless still at its start. */
  ghost predicate Tracks(mc: MoveChoices) {
    && mc.maxWeight >= -MaxValue
    && (forall i | 0 <= i < |mc.choices| :: mc.choices[i].weight <= mc.maxWeight)
    && (mc.maxWeight == -MaxValue || exists ch | ch in mc.choices :: ch.weight == mc.maxWeight)
  }

  /** The constructor: no choices, maximum −MAX_VALUE. */
  function NewMoveChoices(): (mc: MoveChoices)
    ensures mc.choices == [] && mc.maxWeight == -MaxValue && Tracks(mc)
  {
    MoveChoices([], -MaxValue)
  }

  /** addMove: append, and raise the maximum when the new weight is strictly larger. */
  function AddMove(mc: MoveChoices, m: Move, w: int): (r: MoveChoices)
    ensures r.choices == mc.choices + [Choice(m, w)]
    ensures r.maxWeight >= w && r.maxWeight >= mc.maxWeight
    ensures r.maxWeight == w || r.maxWeight == mc.maxWeight
    ensures Tracks(mc) ==> Tracks(r)
  {
    var r := MoveChoices(mc.choices + [Choice(m, w)], if w > mc.maxWeight then w else mc.maxWeight);
    assert Choice(m, w) in r.choices;
    r
  }

  /** The moves of the choices of weight `w`, in the order added. */
  function WithWeight(choices: seq<Choice>, w: int): (r: seq<Move>)
    ensures forall k | 0 <= k < |r| :: Choice(r[k], w) in choices
    ensures forall i | 0 <= i < |choices| && choices[i].weight == w :: choices[i].move in r
  {
    if |choices| == 0 then []
    else
      var rest := WithWeight(choices[1..], w);
      assert choices == [choices[0]] + choices[1..];
      assert forall i | 1 <= i < |choices| :: choices[i] == choices[1..][i - 1];
      if choices[0].weight == w then [choices[0].move] + rest else rest
  }

  /**
   * chooseMove: a rule error with no choices; otherwise the draw picks one
   * of the moves of maximal weight. Should none carry the recorded maximum,
   * the undefined pick fails as soon as it is used.
   */
  function ChooseMove(mc: MoveChoices, draw: nat): (r: Result<Move>)
    ensures |mc.choices| == 0 ==> r == Err(RuleError)
    ensures r.Ok? ==> Choice(r.value, mc.maxWeight) in mc.choices
    ensures Tracks(mc) && (exists i | 0 <= i < |mc.choices| :: mc.choices[i].weight >= -MaxValue) ==> r.Ok?
  {
    if |mc.choices| == 0 then Err(RuleError)
    else
      var best := WithWeight(mc.choices, mc.maxWeight);
      HeaviestExists(mc);
      if |best| == 0 then Err(RuntimeTypeError) else Ok(best[draw % |best|])
  }

  /** Some choice carries the tracked maximum once any weight reaches −MAX_VALUE. */
  lemma HeaviestExists(mc: MoveChoices)
    ensures Tracks(mc) && (exists i | 0 <= i < |mc.choices| :: mc.choices[i].weight >= -MaxValue) ==>
      |WithWeight(mc.choices, mc.maxWeight)| > 0
  {
    if Tracks(mc) && exists i | 0 <= i < |mc.choices| :: mc.choices[i].weight >= -MaxValue {
      HeaviestExistsWitness(mc);
    }
  }

  lemma HeaviestExistsWitness(mc: MoveChoices)
    requires Tracks(mc) && exists i | 0 <= i < |mc.choices| :: mc.choices[i].weight >= -MaxValue
    ensures |WithWeight(mc.choices, mc.maxWeight)| > 0
  {
    var i :| 0 <= i < |mc.choices| && mc.choices[i].weight >= -MaxValue;
    if mc.maxWeight == -MaxValue {
      assert mc.choices[i].move in WithWeight(mc.choices, mc.maxWeight);
    } else {
      var ch :| ch in mc.choices && ch.weight == mc.maxWeight;
      var j :| 0 <= j < |mc.choices| && mc.choices[j] == ch;
      assert mc.choices[j].move in WithWeight(mc.choices, mc.maxWeight);
    }
  }

  /** Every move of maximal weight is the outcome of some draw. */
  lemma EveryHeaviestCanBeDrawn(mc: MoveChoices, i: nat)
    requires i < |mc.choices| && mc.choices[i].weight == mc.maxWeight
    ensures exists draw: nat :: ChooseMove(mc, draw) == Ok(mc.choices[i].move)
  {
    var best := WithWeight(mc.choices, mc.maxWeight);
    assert mc.choices[i].move in best;
    var k :| 0 <= k < |best| && best[k] == mc.choices[i].move;
    DrawWithinHeaviest(mc, k);
  }

  /** A draw below the number of heaviest moves picks exactly that move. */
  lemma DrawWithinHeaviest(mc: MoveChoices, k: nat)
    requires |mc.choices| > 0 && k < |WithWeight(mc.choices, mc.maxWeight)|
    ensures ChooseMove(mc, k) == Ok(WithWeight(mc.choices, mc.maxWeight)[k])
  {
    assert k % |WithWeight(mc.choices, mc.maxWeight)| == k;
  }

  /** The weighting: a capture 2, any movement (the jump included) 1, a cancel −1. */
  function Weight(m: Move): (w: int)
    ensures w == 2 <==> m.kind.Capture?
    ensures w > 0 <==> !m.kind.Cancel?
    ensures -1 <= w <= 2
  {
    match m.kind
    case Movement => 1
    case Jump => 1
    case Capture(_) => 2
    case Cancel => -1
  }

  /** The weights rank the move kinds: capture above movement above cancel, all above −MAX_VALUE. */
  lemma WeightOrder(m: Move)
    ensures Weight(m) == 2 <==> m.kind.Capture?
    ensures Weight(m) >= 1 <==> !m.kind.Cancel?
    ensures Weight(m) > -MaxValue
  {
  }

  /** Every choice carries its move's weight. */
  ghost predicate Weighted(mc: MoveChoices) {
    forall i | 0 <= i < |mc.choices| :: mc.choices[i].weight == Weight(mc.choices[i].move)
  }

  /** `moves` are among the choices. */
  ghost predicate Offered(mc: MoveChoices, m: Move) {
    exists i | 0 <= i < |mc.choices| :: mc.choices[i].move == m
  }

  /** Each move of the list, weighed, in order. */
  function AddMoves(mc: MoveChoices, moves: seq<Move>): (r: MoveChoices)
    ensures |r.choices| == |mc.choices| + |moves| && r.choices[..|mc.choices|] == mc.choices
    ensures forall k | 0 <= k < |moves| :: r.choices[|mc.choices| + k] == Choice(moves[k], Weight(moves[k]))
    ensures Tracks(mc) ==> Tracks(r)
    decreases |moves|
  {
    if |moves| == 0 then mc
    else
      var r := AddMoves(AddMove(mc, moves[0], Weight(moves[0])), moves[1..]);
      assert forall k | 1 <= k < |moves| :: moves[k] == moves[1..][k - 1];
      r
  }

  /** addPieceMovesToMoveChoices: a rule error for a piece the CPU cannot play. */
  function AddPieceMoves(mc: MoveChoices, b: Board, id: PieceId, cpu: Player): (r: Result<MoveChoices>)
    requires id < |b.pieces|
    ensures r.Err? <==> !CanBePlayedBy(b.pieces[id], cpu)
    ensures r.Err? ==> r.error == RuleError
    ensures r.Ok? ==> r.value == AddMoves(mc, b.pieces[id].available)
  {
    if !CanBePlayedBy(b.pieces[id], cpu) then Err(RuleError) else Ok(AddMoves(mc, b.pieces[id].available))
  }

  /** Adding a list keeps the weights honest, offers every move of the list and nothing else new. */
  lemma AddMovesOffers(mc: MoveChoices, moves: seq<Move>)
    requires Weighted(mc)
    ensures Weighted(AddMoves(mc, moves))
    ensures forall k | 0 <= k < |moves| :: Offered(AddMoves(mc, moves), moves[k])
    ensures forall m | Offered(mc, m) :: Offered(AddMoves(mc, moves), m)
    ensures forall i | |mc.choices| <= i < |AddMoves(mc, moves).choices| ::
      AddMoves(mc, moves).choices[i].move in moves
  {
    var r := AddMoves(mc, moves);
    var n := |mc.choices|;
    forall i | 0 <= i < |r.choices|
      ensures r.choices[i].weight == Weight(r.choices[i].move)
      ensures i >= n ==> r.choices[i].move in moves
    {
      if i < n {
        assert r.choices[..n][i] == r.choices[i];
        assert mc.choices[i].weight == Weight(mc.choices[i].move);
      } else {
        var k := i - n;
        assert r.choices[n + k] == Choice(moves[k], Weight(moves[k]));
      }
    }
    forall k | 0 <= k < |moves|
      ensures Offered(r, moves[k])
    {
      assert r.choices[n + k].move == moves[k];
    }
    forall m | Offered(mc, m)
      ensures Offered(r, m)
    {
      var i :| 0 <= i < n && mc.choices[i].move == m;
      assert r.choices[..n][i] == r.choices[i];
    }
  }

  /** The choices name pieces of the board and stay on it. */
  ghost predicate ChoicesFit(b: Board, mc: MoveChoices) {
    forall i | 0 <= i < |mc.choices| :: mc.choices[i].move.piece < |b.pieces| && MoveOnBoard(b, mc.choices[i].move)
  }

  /** Everything about a board that move generation and the play test read. */
  ghost predicate SameLayout(b: Board, s: Board) {
    && s.occupant == b.occupant && s.dims == b.dims && |s.pieces| == |b.pieces|
    && s.selected == b.selected && s.rosters == b.rosters && s.originTileIsBlack == b.originTileIsBlack
    && (forall j | 0 <= j < |b.pieces| :: s.pieces[j].owner == b.pieces[j].owner && s.pieces[j].square == b.pieces[j].square
                                          && s.pieces[j].placed == b.pieces[j].placed)
  }

  /**
   * What gathering guarantees between a board and choices before and after:
   * only the move lists changed, the tracked maximum is sound, every weight
   * is its move's, every move fits the board, and nothing offered is lost.
   */
  ghost predicate Gathered(b: Board, mc: MoveChoices, s: Board, nc: MoveChoices) {
    && Valid(s) && SameLayout(b, s)
    && Tracks(nc) && Weighted(nc) && ChoicesFit(s, nc)
    && (forall m | Offered(mc, m) :: Offered(nc, m))
  }

  lemma GatheredTrans(b: Board, mc: MoveChoices, s: Board, nc: MoveChoices, t: Board, tc: MoveChoices)
    ensures Gathered(b, mc, s, nc) && Gathered(s, nc, t, tc) ==> Gathered(b, mc, t, tc)
  {
  }

  /**
   * The takeTurn loop over the CPU's pieces: each recomputes its moves with
   * no mask and no filter, then adds them; a piece the CPU cannot play is a
   * rule error.
   */
  function GatherChoices(b: Board, roster: seq<PieceId>, cpu: Player, mc: MoveChoices): (r: Result<(Board, MoveChoices)>)
    requires Valid(b) && forall j | 0 <= j < |roster| :: roster[j] < |b.pieces|
    requires Tracks(mc) && Weighted(mc) && ChoicesFit(b, mc)
    ensures r.Err? <==> exists j | 0 <= j < |roster| :: !CanBePlayedBy(b.pieces[roster[j]], cpu)
    ensures r.Err? ==> r.error == RuleError
    ensures r.Ok? ==> Gathered(b, mc, r.value.0, r.value.1)
    decreases |roster|
  {
    if |roster| == 0 then Ok((b, mc))
    else
      var id := roster[0];
      GeneratorSucceeds(b, id);
      var computed := CalcAvailableMoves(b, id, [], []).value;
      if !CanBePlayedBy(computed.pieces[id], cpu) then Err(RuleError)
      else
        var added := AddMoves(mc, computed.pieces[id].available);
        GatherStep(b, computed, id, computed.pieces[id].available, mc, added);
        RosterRest(b, computed, roster, cpu);
        var r := GatherChoices(computed, roster[1..], cpu, added);
        if r.Ok? then
          GatheredTrans(b, mc, computed, added, r.value.0, r.value.1);
          r
        else r
  }

  /** Recomputing the moves of any piece of the board succeeds. */
  lemma GeneratorSucceeds(b: Board, id: PieceId)
    requires Valid(b) && id < |b.pieces|
    ensures CalcAvailableMoves(b, id, [], []).Ok?
  {
    AvailableMovesMatchReference(b, id, [], []);
  }

  /** The rest of the roster on the recomputed board: still pieces of it, and playable exactly as before. */
  lemma RosterRest(b: Board, computed: Board, roster: seq<PieceId>, cpu: Player)
    requires |roster| > 0 && forall j | 0 <= j < |roster| :: roster[j] < |b.pieces|
    requires SameLayout(b, computed)
    ensures forall j | 0 <= j < |roster[1..]| :: roster[1..][j] < |computed.pieces|
    ensures (exists j | 0 <= j < |roster| :: !CanBePlayedBy(b.pieces[roster[j]], cpu)) <==>
      (!CanBePlayedBy(computed.pieces[roster[0]], cpu) ||
       exists j | 0 <= j < |roster[1..]| :: !CanBePlayedBy(computed.pieces[roster[1..][j]], cpu))
  {
    assert forall j | 1 <= j < |roster| :: roster[j] == roster[1..][j - 1];
  }

  /** Recomputing one piece's moves and adding them keeps the gathering guarantees and offers those moves. */
  lemma GatherStep(b: Board, computed: Board, id: PieceId, moves: seq<Move>, mc: MoveChoices, added: MoveChoices)
    requires Valid(b) && Valid(computed) && id < |b.pieces|
    requires computed == b.(pieces := b.pieces[id := b.pieces[id].(available := moves)])
    requires Tracks(mc) && Weighted(mc) && ChoicesFit(b, mc)
    requires added == AddMoves(mc, moves)
    ensures Gathered(b, mc, computed, added)
    ensures forall k | 0 <= k < |moves| :: Offered(added, moves[k])
  {
    AddMovesOffers(mc, moves);
    AddedMovesFit(b, computed, id, moves, mc, added);
    assert SameLayout(b, computed);
  }

  lemma AddedMovesFit(b: Board, computed: Board, id: PieceId, moves: seq<Move>, mc: MoveChoices, added: MoveChoices)
    requires Valid(computed) && id < |b.pieces|
    requires computed == b.(pieces := b.pieces[id := b.pieces[id].(available := moves)])
    requires ChoicesFit(b, mc)
    requires |added.choices| >= |mc.choices| && added.choices[..|mc.choices|] == mc.choices
    requires forall i | |mc.choices| <= i < |added.choices| :: added.choices[i].move in moves
    ensures ChoicesFit(computed, added)
  {
    var n := |mc.choices|;
    assert computed.pieces[id].available == moves;
    forall i | 0 <= i < |added.choices|
      ensures added.choices[i].move.piece < |computed.pieces| && MoveOnBoard(computed, added.choices[i].move)
    {
      if i < n {
        assert added.choices[..n][i] == added.choices[i];
      } else {
        var k :| 0 <= k < |moves| && moves[k] == added.choices[i].move;
        assert computed.pieces[id].available[k] == moves[k];
      }
    }
  }

  /** Reference moves of any piece agree on two boards of the same layout. */
  lemma SameReferenceAll(b: Board, s: Board, id: PieceId)
    requires Valid(b) && Valid(s) && SameLayout(b, s) && id < |b.pieces|
    ensures forall c :: Reference(s, id, c, [], []) == Reference(b, id, c, [], [])
  {
    SameReference(b, s, id);
  }

  /** A successful gathering is the first piece's recomputed moves, then the rest of the roster. */
  lemma GatherUnfolds(b: Board, roster: seq<PieceId>, cpu: Player, mc: MoveChoices)
    requires Valid(b) && |roster| > 0 && forall j | 0 <= j < |roster| :: roster[j] < |b.pieces|
    requires Tracks(mc) && Weighted(mc) && ChoicesFit(b, mc)
    requires GatherChoices(b, roster, cpu, mc).Ok?
    ensures CalcAvailableMoves(b, roster[0], [], []).Ok?
    ensures var computed := CalcAvailableMoves(b, roster[0], [], []).value;
      var added := AddMoves(mc, computed.pieces[roster[0]].available);
      && Tracks(added) && Weighted(added) && ChoicesFit(computed, added)
      && (forall j | 0 <= j < |roster[1..]| :: roster[1..][j] < |computed.pieces|)
      && GatherChoices(b, roster, cpu, mc) == GatherChoices(computed, roster[1..], cpu, added)
  {
    var id := roster[0];
    GeneratorSucceeds(b, id);
    var computed := CalcAvailableMoves(b, id, [], []).value;
    var added := AddMoves(mc, computed.pieces[id].available);
    GatherStep(b, computed, id, computed.pieces[id].available, mc, added);
  }

  /** Weighing a piece's recomputed moves offers each move the rules promise to it. */
  lemma RecomputedOffered(b: Board, id: PieceId, mc: MoveChoices, c: Coord)
    requires Valid(b) && id < |b.pieces| && Weighted(mc) && Reference(b, id, c, [], []).Some?
    ensures CalcAvailableMoves(b, id, [], []).Ok?
    ensures var moves := CalcAvailableMoves(b, id, [], []).value.pieces[id].available;
      Offered(AddMoves(mc, moves), Reference(b, id, c, [], []).value)
  {
    AvailableMovesMatchReference(b, id, [], []);
    var moves := CalcAvailableMoves(b, id, [], []).value.pieces[id].available;
    var m := Reference(b, id, c, [], []).value;
    assert MoveTo(moves, c) == Some(m);
    var k :| 0 <= k < |moves| && moves[k] == m;
    AddMovesOffers(mc, moves);
  }

  /** Every move the rules promise to any piece on the roster ends up among the choices. */
  lemma {:induction false} GatherOffers(b: Board, roster: seq<PieceId>, cpu: Player, mc: MoveChoices)
    requires Valid(b) && forall j | 0 <= j < |roster| :: roster[j] < |b.pieces|
    requires Tracks(mc) && Weighted(mc) && ChoicesFit(b, mc)
    requires GatherChoices(b, roster, cpu, mc).Ok?
    ensures forall j, c | 0 <= j < |roster| && Reference(b, roster[j], c, [], []).Some? ::
      Offered(GatherChoices(b, roster, cpu, mc).value.1, Reference(b, roster[j], c, [], []).value)
    decreases |roster|
  {
    if |roster| > 0 {
      GatherUnfolds(b, roster, cpu, mc);
      var computed := CalcAvailableMoves(b, roster[0], [], []).value;
      var added := AddMoves(mc, computed.pieces[roster[0]].available);
      GatherOffers(computed, roster[1..], cpu, added);
      OffersCarryOver(b, roster, mc, GatherChoices(computed, roster[1..], cpu, added).value.1);
    }
  }

  /**
   * The offers of a gathering step: choices that keep the first piece's
   * weighed moves and offer the rest of the roster's reference moves on the
   * recomputed board offer every reference move of the whole roster.
   */
  lemma OffersCarryOver(b: Board, roster: seq<PieceId>, mc: MoveChoices, nc: MoveChoices)
    requires Valid(b) && |roster| > 0 && forall j | 0 <= j < |roster| :: roster[j] < |b.pieces|
    requires Tracks(mc) && Weighted(mc) && ChoicesFit(b, mc)
    requires CalcAvailableMoves(b, roster[0], [], []).Ok?
    requires var computed := CalcAvailableMoves(b, roster[0], [], []).value;
      && (forall m | Offered(AddMoves(mc, computed.pieces[roster[0]].available), m) :: Offered(nc, m))
      && (forall j, c | 0 <= j < |roster[1..]| && Reference(computed, roster[1..][j], c, [], []).Some? ::
            Offered(nc, Reference(computed, roster[1..][j], c, [], []).value))
    ensures forall j, c | 0 <= j < |roster| && Reference(b, roster[j], c, [], []).Some? ::
      Offered(nc, Reference(b, roster[j], c, [], []).value)
  {
    var id := roster[0];
    var computed := CalcAvailableMoves(b, id, [], []).value;
    var added := AddMoves(mc, computed.pieces[id].available);
    GatherStep(b, computed, id, computed.pieces[id].available, mc, added);
    forall j, c | 0 <= j < |roster| && Reference(b, roster[j], c, [], []).Some?
      ensures Offered(nc, Reference(b, roster[j], c, [], []).value)
    {
      if j == 0 {
        RecomputedOffered(b, id, mc, c);
      } else {
        SameReferenceAll(b, computed, roster[j]);
        assert roster[1..][j - 1] == roster[j];
      }
    }
  }

  /** Registering moves leaves the players and both progress flags alone. */
  predicate SameFlags(g: Manager, h: Manager) {
    h.players == g.players && h.gameInProgress == g.gameInProgress && h.turnInProgress == g.turnInProgress
  }

  /** The moves performed in one CPU turn, and the state afterwards. */
  datatype CpuRun = CpuRun(game: Game, performed: seq<Move>)

  /**
   * The board half of applying a CPU move: select the piece, remove the
   * captured piece, and set the mover down on the target.
   */
  function CpuBoardAfter(b: Board, m: Move): (r: Result<Board>)
    requires Valid(b) && m.piece < |b.pieces| && MoveOnBoard(b, m)
    ensures r.Ok? ==> Valid(r.value) && |r.value.pieces| == |b.pieces|
    ensures r.Ok? ==> r.value.selected == Some(m.piece) && r.value.pieces[m.piece].placed
    ensures r.Ok? ==> GetPawn(r.value, m.target) == Some(m.piece) && r.value.pieces[m.piece].square == m.target
    ensures r.Ok? && m.kind.Capture? && m.kind.captureSquare != m.target ==> !HasPawn(r.value, m.kind.captureSquare)
  {
    var lifted := SelectPiece(b, m.piece);
    var captured :- if m.kind.Capture? then CapturePawn(lifted, m.kind.captureSquare) else Ok(lifted);
    assert captured.pieces == lifted.pieces && captured.selected == lifted.selected;
    Ok(Place(captured, m.piece, m.target))
  }

  /**
   * The first half of performMove: select the piece, remove the captured
   * piece, set the mover down on the target, and register anything but a
   * Cancel.
   */
  function ApplyCpuMove(g: Game, m: Move): (r: Result<Game>)
    requires Valid(g.board) && m.piece < |g.board.pieces| && MoveOnBoard(g.board, m)
    ensures r.Ok? ==> Valid(r.value.board) && |r.value.board.pieces| == |g.board.pieces|
    ensures r.Ok? ==> r.value.board.selected == Some(m.piece) && r.value.board.pieces[m.piece].placed
    ensures r.Ok? ==> GetPawn(r.value.board, m.target) == Some(m.piece) && r.value.board.pieces[m.piece].square == m.target
    ensures r.Ok? && m.kind.Capture? && m.kind.captureSquare != m.target ==> !HasPawn(r.value.board, m.kind.captureSquare)
    ensures r.Ok? && m.kind.Cancel? ==> r.value.manager == g.manager
    ensures r.Ok? && !m.kind.Cancel? ==> RegisterMove(g.manager, m) == Ok(r.value.manager)
    ensures r.Ok? ==> KeepsSeats(g.manager, r.value.manager) && SameFlags(g.manager, r.value.manager)
  {
    RegisterMoveKeepsSeats(g.manager, m);
    var placed :- CpuBoardAfter(g.board, m);
    var logged :- if m.kind.Cancel? then Ok(g.manager) else RegisterMove(g.manager, m);
    Ok(Game(placed, logged))
  }

  /** How a chainable CPU move continues: the turn ends, or the piece is lifted again with its next move drawn. */
  datatype ChainStep = ChainOver(board: Board) | ChainGoesOn(board: Board, next: Move)

  /**
   * The second half of performMove for a chainable move: the piece's moves
   * are regenerated (Cancel and Jump admitted, the move's origin masked);
   * unless they are empty or all Cancel, the piece is selected again, its
   * moves are weighed and one of the heaviest is drawn.
   */
  function ChainStepAfter(b: Board, cpu: Player, m: Move, draws: seq<nat>): (r: Result<ChainStep>)
    requires Valid(b) && m.piece < |b.pieces| && b.selected == Some(m.piece)
    ensures r.Ok? ==> Valid(r.value.board) && r.value.board.selected == Some(m.piece)
    ensures r.Ok? ==> r.value.board.occupant == b.occupant && |r.value.board.pieces| == |b.pieces|
    ensures r.Ok? && r.value.ChainGoesOn? ==>
      && |draws| > 0
      && (r.value.next.kind.Jump? || r.value.next.kind.Capture?)
      && r.value.next.piece == m.piece && MoveOnBoard(r.value.board, r.value.next)
      && !r.value.board.pieces[m.piece].placed
  {
    ChainRegeneration(b, m.origin);
    var regenerated := CreateAvailableMoves(b, [m.origin], ChainFilter).value;
    if ChainEnds(regenerated) then Ok(ChainOver(regenerated))
    else
      var lifted := SelectPiece(regenerated, m.piece);
      var mc :- AddPieceMoves(NewMoveChoices(), lifted, m.piece, cpu);
      if |draws| == 0 then Err(FuelExhausted)
      else
        ContinuationIsJumpOrCapture(lifted, m.piece, mc);
        var next :- ChooseMove(mc, draws[0]);
        Ok(ChainGoesOn(lifted, next))
  }

  /**
   * The heart of the chain rule: when the regenerated moves of the piece hold
   * something other than a Cancel and no plain movement, every heaviest move
   * is a jump or a capture of that piece, never the Cancel.
   */
  lemma ContinuationIsJumpOrCapture(b: Board, id: PieceId, mc: MoveChoices)
    requires Valid(b) && id < |b.pieces|
    requires !AllCancel(b.pieces[id].available)
    requires forall i | 0 <= i < |b.pieces[id].available| :: !b.pieces[id].available[i].kind.Movement?
    requires mc == AddMoves(NewMoveChoices(), b.pieces[id].available)
    ensures forall ch | ch in mc.choices && ch.weight == mc.maxWeight ::
      && (ch.move.kind.Jump? || ch.move.kind.Capture?)
      && ch.move.piece == id && MoveOnBoard(b, ch.move)
    ensures Tracks(mc) && exists i | 0 <= i < |mc.choices| :: mc.choices[i].weight >= -MaxValue
  {
    var moves := b.pieces[id].available;
    var k :| 0 <= k < |moves| && !moves[k].kind.Cancel?;
    assert mc.choices[0 + k] == Choice(moves[k], Weight(moves[k]));
    WeightOrder(moves[k]);
    forall ch | ch in mc.choices && ch.weight == mc.maxWeight
      ensures ch.move.kind.Jump? || ch.move.kind.Capture?
      ensures ch.move.piece == id && MoveOnBoard(b, ch.move)
    {
      var i :| 0 <= i < |mc.choices| && mc.choices[i] == ch;
      assert mc.choices[0 + i] == Choice(moves[i], Weight(moves[i]));
      WeightOrder(moves[i]);
    }
  }

  /** Every move after the first is a jump or capture of the first move's piece. */
  predicate ChainOfOnePiece(performed: seq<Move>) {
    forall i | 1 <= i < |performed| ::
      (performed[i].kind.Jump? || performed[i].kind.Capture?) && performed[i].piece == performed[0].piece
  }

  /** Every move but the last was chainable. */
  predicate ChainableUntilLast(performed: seq<Move>) {
    forall i | 0 <= i < |performed| - 1 :: performed[i].doNotEndTurn
  }

  lemma PrependToChain(m: Move, rest: seq<Move>)
    requires |rest| > 0 && m.doNotEndTurn && rest[0].piece == m.piece && (rest[0].kind.Jump? || rest[0].kind.Capture?)
    requires ChainOfOnePiece(rest) && ChainableUntilLast(rest)
    ensures ChainOfOnePiece([m] + rest) && ChainableUntilLast([m] + rest)
  {
    assert forall i | 1 <= i < |rest| + 1 :: ([m] + rest)[i] == rest[i - 1];
  }

  /**
   * performMove with its continuation: each continuation consumes one draw,
   * and running out of draws is the fuel bound that stands in for the
   * unbounded recursion.
   */
  function PerformMove(g: Game, cpu: Player, m: Move, draws: seq<nat>): (r: Result<CpuRun>)
    requires Valid(g.board) && m.piece < |g.board.pieces| && MoveOnBoard(g.board, m)
    ensures r.Ok? ==> Valid(r.value.game.board)
    ensures r.Ok? ==> 1 <= |r.value.performed| <= |draws| + 1 && r.value.performed[0] == m
    ensures r.Ok? ==> ChainOfOnePiece(r.value.performed)
    ensures r.Ok? ==> ChainableUntilLast(r.value.performed)
    ensures r.Ok? ==> KeepsSeats(g.manager, r.value.game.manager) && SameFlags(g.manager, r.value.game.manager)
    decreases |draws|
  {
    var applied :- ApplyCpuMove(g, m);
    if !m.doNotEndTurn then Ok(CpuRun(applied, [m]))
    else
      var step :- ChainStepAfter(applied.board, cpu, m, draws);
      match step
      case ChainOver(b) => Ok(CpuRun(Game(b, applied.manager), [m]))
      case ChainGoesOn(b, next) =>
        var rest :- PerformMove(Game(b, applied.manager), cpu, next, draws[1..]);
        PrependToChain(m, rest.performed);
        Ok(CpuRun(rest.game, [m] + rest.performed))
  }

  /**
   * takeTurn: gather the weighed moves of every piece on the CPU's roster
   * (none when it has no roster), draw one of the heaviest, and perform it.
   */
  function TakeTurn(g: Game, cpu: Player, draws: seq<nat>): (r: Result<CpuRun>)
    requires Valid(g.board)
    ensures r.Ok? ==> Valid(r.value.game.board) && |r.value.performed| >= 1 && ChainOfOnePiece(r.value.performed)
    ensures r.Ok? ==> KeepsSeats(g.manager, r.value.game.manager) && SameFlags(g.manager, r.value.game.manager)
  {
    var roster := if cpu.name in g.board.rosters then g.board.rosters[cpu.name] else [];
    var gathered :- GatherChoices(g.board, roster, cpu, NewMoveChoices());
    var (b, mc) := gathered;
    if |mc.choices| == 0 then Err(RuleError)
    else if |draws| == 0 then Err(FuelExhausted)
    else
      WeightedChoicesReachMax(mc);
      var chosen :- ChooseMove(mc, draws[0]);
      assert exists i | 0 <= i < |mc.choices| :: mc.choices[i].move == chosen;
      PerformMove(Game(b, g.manager), cpu, chosen, draws[1..])
  }

  lemma WeightedChoicesReachMax(mc: MoveChoices)
    requires Weighted(mc) && |mc.choices| > 0
    ensures exists i | 0 <= i < |mc.choices| :: mc.choices[i].weight >= -MaxValue
  {
    WeightOrder(mc.choices[0].move);
  }

  /**
   * The CPU's first move is one of the heaviest on offer: a capture whenever
   * any of its pieces has one, and never the Cancel while any of its pieces
   * can move at all.
   */
  lemma CpuPrefersHeaviest(g: Game, cpu: Player, draws: seq<nat>)
    requires Valid(g.board) && TakeTurn(g, cpu, draws).Ok?
    ensures var roster := if cpu.name in g.board.rosters then g.board.rosters[cpu.name] else [];
      var first := TakeTurn(g, cpu, draws).value.performed[0];
      && ((exists j, c | 0 <= j < |roster| && Reference(g.board, roster[j], c, [], []).Some? ::
             Reference(g.board, roster[j], c, [], []).value.kind.Capture?) ==> first.kind.Capture?)
      && ((exists j, c | 0 <= j < |roster| && Reference(g.board, roster[j], c, [], []).Some? ::
             !Reference(g.board, roster[j], c, [], []).value.kind.Cancel?) ==> !first.kind.Cancel?)
  {
    var roster := if cpu.name in g.board.rosters then g.board.rosters[cpu.name] else [];
    var mc := GatherChoices(g.board, roster, cpu, NewMoveChoices()).value.1;
    GatherOffers(g.board, roster, cpu, NewMoveChoices());
    WeightedChoicesReachMax(mc);
    var chosen := ChooseMove(mc, draws[0]).value;
    assert TakeTurn(g, cpu, draws).value.performed[0] == chosen;
    ChosenOutweighsOffers(g.board, roster, mc, chosen);
  }

  /**
   * A move of the maximal weight, among choices that offer every reference
   * move of the roster, is a capture if any of those moves is, and a Cancel
   * only if all of them are.
   */
  lemma ChosenOutweighsOffers(b: Board, roster: seq<PieceId>, mc: MoveChoices, chosen: Move)
    requires Valid(b) && forall j | 0 <= j < |roster| :: roster[j] < |b.pieces|
    requires Tracks(mc) && Weighted(mc) && Choice(chosen, mc.maxWeight) in mc.choices
    requires forall j, c | 0 <= j < |roster| && Reference(b, roster[j], c, [], []).Some? ::
      Offered(mc, Reference(b, roster[j], c, [], []).value)
    ensures (exists j, c | 0 <= j < |roster| && Reference(b, roster[j], c, [], []).Some? ::
               Reference(b, roster[j], c, [], []).value.kind.Capture?) ==> chosen.kind.Capture?
    ensures (exists j, c | 0 <= j < |roster| && Reference(b, roster[j], c, [], []).Some? ::
               !Reference(b, roster[j], c, [], []).value.kind.Cancel?) ==> !chosen.kind.Cancel?
  {
    forall j, c | 0 <= j < |roster| && Reference(b, roster[j], c, [], []).Some?
      ensures Reference(b, roster[j], c, [], []).value.kind.Capture? ==> chosen.kind.Capture?
      ensures !Reference(b, roster[j], c, [], []).value.kind.Cancel? ==> !chosen.kind.Cancel?
    {
      HeaviestOutweighs(mc, chosen, Reference(b, roster[j], c, [], []).value);
    }
  }

  /** A move of the maximal weight is a capture if any offered move is, and a Cancel only if every offered move is. */
  lemma HeaviestOutweighs(mc: MoveChoices, chosen: Move, m: Move)
    requires Tracks(mc) && Weighted(mc) && Choice(chosen, mc.maxWeight) in mc.choices && Offered(mc, m)
    ensures m.kind.Capture? ==> chosen.kind.Capture?
    ensures !m.kind.Cancel? ==> !chosen.kind.Cancel?
  {
    var k :| 0 <= k < |mc.choices| && mc.choices[k].move == m;
    var i :| 0 <= i < |mc.choices| && mc.choices[i] == Choice(chosen, mc.maxWeight);
    WeightOrder(m);
    WeightOrder(chosen);
  }
}

=== FILE: game_loop.dfy ===
/**
 * The render-loop side of the game manager: a turn starts whenever the game
 * is in progress and no turn is; a human's turn then waits for the pick
 * handlers, a CPU's turn is taken and ended at once.
 */
module GameLoop {
  import opened Outcomes
  import opened Players
  import opened Boards
  import opened GameManager
  import opened Play
  import opened Cpu

  /**
   * startTurn: the turn is marked in progress; when the current player is
   * the CPU it takes its turn (the draws stand in for its random picks) and
   * the turn is ended.
   */
  function StartTurn(g: Game, draws: seq<nat>): (r: Result<Game>)
    requires Valid(g.board)
    ensures GetCurrentPlayer(g.manager).Err? ==> r == Err(StateError)
    ensures GetCurrentPlayer(g.manager).Ok? && GetCurrentPlayer(g.manager).value.controller == Human ==>
      r == Ok(Game(g.board, g.manager.(turnInProgress := true)))
    ensures GetCurrentPlayer(g.manager).Ok? && GetCurrentPlayer(g.manager).value.controller == Computer && r.Ok? ==>
      && Valid(r.value.board) && r.value.board.selected.None?
      && !r.value.manager.turnInProgress && r.value.manager.gameInProgress == g.manager.gameInProgress
  {
    var marked := Game(g.board, g.manager.(turnInProgress := true));
    var player :- GetCurrentPlayer(marked.manager);
    if player.controller == Human then Ok(marked)
    else
      var run :- TakeTurn(marked, player, draws);
      EndTurn(run.game)
  }

  /** renderLoop: start a turn only while the game is in progress and no turn is. */
  function RenderLoop(g: Game, draws: seq<nat>): (r: Result<Game>)
    requires Valid(g.board)
    ensures !(g.manager.gameInProgress && !g.manager.turnInProgress) ==> r == Ok(g)
    ensures g.manager.gameInProgress && !g.manager.turnInProgress ==> r == StartTurn(g, draws)
  {
    if g.manager.gameInProgress && !g.manager.turnInProgress then StartTurn(g, draws) else Ok(g)
  }

  /**
   * A human's turn is started once: after the first pass of the render loop
   * the turn is in progress, so further passes change nothing until the
   * pick handlers end it.
   */
  lemma HumanTurnStartsOnce(g: Game, draws: seq<nat>, later: seq<nat>)
    requires Valid(g.board) && g.manager.gameInProgress && !g.manager.turnInProgress
    requires GetCurrentPlayer(g.manager).Ok? && GetCurrentPlayer(g.manager).value.controller == Human
    ensures RenderLoop(g, draws).Ok?
    ensures RenderLoop(g, draws).value.manager.turnInProgress
    ensures RenderLoop(RenderLoop(g, draws).value, later) == RenderLoop(g, draws)
  {
  }

  /**
   * A CPU turn is taken and handed on within one pass: with the manager
   * seated at round `q`, turn `m`, and the CPU to move, a successful pass
   * leaves no turn in progress, nothing selected, and the manager seated at
   * the next turn (the first turn of round `q + 1` after the last seat).
   */
  lemma CpuTurnHandsOver(g: Game, draws: seq<nat>, q: nat, m: nat)
    requires Valid(g.board) && g.manager.gameInProgress && !g.manager.turnInProgress
    requires Seated(g.manager, q, m) && g.manager.players[m].controller == Computer
    requires RenderLoop(g, draws).Ok?
    ensures var h := RenderLoop(g, draws).value;
      && !h.manager.turnInProgress && h.manager.gameInProgress && h.board.selected.None?
      && (m + 1 < |g.manager.players| ==> Seated(h.manager, q, m + 1))
      && (m + 1 == |g.manager.players| ==> Seated(h.manager, q + 1, 0))
  {
    var marked := Game(g.board, g.manager.(turnInProgress := true));
    assert Seated(marked.manager, q, m);
    var player := GetCurrentPlayer(marked.manager).value;
    assert player == g.manager.players[m];
    var run := TakeTurn(marked, player, draws).value;
    assert Seated(run.game.manager, q, m);
    AdvanceTurnSeats(run.game.manager, q, m);
  }
}

=== FILE: manager.dfy ===
/**
 * The game manager's sequencing state: the players in seating order, the
 * history of rounds (the current round is the last one) and the two
 * progress flags the render loop consults.
 */
module GameManager {
  import opened Outcomes
  import opened Players
  import opened Moves
  import opened Rounds

  datatype Manager = Manager(players: seq<Player>, rounds: seq<Round>, gameInProgress: bool, turnInProgress: bool)

  /** The built-in players: a human playing white, then the CPU playing black. */
  const DefaultPlayers: seq<Player> := [Player("white", White, Human), Player("black", Black, Computer)]

  /** The constructor: the built-in players, no round yet, neither the game nor a turn in progress. */
  function NewManager(): (g: Manager)
    ensures g.players == DefaultPlayers && g.rounds == []
    ensures !g.gameInProgress && !g.turnInProgress
  {
    Manager(DefaultPlayers, [], false, false)
  }

  function CurrentRound(g: Manager): (r: Option<Round>)
    ensures r.Some? <==> |g.rounds| > 0
    ensures r.Some? ==> r.value == g.rounds[|g.rounds| - 1]
  {
    if |g.rounds| == 0 then None else Some(g.rounds[|g.rounds| - 1])
  }

  /** The history with its last (current) round replaced. */
  function WithCurrentRound(g: Manager, r: Round): (h: Manager)
    requires |g.rounds| > 0
    ensures |h.rounds| == |g.rounds| && h.rounds[..|g.rounds| - 1] == g.rounds[..|g.rounds| - 1]
    ensures CurrentRound(h) == Some(r)
    ensures h.players == g.players && h.gameInProgress == g.gameInProgress && h.turnInProgress == g.turnInProgress
  {
    g.(rounds := g.rounds[..|g.rounds| - 1] + [r])
  }

  /**
   * setUpNextRound: a round over a fresh copy of the player queue, linked to
   * the current one, is appended to the history and its first turn set up.
   */
  function SetUpNextRound(g: Manager): (h: Result<Manager>)
    ensures h.Err? <==> |g.players| == 0
    ensures h.Err? ==> h.error == PlainError(QueueExhausted)
    ensures h.Ok? ==>
      && |h.value.rounds| == |g.rounds| + 1 && h.value.rounds[..|g.rounds|] == g.rounds
      && CurrentRound(h.value).value.number == (if |g.rounds| == 0 then 0 else g.rounds[|g.rounds| - 1].number + 1)
      && CurrentRound(h.value).value.queue == g.players[1..]
      && CurrentRound(h.value).value.turns == [Turn(g.players[0], [])]
      && h.value.players == g.players
      && h.value.gameInProgress == g.gameInProgress && h.value.turnInProgress == g.turnInProgress
  {
    var round := NewRound(g.players, CurrentRound(g));
    var started :- SetUpNextTurn(round);
    Ok(g.(rounds := g.rounds + [started]))
  }

  /** registerMove: ignored before the first round, otherwise logged in the current round. */
  function RegisterMove(g: Manager, m: Move): (h: Result<Manager>)
    ensures |g.rounds| == 0 ==> h == Ok(g)
    ensures |g.rounds| > 0 ==> h.Err? == (|CurrentRound(g).value.turns| == 0)
    ensures |g.rounds| > 0 && h.Ok? ==> h.value == WithCurrentRound(g, Rounds.RegisterMove(CurrentRound(g).value, m).value)
    ensures h.Ok? ==> h.value.players == g.players && h.value.gameInProgress == g.gameInProgress && h.value.turnInProgress == g.turnInProgress
  {
    match CurrentRound(g)
    case None => Ok(g)
    case Some(round) =>
      var logged :- Rounds.RegisterMove(round, m);
      Ok(WithCurrentRound(g, logged))
  }

  /** getLatestMove: a state error before the first round. */
  function GetLatestMove(g: Manager): (m: Result<Option<Move>>)
    ensures |g.rounds| == 0 ==> m == Err(StateError)
    ensures |g.rounds| > 0 ==> m == Rounds.GetLatestMove(CurrentRound(g).value)
  {
    match CurrentRound(g)
    case None => Err(StateError)
    case Some(round) => Rounds.GetLatestMove(round)
  }

  /** getCurrentPlayer: a state error before the first round or its first turn. */
  function GetCurrentPlayer(g: Manager): (p: Result<Player>)
    ensures p.Err? ==> p.error == StateError
    ensures p.Ok? <==> |g.rounds| > 0 && |CurrentRound(g).value.turns| > 0
    ensures p.Ok? ==> p.value == CurrentRound(g).value.turns[|CurrentRound(g).value.turns| - 1].player
  {
    match CurrentRound(g)
    case None => Err(StateError)
    case Some(round) => Rounds.GetCurrentPlayer(round)
  }

  /** A move registered in a round with an active turn is the latest move afterwards. */
  lemma RegisterThenLatestMove(g: Manager, m: Move)
    requires |g.rounds| > 0 && |CurrentRound(g).value.turns| > 0
    ensures RegisterMove(g, m).Ok?
    ensures GetLatestMove(RegisterMove(g, m).value) == Ok(Some(m))
    ensures GetCurrentPlayer(RegisterMove(g, m).value) == GetCurrentPlayer(g)
  {
    RegisterThenLatest(CurrentRound(g).value, m);
  }

  /**
   * The sequencing half of endTurn: a state error before the first round;
   * a new round when the current one is exhausted, otherwise the next turn
   * of the current round; the turn is no longer in progress.
   */
  function AdvanceTurn(g: Manager): (h: Result<Manager>)
    ensures |g.rounds| == 0 ==> h == Err(StateError)
    ensures |g.rounds| > 0 && OnLastTurnOfRound(CurrentRound(g).value) ==>
      h == (var n :- SetUpNextRound(g); Ok(n.(turnInProgress := false)))
    ensures |g.rounds| > 0 && !OnLastTurnOfRound(CurrentRound(g).value) ==>
      h == Ok(WithCurrentRound(g, SetUpNextTurn(CurrentRound(g).value).value).(turnInProgress := false))
    ensures h.Ok? ==> !h.value.turnInProgress && h.value.players == g.players && h.value.gameInProgress == g.gameInProgress
  {
    match CurrentRound(g)
    case None => Err(StateError)
    case Some(round) =>
      if OnLastTurnOfRound(round) then
        var next :- SetUpNextRound(g);
        Ok(next.(turnInProgress := false))
      else
        Ok(WithCurrentRound(g, SetUpNextTurn(round).value).(turnInProgress := false))
  }

  /** setUpGame sets up the first round; startGame only raises the game flag. */
  function StartGame(g: Manager): (h: Manager)
    ensures h.gameInProgress && h == g.(gameInProgress := true)
  {
    g.(gameInProgress := true)
  }

  /** `n` successive turn advances. */
  function AdvanceTurns(g: Manager, n: nat): Result<Manager>
    decreases n
  {
    if n == 0 then Ok(g)
    else
      var h :- AdvanceTurn(g);
      AdvanceTurns(h, n - 1)
  }

  /**
   * The manager `q` rounds and `m` turns into the game: round `q` is the
   * current round and its turns so far went to the first `m + 1` players.
   */
  ghost predicate Seated(g: Manager, q: nat, m: nat) {
    && 0 <= m < |g.players|
    && |g.rounds| == q + 1
    && g.rounds[q].number == q
    && g.rounds[q].queue == g.players[m + 1..]
    && |g.rounds[q].turns| == m + 1
    && g.rounds[q].turns[m].player == g.players[m]
  }

  /** Every seating of `g` is a seating of `h`. */
  ghost predicate KeepsSeats(g: Manager, h: Manager) {
    forall q: nat, m: nat | Seated(g, q, m) :: Seated(h, q, m)
  }

  /** Registering a move only extends the active turn's log, so the seating survives it. */
  lemma RegisterMoveKeepsSeats(g: Manager, mv: Move)
    ensures RegisterMove(g, mv).Ok? ==> KeepsSeats(g, RegisterMove(g, mv).value)
  {
    if |g.rounds| > 0 && RegisterMove(g, mv).Ok? {
      var h := RegisterMove(g, mv).value;
      forall q: nat, m: nat | Seated(g, q, m)
        ensures Seated(h, q, m)
      {
        assert CurrentRound(h).value == h.rounds[q];
      }
    }
  }

  lemma AdvanceTurnSeats(g: Manager, q: nat, m: nat)
    requires Seated(g, q, m)
    ensures AdvanceTurn(g).Ok?
    ensures m + 1 < |g.players| ==> Seated(AdvanceTurn(g).value, q, m + 1)
    ensures m + 1 == |g.players| ==> Seated(AdvanceTurn(g).value, q + 1, 0)
  {
    var round := g.rounds[q];
    if m + 1 < |g.players| {
      assert round.queue[0] == g.players[m + 1];
      assert round.queue[1..] == g.players[m + 2..];
    }
  }

  /** Advancing `n + 1` turns is advancing `n` turns and then one more. */
  lemma {:induction false} AdvanceTurnsLast(g: Manager, n: nat)
    ensures AdvanceTurns(g, n + 1) == (var h :- AdvanceTurns(g, n); AdvanceTurn(h))
    decreases n
  {
    if n > 0 {
      var h := AdvanceTurn(g);
      if h.Ok? {
        AdvanceTurnsLast(h.value, n - 1);
      }
    }
  }

  /** Within one round: from the round's first seat, `m` more ends of turn reach seat `m`. */
  lemma {:induction false} SeatsWithinRound(g: Manager, base: nat, q: nat, m: nat)
    requires AdvanceTurns(g, base).Ok? && Seated(AdvanceTurns(g, base).value, q, 0)
    requires AdvanceTurns(g, base).value.players == g.players && m < |g.players|
    ensures AdvanceTurns(g, base + m).Ok? && Seated(AdvanceTurns(g, base + m).value, q, m)
    ensures AdvanceTurns(g, base + m).value.players == g.players
    decreases m
  {
    if m > 0 {
      SeatsWithinRound(g, base, q, m - 1);
      StepSeats(g, base + m - 1, q, m - 1);
    }
  }

  /** The number of ends of turn before round `q` begins, with `k` players per round. */
  function RoundStart(k: nat, q: nat): (n: nat)
    ensures n == q * k
  {
    if q == 0 then 0 else RoundStart(k, q - 1) + k
  }

  /** Each round of `k` ends of turn starts the next round: the manager then sits at round `q`, seat 0. */
  lemma {:induction false} SeatsAcrossRounds(g: Manager, q: nat)
    requires Seated(g, 0, 0)
    ensures AdvanceTurns(g, RoundStart(|g.players|, q)).Ok?
    ensures Seated(AdvanceTurns(g, RoundStart(|g.players|, q)).value, q, 0)
    ensures AdvanceTurns(g, RoundStart(|g.players|, q)).value.players == g.players
    decreases q
  {
    var k := |g.players|;
    if q > 0 {
      var base := RoundStart(k, q - 1);
      SeatsAcrossRounds(g, q - 1);
      SeatsWithinRound(g, base, q - 1, k - 1);
      StepSeats(g, base + k - 1, q - 1, k - 1);
      assert base + k - 1 + 1 == RoundStart(k, q);
    }
  }

  /**
   * From the start of the first round, `n = q·k + m` ends of turn (`k`
   * players, `m < k`) leave the manager seated at round `q`, turn `m`.
   */
  lemma AdvanceTurnsSeats(g: Manager, n: nat, q: nat, m: nat)
    requires Seated(g, 0, 0) && m < |g.players| && n == q * |g.players| + m
    ensures AdvanceTurns(g, n).Ok?
    ensures Seated(AdvanceTurns(g, n).value, q, m)
    ensures AdvanceTurns(g, n).value.players == g.players
  {
    SeatsAcrossRounds(g, q);
    SeatsWithinRound(g, RoundStart(|g.players|, q), q, m);
  }

  /** One more end of turn after `n` that left the manager seated at round `q`, turn `m`. */
  lemma StepSeats(g: Manager, n: nat, q: nat, m: nat)
    requires AdvanceTurns(g, n).Ok? && Seated(AdvanceTurns(g, n).value, q, m)
    requires AdvanceTurns(g, n).value.players == g.players
    ensures AdvanceTurns(g, n + 1).Ok?
    ensures m + 1 < |g.players| ==> Seated(AdvanceTurns(g, n + 1).value, q, m + 1)
    ensures m + 1 == |g.players| ==> Seated(AdvanceTurns(g, n + 1).value, q + 1, 0)
    ensures AdvanceTurns(g, n + 1).value.players == g.players
  {
    AdvanceTurnsLast(g, n);
    AdvanceTurnSeats(AdvanceTurns(g, n).value, q, m);
  }

  /**
   * After setUpGame followed by `q` rounds of `k` ends of turn and `m` more
   * (so `n = q·k + m` ends of turn with `m < k`), the current player is
   * player `m` of the `k` seated players and the current round is number `q`.
   */
  lemma PlayersAlternate(players: seq<Player>, q: nat, m: nat)
    requires m < |players|
    ensures var g := SetUpNextRound(Manager(players, [], false, false));
      && g.Ok?
      && AdvanceTurns(g.value, q * |players| + m).Ok?
      && GetCurrentPlayer(AdvanceTurns(g.value, q * |players| + m).value) == Ok(players[m])
      && CurrentRound(AdvanceTurns(g.value, q * |players| + m).value).value.number == q
  {
    var g := SetUpNextRound(Manager(players, [], false, false)).value;
    assert Seated(g, 0, 0);
    AdvanceTurnsSeats(g, q * |players| + m, q, m);
  }

  /**
   * With the built-in players the current player alternates white, black,
   * white, … and the round number rises by one every second end of turn.
   */
  lemma DefaultPlayersAlternate(n: nat)
    ensures var g := SetUpNextRound(NewManager());
      && g.Ok?
      && AdvanceTurns(g.value, n).Ok?
      && GetCurrentPlayer(AdvanceTurns(g.value, n).value).Ok?
      && GetCurrentPlayer(AdvanceTurns(g.value, n).value).value.side == (if n % 2 == 0 then White else Black)
      && CurrentRound(AdvanceTurns(g.value, n).value).value.number == n / 2
  {
    var q, m := n / 2, n % 2;
    assert NewManager() == Manager(DefaultPlayers, [], false, false);
    assert |DefaultPlayers| == 2 && n == q * |DefaultPlayers| + m;
    PlayersAlternate(DefaultPlayers, q, m);
    var h := AdvanceTurns(SetUpNextRound(NewManager()).value, n).value;
    assert GetCurrentPlayer(h) == Ok(DefaultPlayers[m]);
    assert DefaultPlayers[m].side == (if n % 2 == 0 then White else Black);
  }
}

=== FILE: move_gen.dfy ===
/**
 * Per-piece move generation for the checkers pawn: one move per destination,
 * Movement before Jump before Capture, and a Cancel back to the current
 * square, subject to a tag filter and an exclusion mask.
 */
module MoveGen {
  import opened Coords
  import opened Outcomes
  import opened Players
  import opened Moves
  import opened Boards
  import opened Scan
  import opened Rules
  import opened RuleSets

  /** One diagonal step onto an empty square. */
  function RegularMoveRules(): RuleSet {
    AddMaskingRule(AddAdditiveRule(EmptyRuleSet, DiagonalExtents(1)), EmptySquare)
  }

  /** Two diagonal steps over one of the owner's own pieces onto an empty square. */
  function JumpMoveRules(owner: Player): RuleSet {
    AddMaskingRule(AddAdditiveRule(EmptyRuleSet, PieceBetween(2, SameOwner(owner.name))), EmptySquare)
  }

  /** Two diagonal steps over another player's piece onto an empty square. */
  function CaptureRules(owner: Player): RuleSet {
    AddMaskingRule(AddAdditiveRule(EmptyRuleSet, PieceBetween(2, OtherOwner(owner.name))), EmptySquare)
  }

  /** The owner name of the piece on an occupied square. */
  function OwnerNameAt(b: Board, c: Coord): string
    requires Valid(b) && HasPawn(b, c)
  {
    b.pieces[b.occupant[c]].owner.name
  }

  lemma RegularRuleMeaning(b: Board, pos: Coord, center: Coord)
    requires Valid(b)
    ensures SetSelects(b, RegularMoveRules(), pos, center) <==> OnDiagonal(center, pos, 1) && !HasPawn(b, pos)
  {
    SetSelectsMeaning(b, RegularMoveRules(), pos, center);
    DiagonalExtentsAreDiagonalSteps(b, 1, pos, center);
    EmptySquareMeansNoPawn(b, pos, center);
    assert RegularMoveRules().additive == [DiagonalExtents(1)];
    assert RegularMoveRules().masking == [EmptySquare];
  }

  /**
   * The piece-between rule sets of a pawn: the landing is empty and two
   * diagonal steps away, and the midpoint holds a piece whose owner's name is
   * (for `same`) or is not (for `!same`) the pawn owner's.
   */
  lemma PieceBetweenRuleMeaning(b: Board, owner: Player, same: bool, pos: Coord, center: Coord)
    requires Valid(b)
    ensures var s := if same then JumpMoveRules(owner) else CaptureRules(owner);
      SetSelects(b, s, pos, center) <==>
        && OnDiagonal(center, pos, 2) && !HasPawn(b, pos) && HasPawn(b, Midpoint(center, pos))
        && (OwnerNameAt(b, Midpoint(center, pos)) == owner.name <==> same)
  {
    var req := if same then SameOwner(owner.name) else OtherOwner(owner.name);
    var s := if same then JumpMoveRules(owner) else CaptureRules(owner);
    assert s.additive == [PieceBetween(2, req)];
    assert s.masking == [EmptySquare];
    SetSelectsMeaning(b, s, pos, center);
    EmptySquareMeansNoPawn(b, pos, center);
    PieceBetweenAtShortRange(b, 2, req, pos, center);
  }

  /** The tag filter admits a move class when it is empty or names one of `tags`. */
  predicate Admits(filter: seq<Tag>, tags: set<Tag>) {
    |filter| == 0 || exists i | 0 <= i < |filter| :: filter[i] in tags
  }

  predicate MovementAdmitted(filter: seq<Tag>) { Admits(filter, {MovementTag}) }
  predicate JumpAdmitted(filter: seq<Tag>) { Admits(filter, {MovementTag, JumpTag}) }
  predicate CaptureAdmitted(filter: seq<Tag>) { Admits(filter, {CaptureTag, JumpTag}) }
  predicate CancelAdmitted(filter: seq<Tag>) { Admits(filter, {CancelTag}) }

  /** The square mask excludes the coordinates it lists. */
  predicate Masked(mask: seq<Coord>, c: Coord) {
    |mask| > 0 && c in mask
  }

  /** The first square of the scan holding another player's piece. */
  function FirstOpponentSquare(b: Board, cs: seq<Coord>, name: string): (r: Option<Coord>)
    requires Valid(b)
    ensures r.Some? ==> r.value in cs && Qualifies(b, r.value, OtherOwner(name))
    ensures r.None? <==> !AnyQualifies(b, cs, OtherOwner(name))
    ensures |cs| > 0 && Qualifies(b, cs[0], OtherOwner(name)) ==> r == Some(cs[0])
  {
    if |cs| == 0 then None
    else if Qualifies(b, cs[0], OtherOwner(name)) then Some(cs[0])
    else
      var r := FirstOpponentSquare(b, cs[1..], name);
      assert forall i | 1 <= i < |cs| :: cs[i] == cs[1..][i - 1];
      r
  }

  /** Every move belongs to piece `id`, starts on its square and stays on the board. */
  predicate MovesOf(b: Board, id: PieceId, moves: seq<Move>)
    requires id < |b.pieces|
  {
    forall k | 0 <= k < |moves| ::
      moves[k].piece == id && moves[k].origin == b.pieces[id].square && MoveOnBoard(b, moves[k])
  }

  /** The loop body of `calcAvailableMoves` for one destination square. */
  function GenerateAt(b: Board, id: PieceId, sq: Coord, mask: seq<Coord>, filter: seq<Tag>): (r: Result<Option<Move>>)
    requires Valid(b) && id < |b.pieces| && HasSquare(b, sq)
    ensures r.Ok? && r.value.Some? ==> MovesOf(b, id, [r.value.value]) && r.value.value.target == sq
  {
    var p := b.pieces[id];
    var cur := p.square;
    if Masked(mask, sq) then Ok(None)
    else if MovementAdmitted(filter) && SetSelects(b, RegularMoveRules(), sq, cur) then
      Ok(Some(NewMovementMove(id, cur, sq)))
    else if JumpAdmitted(filter) && SetSelects(b, JumpMoveRules(p.owner), sq, cur) then
      Ok(Some(NewJumpMove(id, cur, sq)))
    else if CaptureAdmitted(filter) && SetSelects(b, CaptureRules(p.owner), sq, cur) then
      match FirstOpponentSquare(b, StrictlyBetween(b, cur, sq), p.owner.name)
      case None => Err(PlainError(NoCaptureTarget))
      case Some(t) =>
        assert t in StrictlyBetween(b, cur, sq);
        Ok(Some(NewCheckersCaptureMove(id, cur, sq, t, None)))
    else Ok(None)
  }

  /** `foreachSquare` over `squares`, setting each generated move into the map. */
  function Collect(b: Board, id: PieceId, squares: seq<Coord>, mask: seq<Coord>, filter: seq<Tag>,
                   acc: seq<Move>): (r: Result<seq<Move>>)
    requires Valid(b) && id < |b.pieces|
    requires forall k | 0 <= k < |squares| :: HasSquare(b, squares[k])
    requires MovesOf(b, id, acc)
    ensures r.Ok? ==> MovesOf(b, id, r.value)
    ensures r.Ok? && DistinctTargets(acc) ==> DistinctTargets(r.value)
    decreases |squares|
  {
    if |squares| == 0 then Ok(acc)
    else
      var m :- GenerateAt(b, id, squares[0], mask, filter);
      var next := if m.Some? then SetEntry(acc, m.value) else acc;
      SetEntryKeepsKeysDistinct(acc, if m.Some? then m.value else NewCancelMove(id, squares[0], squares[0]));
      Collect(b, id, squares[1..], mask, filter, next)
  }

  /**
   * `calcAvailableMoves(squareMask, moveTagFilter)`: the moves of piece `id`
   * over every square in board order, then the Cancel if the filter admits it.
   */
  function AvailableMoves(b: Board, id: PieceId, mask: seq<Coord>, filter: seq<Tag>): (r: Result<seq<Move>>)
    requires Valid(b) && id < |b.pieces|
    ensures r.Ok? ==> MovesOf(b, id, r.value) && DistinctTargets(r.value)
  {
    var squares := SquareOrder(b.dims.width, b.dims.height);
    SquareOrderInBounds(b.dims);
    var moves :- Collect(b, id, squares, mask, filter, []);
    var cur := b.pieces[id].square;
    if CancelAdmitted(filter) then
      SetEntryKeepsKeysDistinct(moves, NewCancelMove(id, cur, cur));
      Ok(SetEntry(moves, NewCancelMove(id, cur, cur)))
    else Ok(moves)
  }

  /** The pawn stores its freshly computed moves; nothing else changes. */
  function CalcAvailableMoves(b: Board, id: PieceId, mask: seq<Coord>, filter: seq<Tag>): (r: Result<Board>)
    requires Valid(b) && id < |b.pieces|
    ensures r.Ok? <==> AvailableMoves(b, id, mask, filter).Ok?
    ensures r.Ok? ==> Valid(r.value) && |r.value.pieces| == |b.pieces|
    ensures r.Ok? ==> r.value.pieces[id].available == AvailableMoves(b, id, mask, filter).value
    ensures r.Ok? ==> r.value == b.(pieces := b.pieces[id := b.pieces[id].(available := r.value.pieces[id].available)])
  {
    var moves :- AvailableMoves(b, id, mask, filter);
    Ok(SetPiece(b, id, b.pieces[id].(available := moves)))
  }

  /**
   * The move the rules promise at `c`, stated geometrically: the Cancel on
   * the current square; otherwise nothing on a masked, missing or occupied
   * square; a Movement one diagonal step away; a Jump or a Capture two
   * diagonal steps away over an own or another player's piece.
   */
  function Reference(b: Board, id: PieceId, c: Coord, mask: seq<Coord>, filter: seq<Tag>): Option<Move>
    requires Valid(b) && id < |b.pieces|
  {
    var cur := b.pieces[id].square;
    var name := b.pieces[id].owner.name;
    var mid := Midpoint(cur, c);
    if c == cur then
      if CancelAdmitted(filter) then Some(NewCancelMove(id, cur, cur)) else None
    else if !HasSquare(b, c) || Masked(mask, c) || HasPawn(b, c) then None
    else if MovementAdmitted(filter) && OnDiagonal(cur, c, 1) then Some(NewMovementMove(id, cur, c))
    else if OnDiagonal(cur, c, 2) && HasPawn(b, mid) then
      if OwnerNameAt(b, mid) == name then
        if JumpAdmitted(filter) then Some(NewJumpMove(id, cur, c)) else None
      else if CaptureAdmitted(filter) then Some(NewCheckersCaptureMove(id, cur, c, mid, None))
      else None
    else None
  }

  /** One destination: the generator never fails and produces the reference move. */
  lemma GenerateAtMatchesReference(b: Board, id: PieceId, sq: Coord, mask: seq<Coord>, filter: seq<Tag>)
    requires Valid(b) && id < |b.pieces| && HasSquare(b, sq) && sq != b.pieces[id].square
    ensures GenerateAt(b, id, sq, mask, filter) == Ok(Reference(b, id, sq, mask, filter))
  {
    var p := b.pieces[id];
    var cur := p.square;
    RegularRuleMeaning(b, sq, cur);
    PieceBetweenRuleMeaning(b, p.owner, true, sq, cur);
    PieceBetweenRuleMeaning(b, p.owner, false, sq, cur);
    StepTowardOnShortDiagonals(cur, sq);
    if !Masked(mask, sq) && CaptureAdmitted(filter) && SetSelects(b, CaptureRules(p.owner), sq, cur) {
      WalkOnShortDiagonals(b, cur, sq);
    }
  }

  /** The generator at the current square itself yields nothing: the centre is never selected. */
  lemma GenerateAtCurrentSquare(b: Board, id: PieceId, mask: seq<Coord>, filter: seq<Tag>)
    requires Valid(b) && id < |b.pieces|
    ensures GenerateAt(b, id, b.pieces[id].square, mask, filter) == Ok(None)
  {
    var p := b.pieces[id];
    RegularRuleMeaning(b, p.square, p.square);
    PieceBetweenRuleMeaning(b, p.owner, true, p.square, p.square);
    PieceBetweenRuleMeaning(b, p.owner, false, p.square, p.square);
  }

  /**
   * The whole generator never fails, keys its moves by distinct targets, and
   * at every coordinate offers exactly the reference move.
   */
  lemma AvailableMovesMatchReference(b: Board, id: PieceId, mask: seq<Coord>, filter: seq<Tag>)
    requires Valid(b) && id < |b.pieces|
    ensures AvailableMoves(b, id, mask, filter).Ok?
    ensures DistinctTargets(AvailableMoves(b, id, mask, filter).value)
    ensures forall c :: MoveTo(AvailableMoves(b, id, mask, filter).value, c) == Reference(b, id, c, mask, filter)
  {
    var cur := b.pieces[id].square;
    var all := SquareOrder(b.dims.width, b.dims.height);
    SquareOrderInBounds(b.dims);
    CollectOverBoard(b, id, all, mask, filter, cur);
    var moves := Collect(b, id, all, mask, filter, []).value;
    var r := if CancelAdmitted(filter) then SetEntry(moves, NewCancelMove(id, cur, cur)) else moves;
    assert AvailableMoves(b, id, mask, filter) == Ok(r);
    forall c
      ensures MoveTo(r, c) == Reference(b, id, c, mask, filter)
    {
      CollectOverBoard(b, id, all, mask, filter, c);
    }
  }

  /** The fold over the whole board, seen from one coordinate: the reference move everywhere but the current square. */
  lemma CollectOverBoard(b: Board, id: PieceId, all: seq<Coord>, mask: seq<Coord>, filter: seq<Tag>, c: Coord)
    requires Valid(b) && id < |b.pieces|
    requires all == SquareOrder(b.dims.width, b.dims.height)
    requires forall k | 0 <= k < |all| :: HasSquare(b, all[k])
    ensures Collect(b, id, all, mask, filter, []).Ok?
    ensures MoveTo(Collect(b, id, all, mask, filter, []).value, c) ==
      if c != b.pieces[id].square then Reference(b, id, c, mask, filter) else None
  {
    // The current square is visited too, but yields nothing, so dropping it changes no entry.
    GenerateAtCurrentSquare(b, id, mask, filter);
    CollectSkipsCurrent(b, id, all, mask, filter, [], c);
    SquareOrderCovers(b.dims.width, b.dims.height, c);
  }

  /** The move one square contributes to the fold: the reference move, except nothing at the current square. */
  function Contribution(b: Board, id: PieceId, sq: Coord, mask: seq<Coord>, filter: seq<Tag>): (r: Option<Move>)
    requires Valid(b) && id < |b.pieces|
    ensures r.Some? ==> r.value.target == sq
  {
    if sq == b.pieces[id].square then None else Reference(b, id, sq, mask, filter)
  }

  /** One step of the fold: the first square's contribution is set into the accumulator. */
  lemma CollectStep(b: Board, id: PieceId, squares: seq<Coord>, mask: seq<Coord>, filter: seq<Tag>, acc: seq<Move>)
    requires Valid(b) && id < |b.pieces| && |squares| > 0
    requires forall k | 0 <= k < |squares| :: HasSquare(b, squares[k])
    requires MovesOf(b, id, acc)
    ensures var m := Contribution(b, id, squares[0], mask, filter);
      var next := if m.Some? then SetEntry(acc, m.value) else acc;
      && MovesOf(b, id, next)
      && Collect(b, id, squares, mask, filter, acc) == Collect(b, id, squares[1..], mask, filter, next)
  {
    var sq := squares[0];
    if sq == b.pieces[id].square {
      GenerateAtCurrentSquare(b, id, mask, filter);
    } else {
      GenerateAtMatchesReference(b, id, sq, mask, filter);
    }
    var m := Contribution(b, id, sq, mask, filter);
    assert GenerateAt(b, id, sq, mask, filter) == Ok(m);
    if m.Some? {
      var next := SetEntry(acc, m.value);
      SetEntryKeepsKeysDistinct(acc, m.value);
      assert MovesOf(b, id, [m.value]);
      forall k | 0 <= k < |next|
        ensures next[k].piece == id && next[k].origin == b.pieces[id].square && MoveOnBoard(b, next[k])
      {
        if next[k] != m.value {
          assert next[k] in acc;
        }
      }
    }
  }

  /** The fold over squares that may include the current square, which contributes nothing. */
  lemma {:induction false} CollectSkipsCurrent(b: Board, id: PieceId, squares: seq<Coord>, mask: seq<Coord>,
                                               filter: seq<Tag>, acc: seq<Move>, c: Coord)
    requires Valid(b) && id < |b.pieces|
    requires forall k | 0 <= k < |squares| :: HasSquare(b, squares[k])
    requires MovesOf(b, id, acc)
    ensures Collect(b, id, squares, mask, filter, acc).Ok?
    ensures MoveTo(Collect(b, id, squares, mask, filter, acc).value, c) ==
      if c in squares && c != b.pieces[id].square && Reference(b, id, c, mask, filter).Some?
      then Reference(b, id, c, mask, filter)
      else MoveTo(acc, c)
    decreases |squares|
  {
    if |squares| > 0 {
      var m := Contribution(b, id, squares[0], mask, filter);
      var next := if m.Some? then SetEntry(acc, m.value) else acc;
      CollectStep(b, id, squares, mask, filter, acc);
      CollectSkipsCurrent(b, id, squares[1..], mask, filter, next, c);
      assert c in squares <==> c == squares[0] || c in squares[1..];
      if c == squares[0] && m.Some? {
        assert MoveTo(next, c) == m;
      } else {
        assert MoveTo(next, c) == MoveTo(acc, c);
      }
    }
  }
}

=== FILE: moves.dfy ===
/** Moves: tagged variants carrying the piece, its origin, the target and the turn flag. */
module Moves {
  import opened Coords
  import opened Outcomes

  /** A piece is identified by its index in the board's piece list. */
  type PieceId = nat

  /** The tags a move-generation filter can name. */
  datatype Tag = MovementTag | CaptureTag | CancelTag | JumpTag

  /**
   * The concrete move classes. `Jump` is the checkers jump, itself a movement
   * move; `Capture` covers both the plain capture and the checkers capture.
   */
  datatype MoveKind =
    | Movement
    | Jump
    | Capture(captureSquare: Coord)
    | Cancel

  /**
   * A move of `piece` from `origin` to `target`. `doNotEndTurn` is the move
   * option that lets a chain continue after the move is applied.
   */
  datatype Move = Move(kind: MoveKind, piece: PieceId, origin: Coord, target: Coord, doNotEndTurn: bool)

  /** `move instanceof MovementMove`, which also holds for the checkers jump. */
  function IsMovementMove(m: Move): (r: bool)
    ensures r <==> !(m.kind.Capture? || m.kind.Cancel?)
  {
    m.kind.Movement? || m.kind.Jump?
  }

  /** The square whose occupant a capture removes. */
  function CaptureSquareOf(m: Move): Coord
    requires m.kind.Capture?
  {
    m.kind.captureSquare
  }

  /** A movement move; without options it ends the turn. */
  function NewMovementMove(piece: PieceId, origin: Coord, target: Coord): (m: Move)
    ensures IsMovementMove(m) && !m.kind.Jump?
    ensures m.target == target && m.origin == origin && m.piece == piece
    ensures !m.doNotEndTurn
  {
    Move(Movement, piece, origin, target, false)
  }

  /** A plain capture: its capture square defaults to the target. */
  function NewCaptureMove(piece: PieceId, origin: Coord, target: Coord): (m: Move)
    ensures m.kind.Capture? && CaptureSquareOf(m) == m.target
    ensures m.target == target && m.origin == origin && m.piece == piece
    ensures !m.doNotEndTurn
  {
    Move(Capture(target), piece, origin, target, false)
  }

  /** Putting the piece back down; it carries nothing beyond its target. */
  function NewCancelMove(piece: PieceId, origin: Coord, target: Coord): (m: Move)
    ensures m.kind.Cancel? && !IsMovementMove(m)
    ensures m.target == target && m.origin == origin && m.piece == piece
    ensures !m.doNotEndTurn
  {
    Move(Cancel, piece, origin, target, false)
  }

  /** The checkers jump over an own piece, created with `doNotEndTurn` set. */
  function NewJumpMove(piece: PieceId, origin: Coord, target: Coord): (m: Move)
    ensures IsMovementMove(m) && m.kind.Jump?
    ensures m.target == target && m.origin == origin && m.piece == piece
    ensures m.doNotEndTurn
  {
    Move(Jump, piece, origin, target, true)
  }

  /**
   * The checkers capture: it removes the occupant of `captureSquare`, not of
   * the target; without explicit options it does not end the turn.
   */
  function NewCheckersCaptureMove(piece: PieceId, origin: Coord, target: Coord, captureSquare: Coord,
                                  doNotEndTurn: Option<bool>): (m: Move)
    ensures m.kind.Capture? && CaptureSquareOf(m) == captureSquare
    ensures m.target == target && m.origin == origin && m.piece == piece
    ensures doNotEndTurn.None? ==> m.doNotEndTurn
    ensures doNotEndTurn.Some? ==> m.doNotEndTurn == doNotEndTurn.value
  {
    Move(Capture(captureSquare), piece, origin, target, if doNotEndTurn.None? then true else doNotEndTurn.value)
  }

  /** True iff no move in the list is anything but a Cancel; true of the empty list. */
  predicate AllCancel(moves: seq<Move>) {
    forall i | 0 <= i < |moves| :: moves[i].kind.Cancel?
  }

  /** Every move's target differs: the list behaves as a map keyed by target. */
  predicate DistinctTargets(moves: seq<Move>) {
    forall i, j | 0 <= i < j < |moves| :: moves[i].target != moves[j].target
  }

  /** The move in the list whose target is `c`, if any. */
  function MoveTo(moves: seq<Move>, c: Coord): (r: Option<Move>)
    ensures r.Some? ==> r.value in moves && r.value.target == c
    ensures r.None? ==> forall i | 0 <= i < |moves| :: moves[i].target != c
  {
    if |moves| == 0 then None
    else if moves[0].target == c then Some(moves[0])
    else MoveTo(moves[1..], c)
  }

  /** In a list without repeated targets, looking up an entry's target finds that entry. */
  lemma {:induction false} MoveToDistinct(moves: seq<Move>, i: nat)
    requires DistinctTargets(moves) && i < |moves|
    ensures MoveTo(moves, moves[i].target) == Some(moves[i])
  {
    if i > 0 {
      assert moves[0].target != moves[i].target;
      assert moves[1..][i - 1] == moves[i];
      MoveToDistinct(moves[1..], i - 1);
    }
  }

  /**
   * `Map.set` on a move list keyed by target: the entry with the same target
   * is replaced where it stands, otherwise the move is appended.
   */
  function SetEntry(moves: seq<Move>, m: Move): (r: seq<Move>)
    ensures MoveTo(r, m.target) == Some(m)
    ensures forall c | c != m.target :: MoveTo(r, c) == MoveTo(moves, c)
    ensures (forall i | 0 <= i < |moves| :: moves[i].target != m.target) ==> r == moves + [m]
  {
    if |moves| == 0 then [m]
    else if moves[0].target == m.target then [m] + moves[1..]
    else [moves[0]] + SetEntry(moves[1..], m)
  }

  /** Setting an entry keeps the list free of repeated targets, and adds only the new move. */
  lemma {:induction false} SetEntryKeepsKeysDistinct(moves: seq<Move>, m: Move)
    ensures forall i | 0 <= i < |SetEntry(moves, m)| :: SetEntry(moves, m)[i] == m || SetEntry(moves, m)[i] in moves
    ensures DistinctTargets(moves) ==> DistinctTargets(SetEntry(moves, m))
  {
    if |moves| > 0 && moves[0].target != m.target {
      var rest := SetEntry(moves[1..], m);
      SetEntryKeepsKeysDistinct(moves[1..], m);
      assert SetEntry(moves, m) == [moves[0]] + rest;
      forall i | 0 <= i < |rest|
        ensures rest[i] == m || rest[i] in moves
      {
        if rest[i] != m {
          assert rest[i] in moves[1..];
        }
      }
      if DistinctTargets(moves) {
        forall i | 0 <= i < |rest|
          ensures rest[i].target != moves[0].target
        {
          if rest[i] != m {
            var j :| 0 <= j < |moves[1..]| && moves[1..][j] == rest[i];
            assert moves[j + 1] == rest[i];
          }
        }
      }
    } else if |moves| > 0 {
      assert SetEntry(moves, m) == [m] + moves[1..];
      if DistinctTargets(moves) {
        assert forall i | 0 < i < |moves| :: moves[i].target != m.target;
      }
      forall i | 0 < i < |moves|
        ensures SetEntry(moves, m)[i] in moves
      {
        assert SetEntry(moves, m)[i] == moves[i];
      }
    }
  }
}

=== FILE: occupancy.dfy ===
/**
 * The occupancy invariant through a game: every move the generator offers
 * lands on an empty square (or, for the Cancel, on the piece's own), so
 * selecting, the pick handlers and the CPU's turn all keep the board
 * consistent.
 */
module Occupancy {
  import opened Coords
  import opened Outcomes
  import opened Players
  import opened Moves
  import opened Boards
  import opened MoveGen
  import opened Selection
  import opened GameManager
  import opened Play
  import opened Cpu

  /**
   * A move lands on the mover's own square or on an empty one, and a capture
   * removes a piece from neither the landing square nor the mover's square.
   */
  predicate Lands(b: Board, m: Move)
    requires m.piece < |b.pieces|
  {
    var own := b.pieces[m.piece].square;
    && (m.target == own || !HasPawn(b, m.target))
    && (m.kind.Capture? ==> m.kind.captureSquare != m.target && m.kind.captureSquare != own)
  }

  /** Every move of the list belongs to a piece of the board that stands, and lands. */
  predicate AllLand(b: Board, moves: seq<Move>) {
    forall k | 0 <= k < |moves| :: moves[k].piece < |b.pieces| && Stands(b, moves[k].piece) && Lands(b, moves[k])
  }

  /** Standing and landing read only the occupancy and the pieces' squares. */
  lemma AllLandOnSameOccupancy(b: Board, s: Board, moves: seq<Move>)
    requires s.occupant == b.occupant && |s.pieces| == |b.pieces|
    requires forall j | 0 <= j < |b.pieces| :: s.pieces[j].square == b.pieces[j].square
    ensures AllLand(b, moves) ==> AllLand(s, moves)
  {
  }

  /**
   * Every move generated for a piece standing on its square lands: a
   * non-Cancel target is empty, and a captured midpoint is neither the
   * landing square nor the mover's.
   */
  lemma GeneratedMovesLand(b: Board, id: PieceId, mask: seq<Coord>, filter: seq<Tag>)
    requires Valid(b) && id < |b.pieces| && Stands(b, id)
    ensures AvailableMoves(b, id, mask, filter).Ok?
    ensures AllLand(b, AvailableMoves(b, id, mask, filter).value)
  {
    AvailableMovesMatchReference(b, id, mask, filter);
    var moves := AvailableMoves(b, id, mask, filter).value;
    forall k | 0 <= k < |moves|
      ensures moves[k].piece < |b.pieces| && Stands(b, moves[k].piece) && Lands(b, moves[k])
    {
      MoveToDistinct(moves, k);
      assert Reference(b, id, moves[k].target, mask, filter) == Some(moves[k]);
    }
  }

  /**
   * The state the human pick handlers keep: a consistent board whose
   * selected piece only offers moves that land.
   */
  ghost predicate Playable(b: Board) {
    && Consistent(b)
    && (b.selected.Some? ==> AllLand(b, b.pieces[b.selected.value].available))
  }

  /** Selecting a piece that stands on its square keeps the board consistent. */
  lemma SelectPieceConsistent(b: Board, id: PieceId)
    requires Consistent(b) && id < |b.pieces| && Stands(b, id)
    ensures Consistent(SelectPiece(b, id))
  {
    UnselectedStaysValid(b);
    var s := b.(selected := Some(id));
    RecordInPlaceConsistent(s, id, s.pieces[id].(placed := false));
  }

  /** Deselecting sets the piece down where it stands: the board stays consistent, with nothing selected. */
  lemma DeselectPieceConsistent(b: Board)
    requires Consistent(b)
    ensures Playable(DeselectPiece(b))
  {
    if b.selected.Some? {
      var id := b.selected.value;
      PlaceConsistent(b, id, b.pieces[id].square);
    }
  }

  /** Recomputing the selected piece's moves keeps the board consistent, and every new move lands. */
  lemma CreateAvailableMovesPlayable(b: Board, mask: seq<Coord>, filter: seq<Tag>)
    requires Consistent(b) && b.selected.Some?
    ensures CreateAvailableMoves(b, mask, filter).Ok?
    ensures Playable(CreateAvailableMoves(b, mask, filter).value)
  {
    var id := b.selected.value;
    GeneratedMovesLand(b, id, mask, filter);
    var moves := AvailableMoves(b, id, mask, filter).value;
    RecordInPlaceConsistent(b, id, b.pieces[id].(available := moves));
    AllLandOnSameOccupancy(b, CreateAvailableMoves(b, mask, filter).value, moves);
  }

  /** Ending the turn leaves a consistent board with nothing selected. */
  lemma EndTurnPlayable(g: Game)
    requires Consistent(g.board) && EndTurn(g).Ok?
    ensures Playable(EndTurn(g).value.board) && EndTurn(g).value.board.selected.None?
  {
    DeselectPieceConsistent(g.board);
  }

  /** The pick handler on a piece keeps the game playable when the picked piece stands on its square. */
  lemma PickPiecePlayable(g: Game, id: PieceId)
    requires Playable(g.board) && id < |g.board.pieces| && Stands(g.board, id)
    requires PickPiece(g, id).Ok?
    ensures Playable(PickPiece(g, id).value.board)
  {
    var player := GetCurrentPlayer(g.manager).value;
    if g.board.selected.None? && CanBePlayedBy(g.board.pieces[id], player) {
      var selected := SelectPiece(g.board, id);
      SelectPieceConsistent(g.board, id);
      CreateAvailableMovesPlayable(selected, [], []);
    }
  }

  /** Continuing a chain from a consistent board with the mover selected keeps the game playable. */
  lemma ContinueChainPlayable(g: Game, id: PieceId)
    requires Consistent(g.board) && id < |g.board.pieces| && g.board.selected == Some(id)
    requires ContinueChain(g, id).Ok?
    ensures Playable(ContinueChain(g, id).value.board)
  {
    var latest := GetLatestMove(g.manager).value.value;
    CreateAvailableMovesPlayable(g.board, [latest.origin], ChainFilter);
    var regenerated := CreateAvailableMoves(g.board, [latest.origin], ChainFilter).value;
    if ChainEnds(regenerated) {
      DeselectPieceConsistent(regenerated);
      var ended := Game(DeselectPiece(regenerated), g.manager);
      assert ContinueChain(g, id) == EndTurn(ended);
      EndTurnPlayable(ended);
    } else {
      var lifted := SelectPiece(regenerated, id);
      assert ContinueChain(g, id) == Ok(Game(lifted, g.manager));
      SelectPieceConsistent(regenerated, id);
      AllLandOnSameOccupancy(regenerated, lifted, regenerated.pieces[id].available);
    }
  }

  /**
   * Applying a move of the selected piece that lands keeps the game
   * playable: the mover is set down on an empty square (or its own), the
   * captured piece leaves its square and roster together, and a continued
   * chain only offers moves that land.
   */
  lemma ApplyPickedPlayable(g: Game, id: PieceId, m: Move)
    requires Consistent(g.board) && id < |g.board.pieces| && g.board.selected == Some(id)
    requires m.piece == id && MoveOnBoard(g.board, m) && Lands(g.board, m)
    requires ApplyPicked(g, id, m).Ok?
    ensures Playable(ApplyPicked(g, id, m).value.board)
  {
    var placed := Place(g.board, id, m.target);
    PlaceConsistent(g.board, id, m.target);
    if m.kind.Cancel? {
      DeselectPieceConsistent(placed);
      var b := DeselectPiece(placed);
      var latest := GetLatestMove(g.manager).value;
      if latest.Some? && !latest.value.kind.Cancel? {
        assert ApplyPicked(g, id, m) == EndTurn(Game(b, g.manager));
        EndTurnPlayable(Game(b, g.manager));
      } else {
        assert ApplyPicked(g, id, m) == Ok(Game(b, g.manager));
      }
    } else {
      var captured := (if m.kind.Capture? then CapturePawn(placed, m.kind.captureSquare) else Ok(placed)).value;
      if m.kind.Capture? {
        CapturePawnConsistent(placed, m.kind.captureSquare);
      }
      var logged := RegisterMove(g.manager, m).value;
      if !m.doNotEndTurn {
        assert ApplyPicked(g, id, m) == EndTurn(Game(DeselectPiece(captured), logged));
        DeselectPieceConsistent(captured);
        EndTurnPlayable(Game(DeselectPiece(captured), logged));
      } else {
        assert ApplyPicked(g, id, m) == ContinueChain(Game(captured, logged), id);
        ContinueChainPlayable(Game(captured, logged), id);
      }
    }
  }

  /** The pick handler on a square keeps the game playable. */
  lemma PickSquarePlayable(g: Game, c: Coord)
    requires Playable(g.board) && PickSquare(g, c).Ok?
    ensures Playable(PickSquare(g, c).value.board)
  {
    if g.board.selected.Some? {
      var id := g.board.selected.value;
      var moves := g.board.pieces[id].available;
      if MoveTo(moves, c).Some? {
        var m := MoveTo(moves, c).value;
        var k :| 0 <= k < |moves| && moves[k] == m;
        AvailableMoveOnBoard(g.board, id, m);
        ApplyPickedPlayable(g, id, m);
      }
    }
  }

  /** The board half of a CPU move keeps the board consistent when the mover stands and the move lands. */
  lemma CpuBoardAfterConsistent(b: Board, m: Move)
    requires Consistent(b) && m.piece < |b.pieces| && MoveOnBoard(b, m) && Stands(b, m.piece) && Lands(b, m)
    requires CpuBoardAfter(b, m).Ok?
    ensures Consistent(CpuBoardAfter(b, m).value)
  {
    var lifted := SelectPiece(b, m.piece);
    SelectPieceConsistent(b, m.piece);
    var captured := (if m.kind.Capture? then CapturePawn(lifted, m.kind.captureSquare) else Ok(lifted)).value;
    if m.kind.Capture? {
      CapturePawnConsistent(lifted, m.kind.captureSquare);
    }
    assert Stands(captured, m.piece);
    PlaceConsistent(captured, m.piece, m.target);
  }

  /** Every choice belongs to a standing piece of the board and lands. */
  ghost predicate ChoicesLand(b: Board, mc: MoveChoices) {
    forall i | 0 <= i < |mc.choices| ::
      mc.choices[i].move.piece < |b.pieces| && Stands(b, mc.choices[i].move.piece) && Lands(b, mc.choices[i].move)
  }

  /** Choices that land on a board land on any board with the same occupancy and squares. */
  lemma ChoicesLandOnSameOccupancy(b: Board, s: Board, mc: MoveChoices)
    requires s.occupant == b.occupant && |s.pieces| == |b.pieces|
    requires forall j | 0 <= j < |b.pieces| :: s.pieces[j].square == b.pieces[j].square
    ensures ChoicesLand(b, mc) ==> ChoicesLand(s, mc)
  {
  }

  /** Weighing a list of moves that land adds only choices that land. */
  lemma AddMovesLand(s: Board, mc: MoveChoices, moves: seq<Move>)
    requires ChoicesLand(s, mc) && AllLand(s, moves)
    ensures ChoicesLand(s, AddMoves(mc, moves))
  {
    var added := AddMoves(mc, moves);
    var n := |mc.choices|;
    forall i | 0 <= i < |added.choices|
      ensures added.choices[i].move.piece < |s.pieces| && Stands(s, added.choices[i].move.piece)
      ensures Lands(s, added.choices[i].move)
    {
      if i < n {
        assert added.choices[..n][i] == added.choices[i];
      } else {
        assert added.choices[n + (i - n)] == Choice(moves[i - n], Weight(moves[i - n]));
      }
    }
  }

  /** A move drawn from choices that land belongs to a standing piece and lands. */
  lemma DrawnMoveLands(s: Board, mc: MoveChoices, draw: nat)
    requires ChoicesLand(s, mc) && ChooseMove(mc, draw).Ok?
    ensures ChooseMove(mc, draw).value.piece < |s.pieces|
    ensures Stands(s, ChooseMove(mc, draw).value.piece) && Lands(s, ChooseMove(mc, draw).value)
  {
    var i :| 0 <= i < |mc.choices| && mc.choices[i] == Choice(ChooseMove(mc, draw).value, mc.maxWeight);
  }

  /**
   * One continuation step of a CPU chain keeps the board consistent, and a
   * drawn next move belongs to the standing mover and lands.
   */
  lemma ChainStepConsistent(b: Board, cpu: Player, m: Move, draws: seq<nat>)
    requires Consistent(b) && m.piece < |b.pieces| && b.selected == Some(m.piece)
    requires ChainStepAfter(b, cpu, m, draws).Ok?
    ensures var step := ChainStepAfter(b, cpu, m, draws).value;
      && Consistent(step.board)
      && (step.ChainGoesOn? ==> Stands(step.board, m.piece) && Lands(step.board, step.next))
  {
    CreateAvailableMovesPlayable(b, [m.origin], ChainFilter);
    var regenerated := CreateAvailableMoves(b, [m.origin], ChainFilter).value;
    if !ChainEnds(regenerated) {
      var lifted := SelectPiece(regenerated, m.piece);
      SelectPieceConsistent(regenerated, m.piece);
      var moves := lifted.pieces[m.piece].available;
      AllLandOnSameOccupancy(regenerated, lifted, moves);
      AddMovesLand(lifted, NewMoveChoices(), moves);
      DrawnMoveLands(lifted, AddMoves(NewMoveChoices(), moves), draws[0]);
    }
  }

  /**
   * performMove, chain included, keeps the board consistent when the first
   * move's piece stands on its square and the move lands.
   */
  lemma {:induction false} PerformMoveConsistent(g: Game, cpu: Player, m: Move, draws: seq<nat>)
    requires Consistent(g.board) && m.piece < |g.board.pieces| && MoveOnBoard(g.board, m)
    requires Stands(g.board, m.piece) && Lands(g.board, m)
    requires PerformMove(g, cpu, m, draws).Ok?
    ensures Consistent(PerformMove(g, cpu, m, draws).value.game.board)
    decreases |draws|
  {
    CpuBoardAfterConsistent(g.board, m);
    var applied := ApplyCpuMove(g, m).value;
    if m.doNotEndTurn {
      ChainStepConsistent(applied.board, cpu, m, draws);
      var step := ChainStepAfter(applied.board, cpu, m, draws).value;
      if step.ChainGoesOn? {
        PerformMoveConsistent(Game(step.board, applied.manager), cpu, step.next, draws[1..]);
      }
    }
  }

  /**
   * Recomputing the moves of a piece that stands leaves occupancy and
   * squares alone, and every recomputed move lands.
   */
  lemma RecomputedMovesLand(b: Board, id: PieceId)
    requires Valid(b) && id < |b.pieces| && Stands(b, id)
    ensures CalcAvailableMoves(b, id, [], []).Ok?
    ensures var computed := CalcAvailableMoves(b, id, [], []).value;
      && AllLand(computed, computed.pieces[id].available)
      && computed.occupant == b.occupant && |computed.pieces| == |b.pieces|
      && (forall j | 0 <= j < |b.pieces| :: computed.pieces[j].square == b.pieces[j].square)
  {
    GeneratedMovesLand(b, id, [], []);
    var computed := CalcAvailableMoves(b, id, [], []).value;
    AllLandOnSameOccupancy(b, computed, computed.pieces[id].available);
  }

  /** Consistency reads only the layout that gathering leaves alone. */
  lemma ConsistentOnSameLayout(b: Board, s: Board)
    requires Consistent(b) && Valid(s) && SameLayout(b, s)
    ensures Consistent(s)
  {
  }

  /** Pieces that stand keep standing on a board with the same occupancy and squares. */
  lemma StillStanding(b: Board, s: Board, ids: seq<PieceId>)
    requires s.occupant == b.occupant && |s.pieces| == |b.pieces|
    requires forall j | 0 <= j < |b.pieces| :: s.pieces[j].square == b.pieces[j].square
    requires forall j | 0 <= j < |ids| :: ids[j] < |b.pieces| && Stands(b, ids[j])
    ensures forall j | 0 <= j < |ids| :: ids[j] < |s.pieces| && Stands(s, ids[j])
  {
  }

  /** Gathering the CPU's choices over pieces that stand offers only choices that land. */
  lemma {:induction false} GatherLands(b: Board, roster: seq<PieceId>, cpu: Player, mc: MoveChoices)
    requires Valid(b) && forall j | 0 <= j < |roster| :: roster[j] < |b.pieces| && Stands(b, roster[j])
    requires Tracks(mc) && Weighted(mc) && ChoicesFit(b, mc) && ChoicesLand(b, mc)
    requires GatherChoices(b, roster, cpu, mc).Ok?
    ensures ChoicesLand(GatherChoices(b, roster, cpu, mc).value.0, GatherChoices(b, roster, cpu, mc).value.1)
    decreases |roster|
  {
    if |roster| > 0 {
      GatherUnfolds(b, roster, cpu, mc);
      GatherStepLands(b, roster, mc);
      var computed := CalcAvailableMoves(b, roster[0], [], []).value;
      GatherLands(computed, roster[1..], cpu, AddMoves(mc, computed.pieces[roster[0]].available));
    }
  }

  /**
   * One gathering step over a piece that stands adds only choices that
   * land, and the rest of the roster still stands on the recomputed board.
   */
  lemma GatherStepLands(b: Board, roster: seq<PieceId>, mc: MoveChoices)
    requires Valid(b) && |roster| > 0 && forall j | 0 <= j < |roster| :: roster[j] < |b.pieces| && Stands(b, roster[j])
    requires ChoicesLand(b, mc)
    ensures CalcAvailableMoves(b, roster[0], [], []).Ok?
    ensures var computed := CalcAvailableMoves(b, roster[0], [], []).value;
      && ChoicesLand(computed, AddMoves(mc, computed.pieces[roster[0]].available))
      && forall j | 0 <= j < |roster[1..]| :: roster[1..][j] < |computed.pieces| && Stands(computed, roster[1..][j])
  {
    var id := roster[0];
    RecomputedMovesLand(b, id);
    var computed := CalcAvailableMoves(b, id, [], []).value;
    ChoicesLandOnSameOccupancy(b, computed, mc);
    AddMovesLand(computed, mc, computed.pieces[id].available);
    StillStanding(b, computed, roster[1..]);
  }

  /** The pieces on the CPU's roster all stand on their squares. */
  lemma RosterStands(b: Board, name: string)
    requires Consistent(b)
    ensures var roster := if name in b.rosters then b.rosters[name] else [];
      forall j | 0 <= j < |roster| :: roster[j] < |b.pieces| && Stands(b, roster[j])
  {
  }

  /** The CPU's whole turn keeps the board consistent. */
  lemma TakeTurnConsistent(g: Game, cpu: Player, draws: seq<nat>)
    requires Consistent(g.board) && TakeTurn(g, cpu, draws).Ok?
    ensures Consistent(TakeTurn(g, cpu, draws).value.game.board)
  {
    var roster := if cpu.name in g.board.rosters then g.board.rosters[cpu.name] else [];
    RosterStands(g.board, cpu.name);
    var gathered := GatherChoices(g.board, roster, cpu, NewMoveChoices());
    GatherLands(g.board, roster, cpu, NewMoveChoices());
    var b := gathered.value.0;
    var mc := gathered.value.1;
    ConsistentOnSameLayout(g.board, b);
    WeightedChoicesReachMax(mc);
    DrawnMoveLands(b, mc, draws[0]);
    var chosen := ChooseMove(mc, draws[0]).value;
    assert TakeTurn(g, cpu, draws) == PerformMove(Game(b, g.manager), cpu, chosen, draws[1..]);
    PerformMoveConsistent(Game(b, g.manager), cpu, chosen, draws[1..]);
  }
}

=== FILE: outcomes.dfy ===
/** Failure-compatible result types for the engine's thrown errors. */
module Outcomes {

  datatype Option<+T> = None | Some(value: T)

  /** Why a plain `Error` (not one of the game's own error classes) was thrown. */
  datatype Reason =
    | NotDiagonal        // diagonal scan between two points that are not on a diagonal
    | DistanceBelowTwo   // piece-between rule constructed with a distance under 2
    | NoCaptureTarget    // capture rule selected a square but no opponent was found between
    | QueueExhausted     // next turn requested with an empty player queue

  /** The kinds of failure the engine raises. */
  datatype Error =
    | RuleError          // GameRuleError
    | StateError         // GameStateError
    | EngineError        // GameEngineError
    | PlainError(reason: Reason)
    | RuntimeTypeError   // a JavaScript TypeError (member access on undefined)
    | FuelExhausted      // a CPU move chain longer than the bound the model is given

  datatype Result<+T> = Ok(value: T) | Err(error: Error) {

    predicate IsFailure() {
      Err?
    }

    function PropagateFailure<U>(): Result<U>
      requires Err?
    {
      Err(error)
    }

    function Extract(): T
      requires Ok?
    {
      value
    }
  }
}

=== FILE: play.dfy ===
/**
 * The human player's path through a turn: picking one of the current
 * player's pieces selects it, and picking a square then applies the
 * selected piece's move to that square, continues a jump chain or ends the
 * turn.
 */
module Play {
  import opened Coords
  import opened Outcomes
  import opened Players
  import opened Moves
  import opened Boards
  import opened MoveGen
  import opened Selection
  import Rounds
  import opened GameManager

  /** The board and the sequencing state the pick handlers act on together. */
  datatype Game = Game(board: Board, manager: Manager)

  /** A selected piece is always in hand: selecting lifts, and only deselecting sets it down. */
  ghost predicate SelectionLifted(b: Board)
    requires Valid(b)
  {
    b.selected.Some? ==> !b.pieces[b.selected.value].placed
  }

  /** GameManager.endTurn: a state error before the first round, then deselect and advance. */
  function EndTurn(g: Game): (r: Result<Game>)
    requires Valid(g.board)
    ensures |g.manager.rounds| == 0 ==> r == Err(StateError)
    ensures r.Ok? <==> AdvanceTurn(g.manager).Ok?
    ensures r.Ok? ==> r.value == Game(DeselectPiece(g.board), AdvanceTurn(g.manager).value)
  {
    if |g.manager.rounds| == 0 then Err(StateError)
    else
      var advanced :- AdvanceTurn(g.manager);
      Ok(Game(DeselectPiece(g.board), advanced))
  }

  /**
   * The pick handler on a piece: it runs only for a piece the current
   * player can play while nothing is selected, and then selects the piece
   * and computes all its moves.
   */
  function PickPiece(g: Game, id: PieceId): (r: Result<Game>)
    requires Valid(g.board) && id < |g.board.pieces|
    ensures GetCurrentPlayer(g.manager).Err? ==> r == Err(StateError)
    ensures GetCurrentPlayer(g.manager).Ok? ==>
      (g.board.selected.Some? || !CanBePlayedBy(g.board.pieces[id], GetCurrentPlayer(g.manager).value) ==> r == Ok(g))
    ensures r.Ok? && r.value != g ==>
      && r.value.manager == g.manager
      && Valid(r.value.board)
      && r.value.board.selected == Some(id)
      && SelectionLifted(r.value.board)
      && r.value.board.occupant == g.board.occupant
      && (forall c :: MoveTo(r.value.board.pieces[id].available, c) == Reference(g.board, id, c, [], []))
  {
    var player :- GetCurrentPlayer(g.manager);
    if g.board.selected.Some? || !CanBePlayedBy(g.board.pieces[id], player) then Ok(g)
    else
      var selected := SelectPiece(g.board, id);
      AvailableMovesMatchReference(selected, id, [], []);
      SameReference(g.board, selected, id);
      var computed := CreateAvailableMoves(selected, [], []).value;
      Ok(Game(computed, g.manager))
  }

  /**
   * With the built-in players every piece is playable by exactly one of
   * them, the one seated on its owner's side, so only that player's picks
   * can select it.
   */
  lemma {:induction false} DefaultPlayersSplitPieces(p: PieceState)
    ensures |set i | 0 <= i < |DefaultPlayers| && CanBePlayedBy(p, DefaultPlayers[i])| == 1
    ensures forall i | 0 <= i < |DefaultPlayers| :: CanBePlayedBy(p, DefaultPlayers[i]) <==> DefaultPlayers[i].side == p.owner.side
  {
    var playable := set i | 0 <= i < |DefaultPlayers| && CanBePlayedBy(p, DefaultPlayers[i]);
    if p.owner.side == White {
      assert playable == {0};
    } else {
      assert playable == {1};
    }
  }

  /**
   * The reference moves depend only on occupancy and on the piece's square
   * and owner, which selecting leaves alone.
   */
  lemma SameReference(b: Board, s: Board, id: PieceId)
    requires Valid(b) && Valid(s) && id < |b.pieces| && id < |s.pieces|
    requires s.occupant == b.occupant && s.dims == b.dims && |s.pieces| == |b.pieces|
    requires forall j | 0 <= j < |b.pieces| :: s.pieces[j].owner == b.pieces[j].owner
    requires s.pieces[id].square == b.pieces[id].square
    ensures forall c, mask, filter :: Reference(s, id, c, mask, filter) == Reference(b, id, c, mask, filter)
  {
  }

  /** The moves of a selected piece that the chain test ends the turn on. */
  function ChainEnds(b: Board): (r: bool)
    requires Valid(b)
    ensures r <==> (b.selected.None? ||
                    forall i | 0 <= i < |b.pieces[b.selected.value].available| :: b.pieces[b.selected.value].available[i].kind.Cancel?)
  {
    !HasAvailableMoves(b) || SelectedMovesAreAllCancel(b) == Some(true)
  }

  /**
   * The pick handler on a square: it runs only while a piece is selected,
   * and a square with no available move of that piece changes nothing.
   */
  function PickSquare(g: Game, c: Coord): (r: Result<Game>)
    requires Valid(g.board)
    ensures g.board.selected.None? ==> r == Ok(g)
    ensures g.board.selected.Some? && MoveTo(g.board.pieces[g.board.selected.value].available, c).None? ==> r == Ok(g)
  {
    match g.board.selected
    case None => Ok(g)
    case Some(id) =>
      match MoveTo(g.board.pieces[id].available, c)
      case None => Ok(g)
      case Some(m) =>
        AvailableMoveOnBoard(g.board, id, m);
        ApplyPicked(g, id, m)
  }

  /** A move in a piece's map belongs to that piece and stays on the board. */
  lemma AvailableMoveOnBoard(b: Board, id: PieceId, m: Move)
    requires Valid(b) && id < |b.pieces| && m in b.pieces[id].available
    ensures m.piece == id && MoveOnBoard(b, m)
  {
    var k :| 0 <= k < |b.pieces[id].available| && b.pieces[id].available[k] == m;
  }

  /**
   * The picked move, applied: the selected piece is set down on the target.
   * A Cancel deselects and ends the turn only when the turn already holds a
   * move that is not a Cancel. Any other move first removes its captured
   * piece, then is registered; a move that ends the turn deselects and ends
   * it, and a chainable one continues the chain.
   */
  function ApplyPicked(g: Game, id: PieceId, m: Move): (r: Result<Game>)
    requires Valid(g.board) && id < |g.board.pieces| && m.piece == id && MoveOnBoard(g.board, m)
    ensures r.Ok? ==> Valid(r.value.board)
    ensures r.Ok? && (m.kind.Cancel? || !m.doNotEndTurn) ==> r.value.board.selected.None?
    ensures r.Ok? && !m.kind.Cancel? ==> RegisterMove(g.manager, m).Ok?
    ensures m.kind.Cancel? ==> (GetLatestMove(g.manager).Err? ==> r.Err?)
  {
    var placed := Place(g.board, id, m.target);
    if m.kind.Cancel? then
      var b := DeselectPiece(placed);
      var latest :- GetLatestMove(g.manager);
      if latest.Some? && !latest.value.kind.Cancel? then EndTurn(Game(b, g.manager))
      else Ok(Game(b, g.manager))
    else
      var captured :- if m.kind.Capture? then CapturePawn(placed, m.kind.captureSquare) else Ok(placed);
      var logged :- RegisterMove(g.manager, m);
      if !m.doNotEndTurn then EndTurn(Game(DeselectPiece(captured), logged))
      else ContinueChain(Game(captured, logged), id)
  }

  /**
   * After a chainable move: the selected piece's moves are recomputed with
   * only Cancel and Jump admitted and the latest move's origin masked; the
   * turn ends when they are empty or all Cancel, otherwise the piece is
   * selected (lifted) again.
   */
  function ContinueChain(g: Game, id: PieceId): (r: Result<Game>)
    requires Valid(g.board) && id < |g.board.pieces|
    ensures GetLatestMove(g.manager).Err? ==> r.Err?
    ensures GetLatestMove(g.manager) == Ok(None) ==> r == Err(RuntimeTypeError)
    ensures g.board.selected.None? && GetLatestMove(g.manager).Ok? && GetLatestMove(g.manager).value.Some? ==>
      r == Err(EngineError)
    ensures r.Ok? ==> Valid(r.value.board)
    ensures r.Ok? ==> r.value.board.selected.None? || r.value.board.selected == Some(id)
    ensures r.Ok? && r.value.board.selected.Some? ==> r.value.manager == g.manager && !r.value.board.pieces[id].placed
  {
    var latest :- GetLatestMove(g.manager);
    if latest.None? then Err(RuntimeTypeError)
    else
      var regenerated :- CreateAvailableMoves(g.board, [latest.value.origin], ChainFilter);
      if ChainEnds(regenerated) then EndTurn(Game(DeselectPiece(regenerated), g.manager))
      else
        var lifted := SelectPiece(regenerated, id);
        assert lifted.selected == Some(id) && !lifted.pieces[id].placed;
        Ok(Game(lifted, g.manager))
  }

  /**
   * Picking the Cancel square sets the piece down and clears the selection
   * without registering anything; the turn ends exactly when the turn
   * already holds a latest move that is not a Cancel.
   */
  lemma PickCancel(g: Game, c: Coord)
    requires Valid(g.board) && g.board.selected.Some? && SelectionLifted(g.board)
    requires var id := g.board.selected.value;
      MoveTo(g.board.pieces[id].available, c).Some? && MoveTo(g.board.pieces[id].available, c).value.kind.Cancel?
    requires GetLatestMove(g.manager).Ok?
    ensures var id := g.board.selected.value;
      var latest := GetLatestMove(g.manager).value;
      var b := DeselectPiece(Place(g.board, id, c));
      && (latest.Some? && !latest.value.kind.Cancel? ==> PickSquare(g, c) == EndTurn(Game(b, g.manager)))
      && (!(latest.Some? && !latest.value.kind.Cancel?) ==> PickSquare(g, c) == Ok(Game(b, g.manager)))
      && b.selected.None? && b.pieces[id].placed && GetPawn(b, c) == Some(id)
  {
    var id := g.board.selected.value;
    var m := MoveTo(g.board.pieces[id].available, c).value;
    AvailableMoveOnBoard(g.board, id, m);
  }

  /** Every capture in the list removes a piece from a square other than its landing square. */
  predicate CapturesElsewhere(moves: seq<Move>) {
    forall i | 0 <= i < |moves| :: moves[i].kind.Capture? ==> moves[i].kind.captureSquare != moves[i].target
  }

  /**
   * Picking the target of any other move of a lifted selection: on success
   * the piece stands on the target, the captured square (if any) is empty,
   * and either the turn ended with the piece set down and deselected, or
   * the chain continues with the piece lifted, the move as the latest move,
   * and the regenerated map holding a jump or capture.
   */
  lemma PickMove(g: Game, c: Coord)
    requires Valid(g.board) && g.board.selected.Some? && SelectionLifted(g.board)
    requires var id := g.board.selected.value;
      MoveTo(g.board.pieces[id].available, c).Some? && !MoveTo(g.board.pieces[id].available, c).value.kind.Cancel?
    requires CapturesElsewhere(g.board.pieces[g.board.selected.value].available)
    requires PickSquare(g, c).Ok?
    ensures var id := g.board.selected.value;
      var m := MoveTo(g.board.pieces[id].available, c).value;
      var r := PickSquare(g, c).value;
      && Valid(r.board)
      && GetPawn(r.board, c) == Some(id) && r.board.pieces[id].square == c
      && (m.kind.Capture? ==> !HasPawn(r.board, m.kind.captureSquare))
      && (r.board.selected.None? ==> r.board.pieces[id].placed)
      && (!m.doNotEndTurn ==> r.board.selected.None?)
      && (r.board.selected.None? ==> AdvanceTurn(RegisterMove(g.manager, m).value) == Ok(r.manager))
      && (r.board.selected.Some? ==>
            && m.doNotEndTurn
            && r.board.selected == Some(id) && SelectionLifted(r.board)
            && GetLatestMove(r.manager) == Ok(Some(m))
            && !AllCancel(r.board.pieces[id].available))
  {
    var id := g.board.selected.value;
    var m := MoveTo(g.board.pieces[id].available, c).value;
    AvailableMoveOnBoard(g.board, id, m);
    var k :| 0 <= k < |g.board.pieces[id].available| && g.board.pieces[id].available[k] == m;
    var placed := Place(g.board, id, c);
    var captured := (if m.kind.Capture? then CapturePawn(placed, m.kind.captureSquare) else Ok(placed)).value;
    var logged := RegisterMove(g.manager, m).value;
    assert GetPawn(captured, c) == Some(id);
    assert captured.pieces[id].placed && captured.pieces[id].square == c;
    if m.doNotEndTurn {
      assert |logged.rounds| > 0;
      RegisterThenLatestMove(g.manager, m);
      ContinueChainMeaning(Game(captured, logged), id, m);
    }
  }

  /**
   * Continuing a chain after move `m`, the piece set down on its target,
   * leaves every square's occupant in place; it either ends the turn with the piece set down and deselected,
   * or selects the piece again, lifted, over a map that holds a jump or
   * capture, with the turn left as it was.
   */
  lemma ContinueChainMeaning(g: Game, id: PieceId, m: Move)
    requires Valid(g.board) && id < |g.board.pieces| && g.board.selected == Some(id) && g.board.pieces[id].placed
    requires GetLatestMove(g.manager) == Ok(Some(m))
    requires ContinueChain(g, id).Ok?
    ensures var r := ContinueChain(g, id).value;
      && Valid(r.board)
      && r.board.occupant == g.board.occupant
      && r.board.pieces[id].square == g.board.pieces[id].square
      && (r.board.selected.None? ==> r.board.pieces[id].placed && AdvanceTurn(g.manager) == Ok(r.manager))
      && (r.board.selected.Some? ==>
            && r.board.selected == Some(id) && SelectionLifted(r.board) && r.manager == g.manager
            && !AllCancel(r.board.pieces[id].available))
  {
    ChainRegeneration(g.board, m.origin);
    var regenerated := CreateAvailableMoves(g.board, [m.origin], ChainFilter).value;
    assert regenerated.pieces[id].placed && regenerated.selected == Some(id);
    if ChainEnds(regenerated) {
      assert DeselectPiece(regenerated) == regenerated.(selected := None);
    }
  }
}

=== FILE: players.dfy ===
/** Players: a unique name, a side, and who controls the moves. */
module Players {

  datatype Side = White | Black

  /** A human player picks with the pointer; a CPU player owns the heuristic chooser. */
  datatype Controller = Human | Computer

  datatype Player = Player(name: string, side: Side, controller: Controller)
}

=== FILE: proto_cpu.dfy ===
/**
 * The prototype CPU: among the pawns it can play it takes the one with the
 * most moves (the earliest on a tie), then applies one of that pawn's moves.
 */
module ProtoCpu {
  import opened Coords
  import opened Outcomes
  import opened Players
  import opened Moves
  import opened Boards
  import opened ProtoMoveGen

  /** The number of moves the prototype generator offers the piece. */
  function MoveCount(b: Board, id: PieceId, current: Player): nat
    requires Valid(b) && id < |b.pieces|
  {
    |ProtoAvailableMoves(b, id, current)|
  }

  /** The pawns the CPU player may move. */
  predicate Usable(b: Board, pawns: seq<PieceId>, cpu: Player, k: int)
    requires forall j | 0 <= j < |pawns| :: pawns[j] < |b.pieces|
  {
    0 <= k < |pawns| && CanBePlayedBy(b.pieces[pawns[k]], cpu)
  }

  /**
   * The selection loop: the first usable entry is taken, and a later one
   * replaces it only with a strictly greater weight. The result is the
   * position of the entry chosen.
   */
  method FirstHeaviest(usable: seq<bool>, weight: seq<nat>) returns (best: Option<nat>)
    requires |usable| == |weight|
    ensures best.None? <==> forall j | 0 <= j < |usable| :: !usable[j]
    ensures best.Some? ==> best.value < |usable| && usable[best.value]
    ensures best.Some? ==> forall j | 0 <= j < |usable| && usable[j] :: weight[j] <= weight[best.value]
    ensures best.Some? ==> forall j | 0 <= j < best.value && usable[j] :: weight[j] < weight[best.value]
  {
    best := None;
    var i := 0;
    while i < |usable|
      invariant 0 <= i <= |usable|
      invariant best.None? <==> forall j | 0 <= j < i :: !usable[j]
      invariant best.Some? ==> best.value < i && usable[best.value]
      invariant best.Some? ==> forall j | 0 <= j < i && usable[j] :: weight[j] <= weight[best.value]
      invariant best.Some? ==> forall j | 0 <= j < best.value && usable[j] :: weight[j] < weight[best.value]
    {
      if usable[i] && (best.None? || weight[i] > weight[best.value]) {
        best := Some(i);
      }
      i := i + 1;
    }
  }

  /**
   * The pawn the prototype CPU plays: the first usable pawn with the most
   * moves. The result is the position in `pawns` of the pawn chosen.
   */
  method PawnWithMostMoves(b: Board, pawns: seq<PieceId>, cpu: Player, current: Player) returns (best: Option<nat>)
    requires Valid(b) && forall j | 0 <= j < |pawns| :: pawns[j] < |b.pieces|
    ensures best.None? <==> forall j | 0 <= j < |pawns| :: !Usable(b, pawns, cpu, j)
    ensures best.Some? ==> Usable(b, pawns, cpu, best.value)
    ensures best.Some? ==> forall j | Usable(b, pawns, cpu, j) ::
      MoveCount(b, pawns[j], current) <= MoveCount(b, pawns[best.value], current)
    ensures best.Some? ==> forall j | 0 <= j < best.value && Usable(b, pawns, cpu, j) ::
      MoveCount(b, pawns[j], current) < MoveCount(b, pawns[best.value], current)
  {
    var usable := seq(|pawns|, j requires 0 <= j < |pawns| => CanBePlayedBy(b.pieces[pawns[j]], cpu));
    var weight := seq(|pawns|, j requires 0 <= j < |pawns| => MoveCount(b, pawns[j], current));
    best := FirstHeaviest(usable, weight);
    assert forall j | 0 <= j < |pawns| :: usable[j] == Usable(b, pawns, cpu, j) && weight[j] == MoveCount(b, pawns[j], current);
  }

  /** The outcome of the prototype CPU's turn: the board afterwards and the move applied. */
  datatype ProtoTurn = ProtoTurn(board: Board, piece: PieceId, move: Move)

  /**
   * takeTurn: a rule error with no usable pawn; otherwise the chosen pawn is
   * lifted, the draw picks an entry of its move map, a capture removes the
   * occupant of its target, and the pawn is placed on the target.
   */
  method ProtoTakeTurn(b: Board, pawns: seq<PieceId>, cpu: Player, current: Player, draw: nat) returns (r: Result<ProtoTurn>)
    requires Valid(b) && forall j | 0 <= j < |pawns| :: pawns[j] < |b.pieces|
    ensures (forall j | 0 <= j < |pawns| :: !Usable(b, pawns, cpu, j)) ==> r == Err(RuleError)
    ensures r.Ok? ==> var t := r.value;
      && Valid(t.board) && t.piece in pawns && CanBePlayedBy(b.pieces[t.piece], cpu)
      && (forall j | Usable(b, pawns, cpu, j) :: MoveCount(b, pawns[j], current) <= MoveCount(b, t.piece, current))
      && t.move in ProtoAvailableMoves(b, t.piece, current)
      && GetPawn(t.board, t.move.target) == Some(t.piece)
      && t.board.pieces[t.piece].square == t.move.target && t.board.pieces[t.piece].placed
      && (t.move.target != b.pieces[t.piece].square ==> !HasPawn(t.board, b.pieces[t.piece].square))
    ensures r.Err? && (exists j | 0 <= j < |pawns| :: Usable(b, pawns, cpu, j)) ==> r == Err(RuntimeTypeError)
  {
    var best := PawnWithMostMoves(b, pawns, cpu, current);
    if best.None? {
      return Err(RuleError);
    }
    var id := pawns[best.value];
    var moves := ProtoAvailableMoves(b, id, current);
    ProtoMovesMatchReference(b, id, current);
    // The Cancel on the pawn's own square is always in the map.
    assert MoveTo(moves, b.pieces[id].square).Some?;
    var m := moves[draw % |moves|];
    var lifted := Boards.Lift(b, id);
    var cleared: Board;
    if m.kind.Capture? {
      var captured := CapturePawn(lifted, m.target);
      if captured.Err? {
        return Err(RuntimeTypeError);
      }
      cleared := captured.value;
    } else {
      cleared := lifted;
    }
    var placed := Boards.Place(cleared, id, m.target);
    r := Ok(ProtoTurn(placed, id, m));
  }
}

=== FILE: proto_move_gen.dfy ===
/**
 * The prototype's one-step move generator: every diagonal neighbour of the
 * pawn is a candidate; an empty one is a movement, one holding a piece the
 * current player cannot play is a capture landing on that piece's square,
 * and the pawn's own square is always the Cancel.
 */
module ProtoMoveGen {
  import opened Coords
  import opened Outcomes
  import opened Players
  import opened Moves
  import opened Boards
  import opened Rules
  import opened MoveGen

  /** The prototype pawn's candidate rule: diagonal extents of radius one. */
  const StepRule: Rule := DiagonalExtents(1)

  /** The loop body for one visited square. */
  function ProtoGenerateAt(b: Board, id: PieceId, sq: Coord, current: Player): (r: Option<Move>)
    requires Valid(b) && id < |b.pieces| && HasSquare(b, sq)
    ensures r.Some? ==> MovesOf(b, id, [r.value]) && r.value.target == sq
  {
    var cur := b.pieces[id].square;
    if !Selects(b, StepRule, sq, cur) then None
    else if HasPawn(b, sq) then
      if CanBePlayedBy(b.pieces[b.occupant[sq]], current) then None
      else Some(NewCaptureMove(id, cur, sq))
    else Some(NewMovementMove(id, cur, sq))
  }

  /** The square loop, setting each generated move into the map. */
  function ProtoCollect(b: Board, id: PieceId, squares: seq<Coord>, current: Player, acc: seq<Move>): (r: seq<Move>)
    requires Valid(b) && id < |b.pieces|
    requires forall k | 0 <= k < |squares| :: HasSquare(b, squares[k])
    requires MovesOf(b, id, acc)
    ensures MovesOf(b, id, r)
    ensures DistinctTargets(acc) ==> DistinctTargets(r)
    decreases |squares|
  {
    if |squares| == 0 then acc
    else
      var m := ProtoGenerateAt(b, id, squares[0], current);
      var next := if m.Some? then SetEntry(acc, m.value) else acc;
      SetEntryKeepsKeysDistinct(acc, if m.Some? then m.value else NewCancelMove(id, squares[0], squares[0]));
      ProtoCollect(b, id, squares[1..], current, next)
  }

  /**
   * The prototype's calcAvailableMoves: the map is rebuilt over every
   * square in board order, then the Cancel on the pawn's own square is set.
   * `current` is the player the game manager reports as current.
   */
  function ProtoAvailableMoves(b: Board, id: PieceId, current: Player): (r: seq<Move>)
    requires Valid(b) && id < |b.pieces|
    ensures MovesOf(b, id, r) && DistinctTargets(r)
  {
    var cur := b.pieces[id].square;
    SquareOrderInBounds(b.dims);
    var moves := ProtoCollect(b, id, SquareOrder(b.dims.width, b.dims.height), current, []);
    SetEntryKeepsKeysDistinct(moves, NewCancelMove(id, cur, cur));
    SetEntry(moves, NewCancelMove(id, cur, cur))
  }

  /**
   * The move the prototype promises at `c`, stated geometrically: the Cancel
   * on the pawn's own square; nothing off the board or off the four
   * diagonal neighbours, or on a piece the current player can play; a
   * capture on any other piece; a movement onto an empty neighbour.
   */
  function ProtoReference(b: Board, id: PieceId, c: Coord, current: Player): Option<Move>
    requires Valid(b) && id < |b.pieces|
  {
    var cur := b.pieces[id].square;
    if c == cur then Some(NewCancelMove(id, cur, cur))
    else if !HasSquare(b, c) || !OnDiagonal(cur, c, 1) then None
    else if HasPawn(b, c) then
      if CanBePlayedBy(b.pieces[b.occupant[c]], current) then None else Some(NewCaptureMove(id, cur, c))
    else Some(NewMovementMove(id, cur, c))
  }

  lemma ProtoGenerateAtMatchesReference(b: Board, id: PieceId, sq: Coord, current: Player)
    requires Valid(b) && id < |b.pieces| && HasSquare(b, sq)
    ensures sq == b.pieces[id].square ==> ProtoGenerateAt(b, id, sq, current).None?
    ensures sq != b.pieces[id].square ==> ProtoGenerateAt(b, id, sq, current) == ProtoReference(b, id, sq, current)
  {
    DiagonalExtentsAreDiagonalSteps(b, 1, sq, b.pieces[id].square);
  }

  /** A square the loop visits decides its own entry; the others keep what they had. */
  lemma {:induction false} ProtoCollectLookup(b: Board, id: PieceId, squares: seq<Coord>, current: Player,
                                              acc: seq<Move>, c: Coord)
    requires Valid(b) && id < |b.pieces|
    requires forall k | 0 <= k < |squares| :: HasSquare(b, squares[k])
    requires MovesOf(b, id, acc)
    ensures MoveTo(ProtoCollect(b, id, squares, current, acc), c) ==
      if c in squares && ProtoGenerateAt(b, id, c, current).Some? then ProtoGenerateAt(b, id, c, current)
      else MoveTo(acc, c)
    decreases |squares|
  {
    if |squares| > 0 {
      var sq := squares[0];
      var m := ProtoGenerateAt(b, id, sq, current);
      var next := if m.Some? then SetEntry(acc, m.value) else acc;
      SetEntryKeepsKeysDistinct(acc, if m.Some? then m.value else NewCancelMove(id, sq, sq));
      assert ProtoCollect(b, id, squares, current, acc) == ProtoCollect(b, id, squares[1..], current, next);
      ProtoCollectLookup(b, id, squares[1..], current, next, c);
      assert c in squares <==> c == sq || c in squares[1..];
    }
  }

  /** At every coordinate the generated map holds exactly the reference move. */
  lemma ProtoMovesMatchReference(b: Board, id: PieceId, current: Player)
    requires Valid(b) && id < |b.pieces|
    ensures forall c :: MoveTo(ProtoAvailableMoves(b, id, current), c) == ProtoReference(b, id, c, current)
  {
    var cur := b.pieces[id].square;
    var all := SquareOrder(b.dims.width, b.dims.height);
    SquareOrderInBounds(b.dims);
    var moves := ProtoCollect(b, id, all, current, []);
    forall c
      ensures MoveTo(ProtoAvailableMoves(b, id, current), c) == ProtoReference(b, id, c, current)
    {
      ProtoCollectLookup(b, id, all, current, [], c);
      SquareOrderCovers(b.dims.width, b.dims.height, c);
      if HasSquare(b, c) {
        ProtoGenerateAtMatchesReference(b, id, c, current);
      }
    }
  }

  /**
   * What the prototype never offers: no jump, and no move of more than one
   * diagonal step. A capture lands on the captured piece's own square, which
   * holds a piece the current player cannot play.
   */
  lemma ProtoMoveShapes(b: Board, id: PieceId, current: Player, k: nat)
    requires Valid(b) && id < |b.pieces| && k < |ProtoAvailableMoves(b, id, current)|
    ensures var m := ProtoAvailableMoves(b, id, current)[k];
      && !m.kind.Jump? && !m.doNotEndTurn
      && (m.kind.Cancel? <==> m.target == b.pieces[id].square)
      && (!m.kind.Cancel? ==> OnDiagonal(b.pieces[id].square, m.target, 1))
      && (m.kind.Capture? ==> m.kind.captureSquare == m.target && HasPawn(b, m.target)
                              && !CanBePlayedBy(b.pieces[b.occupant[m.target]], current))
      && (m.kind.Movement? ==> !HasPawn(b, m.target))
  {
    var moves := ProtoAvailableMoves(b, id, current);
    ProtoMovesMatchReference(b, id, current);
    assert MoveTo(moves, moves[k].target) == Some(moves[k]) by {
      MoveToDistinct(moves, k);
    }
  }
}

=== FILE: proto_pawn.dfy ===
/**
 * The prototype pawns: the lift/place toggle both prototype pawn classes
 * share, and the first pawn's neighbourhood move list.
 */
module ProtoPawn {
  import opened Coords

  /** A pawn's state: not yet defined, held above the board, or set down. */
  datatype LiftState = NotDefined | Lifted | Placed

  /** lift: the pawn is in hand, whatever its state was. */
  function Lift(s: LiftState): (r: LiftState)
    ensures r == Lifted
  {
    Lifted
  }

  /** place: the pawn is set down, whatever its state was. */
  function Place(s: LiftState): (r: LiftState)
    ensures r == Placed
  {
    Placed
  }

  /** toggleLift: a lifted pawn is placed, a placed pawn lifted, an undefined one left alone. */
  function ToggleLift(s: LiftState): (r: LiftState)
    ensures r == NotDefined <==> s == NotDefined
    ensures s != NotDefined ==> r != s
  {
    match s
    case NotDefined => NotDefined
    case Lifted => Place(s)
    case Placed => Lift(s)
  }

  /** The toggle swaps lifted and placed, fixes only the undefined state, and undoes itself. */
  lemma ToggleLiftInvolution(s: LiftState)
    ensures ToggleLift(ToggleLift(s)) == s
    ensures ToggleLift(s) == s <==> s == NotDefined
    ensures s != NotDefined ==> ToggleLift(s) != NotDefined
  {
  }

  /** The board pawn's constructor leaves it set down. */
  function NewBoardPawn(): (s: LiftState)
    ensures s == Placed && ToggleLift(s) == Lifted
  {
    Placed
  }

  /** The scene pawn's constructor starts undefined and then lifts, so it begins in hand. */
  function NewScenePawn(): (s: LiftState)
    ensures s == Lifted && ToggleLift(s) == Placed
  {
    Lift(NotDefined)
  }

  /** `n` toggles in a row. */
  function Toggles(s: LiftState, n: nat): LiftState
    decreases n
  {
    if n == 0 then s else ToggleLift(Toggles(s, n - 1))
  }

  /** From a defined state an even number of toggles returns to it and an odd number swaps it. */
  lemma {:induction false} TogglesAlternate(s: LiftState, n: nat)
    requires s != NotDefined
    ensures n % 2 == 0 ==> Toggles(s, n) == s
    ensures n % 2 == 1 ==> Toggles(s, n) == ToggleLift(s)
    decreases n
  {
    if n > 0 {
      TogglesAlternate(s, n - 1);
      ToggleLiftInvolution(s);
    }
  }

  /** The squares in board order with both offsets from `at` at most one. */
  function Neighbourhood(squares: seq<Coord>, at: Coord): (r: seq<Coord>)
    ensures forall k | 0 <= k < |r| :: r[k] in squares
    ensures forall c | c in squares :: c in r <==> Abs(c.x - at.x) <= 1 && Abs(c.y - at.y) <= 1
    ensures |r| <= |squares|
  {
    if |squares| == 0 then []
    else
      var rest := Neighbourhood(squares[1..], at);
      assert forall c | c in squares :: c == squares[0] || c in squares[1..];
      if Abs(squares[0].x - at.x) <= 1 && Abs(squares[0].y - at.y) <= 1 then [squares[0]] + rest else rest
  }

  /**
   * The board pawn's calcAvailableMoves: every square of the board within
   * Chebyshev distance one of the pawn, its own square included, in board order.
   */
  function NeighbourhoodMoves(dims: Dimensions, at: Coord): (r: seq<Coord>)
    ensures forall k | 0 <= k < |r| :: InBounds(dims, r[k]) && Abs(r[k].x - at.x) <= 1 && Abs(r[k].y - at.y) <= 1
  {
    SquareOrderInBounds(dims);
    Neighbourhood(SquareOrder(dims.width, dims.height), at)
  }

  /** The moves are exactly the squares of the 3×3 block around the pawn that lie on the board. */
  lemma NeighbourhoodMovesMeaning(dims: Dimensions, at: Coord, c: Coord)
    ensures c in NeighbourhoodMoves(dims, at) <==> InBounds(dims, c) && Abs(c.x - at.x) <= 1 && Abs(c.y - at.y) <= 1
    ensures InBounds(dims, at) ==> at in NeighbourhoodMoves(dims, at)
  {
    SquareOrderCovers(dims.width, dims.height, c);
    SquareOrderCovers(dims.width, dims.height, at);
  }
}

=== FILE: proto_setup.dfy ===
/**
 * The first prototype board's setup: an 8×8 board whose tiles are coloured
 * by the parity of row and column, and pawns on the tiles of the first and
 * last three rows chosen by the parity of the column-row difference.
 */
module ProtoSetup {
  import opened Coords

  /** The board the prototype creates. */
  const ProtoDims: Dimensions := Dimensions(8, 8)

  /** createBoard's tile colour: white where row and column have the same parity. */
  predicate TileIsWhite(c: Coord) {
    JsRem2(c.x) == JsRem2(c.y)
  }

  /** The near group of the placement predicate: the first three rows, difference even. */
  predicate InNearGroup(c: Coord) {
    c.x < 3 && JsRem2(c.y - c.x) == 0
  }

  /** The far group: the last three rows, difference odd. */
  predicate InFarGroup(dims: Dimensions, c: Coord) {
    c.x >= dims.width - 3 && JsRem2(c.y - c.x) != 0
  }

  /** setup's placement predicate. */
  predicate PlacesPawn(dims: Dimensions, c: Coord) {
    InNearGroup(c) || InFarGroup(dims, c)
  }

  /** The squares among `squares` the predicate accepts, in their order. */
  function Accepted(dims: Dimensions, squares: seq<Coord>): (r: seq<Coord>)
    ensures forall c :: c in r <==> c in squares && PlacesPawn(dims, c)
    ensures |r| <= |squares|
  {
    if |squares| == 0 then []
    else
      var rest := Accepted(dims, squares[1..]);
      assert forall c :: c in squares <==> c == squares[0] || c in squares[1..];
      if PlacesPawn(dims, squares[0]) then [squares[0]] + rest else rest
  }

  /** createPawns: one pawn on each accepted square, visited row by row. */
  function PawnSquares(dims: Dimensions): (r: seq<Coord>)
  {
    Accepted(dims, SquareOrder(dims.width, dims.height))
  }

  /** A pawn is created exactly on the in-bounds squares the predicate accepts, each once. */
  lemma PawnSquaresMeaning(dims: Dimensions, c: Coord)
    ensures c in PawnSquares(dims) <==> InBounds(dims, c) && PlacesPawn(dims, c)
    ensures |PawnSquares(dims)| <= |SquareOrder(dims.width, dims.height)|
  {
    SquareOrderCovers(dims.width, dims.height, c);
  }

  /**
   * The two groups stand on opposite colours: every near pawn on a white
   * tile, every far pawn on a black one, so no square belongs to both.
   */
  lemma GroupsOnOppositeColours(dims: Dimensions, c: Coord)
    requires InBounds(dims, c)
    ensures InNearGroup(c) ==> TileIsWhite(c)
    ensures InFarGroup(dims, c) ==> !TileIsWhite(c)
    ensures !(InNearGroup(c) && InFarGroup(dims, c))
  {
    JsRem2IsParity(c.y - c.x);
    JsRem2IsParity(c.x);
    JsRem2IsParity(c.y);
  }

  /**
   * On a board at least six rows deep the groups keep to their own three
   * rows: the rows between them stay empty, and the near group only holds
   * rows 0 to 2 and the far group the last three.
   */
  lemma GroupsKeepToTheirRows(dims: Dimensions, c: Coord)
    requires dims.width >= 6 && InBounds(dims, c)
    ensures c in PawnSquares(dims) && c.x < 3 ==> InNearGroup(c)
    ensures c in PawnSquares(dims) && c.x >= dims.width - 3 ==> InFarGroup(dims, c)
    ensures 3 <= c.x < dims.width - 3 ==> c !in PawnSquares(dims)
  {
    PawnSquaresMeaning(dims, c);
  }
}

=== FILE: proto_turns.dfy ===
/**
 * The prototype game manager's turn keeping: a turn counter and a turn type
 * that flips between white and black, with a human white player and a CPU
 * black player.
 */
module ProtoTurns {
  import opened Players

  datatype TurnType = WhiteTurn | BlackTurn

  datatype ProtoManager = ProtoManager(white: Player, black: Player, turn: nat, turnType: TurnType)

  /** The prototype's two players: "white" plays by hand, "black" is the CPU. */
  const WhitePlayer: Player := Player("white", White, Human)
  const BlackPlayer: Player := Player("black", Black, Computer)

  /** The constructor: turn zero, white to move. */
  function NewProtoManager(): (m: ProtoManager)
    ensures m.turn == 0 && m.turnType == WhiteTurn
    ensures m.white.side == White && m.white.controller == Human
    ensures m.black.side == Black && m.black.controller == Computer
  {
    ProtoManager(WhitePlayer, BlackPlayer, 0, WhiteTurn)
  }

  /** getNextTurnType: the other colour. */
  function NextTurnType(t: TurnType): (r: TurnType)
    ensures r != t
  {
    match t
    case WhiteTurn => BlackTurn
    case BlackTurn => WhiteTurn
  }

  /** getCurrentPlayer: the player whose colour the turn type names. */
  function CurrentPlayer(m: ProtoManager): (p: Player)
    ensures m.turnType == WhiteTurn ==> p == m.white
    ensures m.turnType == BlackTurn ==> p == m.black
  {
    match m.turnType
    case WhiteTurn => m.white
    case BlackTurn => m.black
  }

  /** nextTurn: count the turn and hand it to the other colour; the players stay. */
  function NextTurn(m: ProtoManager): (r: ProtoManager)
    ensures r.turn == m.turn + 1
    ensures r.turnType != m.turnType
    ensures r.white == m.white && r.black == m.black
    ensures CurrentPlayer(r) != CurrentPlayer(m) <==> m.white != m.black
  {
    m.(turn := m.turn + 1, turnType := NextTurnType(m.turnType))
  }

  /** startTurn hands the turn to the CPU exactly when the current player is the CPU player. */
  function DelegatesToCpu(m: ProtoManager): (r: bool)
    ensures r <==> (m.turnType == WhiteTurn && m.white.controller == Computer) ||
                   (m.turnType == BlackTurn && m.black.controller == Computer)
  {
    CurrentPlayer(m).controller == Computer
  }

  /** `n` calls of nextTurn. */
  function Turns(m: ProtoManager, n: nat): ProtoManager
    decreases n
  {
    if n == 0 then m else NextTurn(Turns(m, n - 1))
  }

  /**
   * After `n` turns from a fresh manager the counter reads `n`, white is to
   * move exactly when `n` is even, and the CPU is asked to play exactly when
   * `n` is odd.
   */
  lemma {:induction false} TurnsAlternate(n: nat)
    ensures Turns(NewProtoManager(), n).turn == n
    ensures Turns(NewProtoManager(), n).white == WhitePlayer && Turns(NewProtoManager(), n).black == BlackPlayer
    ensures Turns(NewProtoManager(), n).turnType == WhiteTurn <==> n % 2 == 0
    ensures CurrentPlayer(Turns(NewProtoManager(), n)) == (if n % 2 == 0 then WhitePlayer else BlackPlayer)
    ensures DelegatesToCpu(Turns(NewProtoManager(), n)) <==> n % 2 == 1
    decreases n
  {
    var m := Turns(NewProtoManager(), n);
    if n > 0 {
      TurnsAlternate(n - 1);
      var prev := Turns(NewProtoManager(), n - 1);
      assert m == NextTurn(prev);
      assert m.turnType == NextTurnType(prev.turnType);
      assert n % 2 == 0 <==> (n - 1) % 2 == 1;
    }
  }
}

=== FILE: rounds.dfy ===
/**
 * Rounds and turns: a round hands out one turn per queued player, in queue
 * order, and each turn logs the moves registered while it is active.
 */
module Rounds {
  import opened Outcomes
  import opened Players
  import opened Moves

  /** One player's turn and the moves registered during it, oldest first. */
  datatype Turn = Turn(player: Player, moves: seq<Move>)

  /**
   * A round: its number, the players still waiting for a turn, and the turns
   * handed out so far. The previous/next links between turns are the order
   * of `turns`; the active turn is the last one.
   */
  datatype Round = Round(number: nat, queue: seq<Player>, turns: seq<Turn>)

  /** The constructor: number 0 for the first round, one more than the previous round's otherwise. */
  function NewRound(queue: seq<Player>, previous: Option<Round>): (r: Round)
    ensures previous.None? ==> r.number == 0
    ensures previous.Some? ==> r.number == previous.value.number + 1
    ensures r.queue == queue && r.turns == []
  {
    Round(if previous.None? then 0 else previous.value.number + 1, queue, [])
  }

  /** The round's queue is used up. */
  function OnLastTurnOfRound(r: Round): (last: bool)
    ensures last <==> r.queue == []
  {
    |r.queue| == 0
  }

  /**
   * setUpNextTurn: fails on an exhausted queue; otherwise the front player
   * leaves the queue and gets a fresh turn that becomes the active one.
   */
  function SetUpNextTurn(r: Round): (s: Result<Round>)
    ensures s.Err? <==> OnLastTurnOfRound(r)
    ensures s.Err? ==> s.error == PlainError(QueueExhausted)
    ensures s.Ok? ==> [r.queue[0]] + s.value.queue == r.queue
    ensures s.Ok? ==> s.value.turns == r.turns + [Turn(r.queue[0], [])]
    ensures s.Ok? ==> s.value.number == r.number
  {
    if |r.queue| == 0 then Err(PlainError(QueueExhausted))
    else Ok(Round(r.number, r.queue[1..], r.turns + [Turn(r.queue[0], [])]))
  }

  /**
   * getLatestMove: the active turn's last move, None when it has none; with
   * no active turn the non-null assertion fails at run time.
   */
  function GetLatestMove(r: Round): (m: Result<Option<Move>>)
    ensures m.Err? <==> |r.turns| == 0
    ensures m.Err? ==> m.error == RuntimeTypeError
    ensures m.Ok? ==> (m.value.None? <==> |r.turns[|r.turns| - 1].moves| == 0)
    ensures m.Ok? && m.value.Some? ==> m.value.value in r.turns[|r.turns| - 1].moves
  {
    if |r.turns| == 0 then Err(RuntimeTypeError)
    else
      var moves := r.turns[|r.turns| - 1].moves;
      if |moves| == 0 then Ok(None) else Ok(Some(moves[|moves| - 1]))
  }

  /** getCurrentPlayer: the active turn's player; a state error before the first turn. */
  function GetCurrentPlayer(r: Round): (p: Result<Player>)
    ensures p.Err? <==> |r.turns| == 0
    ensures p.Err? ==> p.error == StateError
    ensures p.Ok? ==> p.value == r.turns[|r.turns| - 1].player
  {
    if |r.turns| == 0 then Err(StateError) else Ok(r.turns[|r.turns| - 1].player)
  }

  /** registerMove: append to the active turn's log; a state error before the first turn. */
  function RegisterMove(r: Round, m: Move): (s: Result<Round>)
    ensures s.Err? <==> |r.turns| == 0
    ensures s.Err? ==> s.error == StateError
    ensures s.Ok? ==> |s.value.turns| == |r.turns| && s.value.turns[..|r.turns| - 1] == r.turns[..|r.turns| - 1]
    ensures s.Ok? ==> s.value.number == r.number && s.value.queue == r.queue
    ensures s.Ok? ==> var last := |r.turns| - 1;
      s.value.turns[last].player == r.turns[last].player && s.value.turns[last].moves == r.turns[last].moves + [m]
  {
    if |r.turns| == 0 then Err(StateError)
    else
      var last := |r.turns| - 1;
      var active := r.turns[last];
      Ok(r.(turns := r.turns[..last] + [active.(moves := active.moves + [m])]))
  }

  /** A registered move is the latest move, and registering leaves the current player alone. */
  lemma RegisterThenLatest(r: Round, m: Move)
    requires |r.turns| > 0
    ensures RegisterMove(r, m).Ok?
    ensures GetLatestMove(RegisterMove(r, m).value) == Ok(Some(m))
    ensures GetCurrentPlayer(RegisterMove(r, m).value) == GetCurrentPlayer(r)
    ensures OnLastTurnOfRound(RegisterMove(r, m).value) == OnLastTurnOfRound(r)
  {
  }

  /** `n` calls of setUpNextTurn, stopping at the first failure. */
  function SetUpTurns(r: Round, n: nat): Result<Round>
    decreases n
  {
    if n == 0 then Ok(r)
    else
      var s :- SetUpNextTurn(r);
      SetUpTurns(s, n - 1)
  }

  /**
   * On a queue of N players the first N calls of setUpNextTurn hand out one
   * turn to each player in queue order and leave the round on its last
   * turn; call N + 1 fails.
   */
  lemma {:induction false} TurnsDrainQueue(r: Round, n: nat)
    requires n <= |r.queue|
    ensures SetUpTurns(r, n).Ok?
    ensures var s := SetUpTurns(r, n).value;
      && s.queue == r.queue[n..]
      && |s.turns| == |r.turns| + n
      && s.turns[..|r.turns|] == r.turns
      && (forall i | 0 <= i < n :: s.turns[|r.turns| + i] == Turn(r.queue[i], []))
      && (OnLastTurnOfRound(s) <==> n == |r.queue|)
      && s.number == r.number
    ensures n == |r.queue| ==> SetUpTurns(r, n + 1) == Err(PlainError(QueueExhausted))
    decreases n
  {
    if n > 0 {
      var s := SetUpNextTurn(r).value;
      TurnsDrainQueue(s, n - 1);
      var t := SetUpTurns(s, n - 1).value;
      assert SetUpTurns(r, n) == SetUpTurns(s, n - 1);
      assert SetUpTurns(r, n + 1) == SetUpTurns(s, n);
      assert s.queue == r.queue[1..];
      forall i | 0 <= i < n
        ensures t.turns[|r.turns| + i] == Turn(r.queue[i], [])
      {
        if i == 0 {
          assert t.turns[..|s.turns|] == s.turns;
          assert t.turns[|r.turns|] == t.turns[..|s.turns|][|r.turns|];
        } else {
          assert t.turns[|s.turns| + (i - 1)] == Turn(s.queue[i - 1], []);
        }
      }
      assert t.turns[..|r.turns|] == t.turns[..|s.turns|][..|r.turns|];
    } else {
      assert r.queue[0..] == r.queue;
      assert r.turns[..|r.turns|] == r.turns;
    }
  }
}

=== FILE: rule_sets.dfy ===
/**
 * Rule sets: a point is selected when at least one additive rule selects it
 * and no masking rule vetoes it.
 */
module RuleSets {
  import opened Coords
  import opened Boards
  import opened Rules

  datatype RuleSet = RuleSet(additive: seq<Rule>, masking: seq<Rule>)

  /** A fresh rule set: both lists empty. */
  const EmptyRuleSet := RuleSet([], [])

  function AddAdditiveRule(s: RuleSet, rule: Rule): (r: RuleSet)
    ensures r.additive == s.additive + [rule] && r.masking == s.masking
  {
    s.(additive := s.additive + [rule])
  }

  function AddMaskingRule(s: RuleSet, rule: Rule): (r: RuleSet)
    ensures r.masking == s.masking + [rule] && r.additive == s.additive
  {
    s.(masking := s.masking + [rule])
  }

  /** `rules.every(rule => !rule.select(pos, center))`. */
  function EveryRejects(b: Board, rules: seq<Rule>, pos: Coord, center: Coord): (r: bool)
    requires Valid(b)
    ensures r <==> forall i | 0 <= i < |rules| :: !Selects(b, rules[i], pos, center)
  {
    if |rules| == 0 then true
    else !Selects(b, rules[0], pos, center) && EveryRejects(b, rules[1..], pos, center)
  }

  /** `rules.every(rule => rule.select(pos, center))`. */
  function EveryAccepts(b: Board, rules: seq<Rule>, pos: Coord, center: Coord): (r: bool)
    requires Valid(b)
    ensures r <==> forall i | 0 <= i < |rules| :: Selects(b, rules[i], pos, center)
  {
    if |rules| == 0 then true
    else Selects(b, rules[0], pos, center) && EveryAccepts(b, rules[1..], pos, center)
  }

  /** The additive part: false with no additive rules, otherwise "not every rule rejects". */
  function AdditivePart(b: Board, s: RuleSet, pos: Coord, center: Coord): (r: bool)
    requires Valid(b)
    ensures |s.additive| == 0 ==> !r
    ensures r <==> exists i | 0 <= i < |s.additive| :: Selects(b, s.additive[i], pos, center)
  {
    if |s.additive| == 0 then false else !EveryRejects(b, s.additive, pos, center)
  }

  /** The masking part: true with no masking rules, otherwise "every rule accepts". */
  function MaskingPart(b: Board, s: RuleSet, pos: Coord, center: Coord): (r: bool)
    requires Valid(b)
    ensures |s.masking| == 0 ==> r
    ensures r <==> forall i | 0 <= i < |s.masking| :: Selects(b, s.masking[i], pos, center)
  {
    if |s.masking| == 0 then true else EveryAccepts(b, s.masking, pos, center)
  }

  /** `RuleSet.select`: the conjunction of the two parts. */
  function SetSelects(b: Board, s: RuleSet, pos: Coord, center: Coord): (r: bool)
    requires Valid(b)
    ensures |s.additive| == 0 ==> !r
    ensures r ==> forall i | 0 <= i < |s.masking| :: Selects(b, s.masking[i], pos, center)
  {
    AdditivePart(b, s, pos, center) && MaskingPart(b, s, pos, center)
  }

  /** A set selects a point iff some additive rule selects it and every masking rule does. */
  lemma SetSelectsMeaning(b: Board, s: RuleSet, pos: Coord, center: Coord)
    requires Valid(b)
    ensures SetSelects(b, s, pos, center) <==>
      && (exists i | 0 <= i < |s.additive| :: Selects(b, s.additive[i], pos, center))
      && (forall i | 0 <= i < |s.masking| :: Selects(b, s.masking[i], pos, center))
    ensures |s.additive| == 0 ==> !SetSelects(b, s, pos, center)
    ensures |s.masking| == 0 ==> (SetSelects(b, s, pos, center) <==> AdditivePart(b, s, pos, center))
  {
  }

  /** A masking rule narrows the set to the points that rule also selects. */
  lemma AddingMaskNarrows(b: Board, s: RuleSet, rule: Rule, pos: Coord, center: Coord)
    requires Valid(b)
    ensures SetSelects(b, AddMaskingRule(s, rule), pos, center) <==>
      SetSelects(b, s, pos, center) && Selects(b, rule, pos, center)
    ensures SetSelects(b, AddMaskingRule(s, rule), pos, center) ==> SetSelects(b, s, pos, center)
  {
    var t := AddMaskingRule(s, rule);
    assert forall i | 0 <= i < |s.masking| :: t.masking[i] == s.masking[i];
    assert t.masking[|s.masking|] == rule;
  }

  /** An additive rule widens the set by the points it selects that no mask vetoes. */
  lemma AddingAdditiveWidens(b: Board, s: RuleSet, rule: Rule, pos: Coord, center: Coord)
    requires Valid(b)
    ensures SetSelects(b, AddAdditiveRule(s, rule), pos, center) <==>
      SetSelects(b, s, pos, center) || (Selects(b, rule, pos, center) && MaskingPart(b, s, pos, center))
    ensures SetSelects(b, s, pos, center) ==> SetSelects(b, AddAdditiveRule(s, rule), pos, center)
  {
    var t := AddAdditiveRule(s, rule);
    assert forall i | 0 <= i < |s.additive| :: t.additive[i] == s.additive[i];
    assert t.additive[|s.additive|] == rule;
    if SetSelects(b, t, pos, center) && !Selects(b, rule, pos, center) {
      var i :| 0 <= i < |t.additive| && Selects(b, t.additive[i], pos, center);
      assert i < |s.additive|;
    }
  }
}

=== FILE: rules.dfy ===
/**
 * The square-selection rules: predicates over a position, optionally
 * relative to a centre square, that the rule sets and the setup combine.
 */
module Rules {
  import opened Coords
  import opened Outcomes
  import opened Players
  import opened Boards
  import opened Scan

  /** Whose piece a piece-between rule looks for on the scanned squares. */
  datatype Ownership =
    | AnyOwner                  // the base rule: any piece will do
    | SameOwner(name: string)   // the current player's piece: owner names are equal
    | OtherOwner(name: string)  // another player's piece: owner names differ

  datatype Rule =
    | EmptySquare
    | BlackSquares
    | WhiteSquares
    | BottomRanks(numRanks: int)
    | TopRanks(numRanks: int)
    | Around(distance: int)
    | DiagonalExtents(distance: int)
    | PieceBetween(distance: int, required: Ownership)

  /** The piece-between constructors refuse a distance under two. */
  function NewPieceBetween(distance: int, required: Ownership): (r: Result<Rule>)
    ensures r.Ok? <==> distance >= 2
    ensures r.Ok? ==> r.value.PieceBetween? && r.value.distance == distance && r.value.required == required
    ensures r.Err? ==> r.error == PlainError(DistanceBelowTwo)
  {
    if distance < 2 then Err(PlainError(DistanceBelowTwo)) else Ok(PieceBetween(distance, required))
  }

  predicate OwnershipHolds(req: Ownership, owner: Player) {
    match req
    case AnyOwner => true
    case SameOwner(name) => owner.name == name
    case OtherOwner(name) => owner.name != name
  }

  /** `c` holds a piece whose owner passes the ownership check. */
  predicate Qualifies(b: Board, c: Coord, req: Ownership)
    requires Valid(b)
  {
    HasPawn(b, c) && OwnershipHolds(req, b.pieces[b.occupant[c]].owner)
  }

  /** Some square of the list qualifies: the callback's `selected` flag after the scan. */
  predicate AnyQualifies(b: Board, cs: seq<Coord>, req: Ownership)
    requires Valid(b)
  {
    exists i | 0 <= i < |cs| :: Qualifies(b, cs[i], req)
  }

  /** Both offsets from `center` to `pos` are at most `d` (Chebyshev radius). */
  predicate WithinRadius(center: Coord, pos: Coord, d: int) {
    Abs(Dx(center, pos)) <= d && Abs(Dy(center, pos)) <= d
  }

  /** Within radius `d`, on one of the centre's diagonals, and not the centre itself. */
  predicate OnExtent(center: Coord, pos: Coord, d: int) {
    WithinRadius(center, pos, d) && Abs(pos.x - center.x) == Abs(pos.y - center.y) && pos != center
  }

  /**
   * `rule.select(pos, center)`. The empty-square rule treats a coordinate
   * with no square as empty; the piece-between rule looks for a qualifying
   * piece on the squares strictly between the centre and `pos`, the walk
   * its diagonal scan evidently intends (the scan as written is
   * `PieceBetweenAsWritten`).
   */
  function Selects(b: Board, rule: Rule, pos: Coord, center: Coord): (r: bool)
    requires Valid(b)
    ensures rule.EmptySquare? ==> (r <==> !HasPawn(b, pos))
    ensures (rule.DiagonalExtents? || rule.PieceBetween?) && r ==>
      pos != center && Abs(Dx(center, pos)) == Abs(Dy(center, pos)) <= rule.distance
    ensures rule.PieceBetween? && r ==> Abs(Dx(center, pos)) >= 2
  {
    match rule
    case EmptySquare => !(HasSquare(b, pos) && HasPawn(b, pos))
    case BlackSquares => (JsRem2(pos.x) == JsRem2(pos.y)) != b.originTileIsBlack
    case WhiteSquares => (JsRem2(pos.x) == JsRem2(pos.y)) == b.originTileIsBlack
    case BottomRanks(n) => pos.y < n
    case TopRanks(n) => pos.y >= b.dims.height - n
    case Around(d) => WithinRadius(center, pos, d)
    case DiagonalExtents(d) => OnExtent(center, pos, d)
    case PieceBetween(d, req) =>
      WalkOnShortDiagonals(b, center, pos);
      OnExtent(center, pos, d) && AnyQualifies(b, StrictlyBetween(b, center, pos), req)
  }

  /** The rules that read their centre argument. */
  predicate NeedsCenter(rule: Rule) {
    rule.Around? || rule.DiagonalExtents? || rule.PieceBetween?
  }

  /**
   * `rule.select(pos)` with no centre, as the setup calls it: a rule that
   * subtracts the missing centre fails with a TypeError.
   */
  function SelectWithoutCenter(b: Board, rule: Rule, pos: Coord): (r: Result<bool>)
    requires Valid(b)
    ensures r.Err? <==> NeedsCenter(rule)
    ensures r.Err? ==> r.error == RuntimeTypeError
    ensures r.Ok? ==> forall center :: r.value == Selects(b, rule, pos, center)
  {
    if NeedsCenter(rule) then Err(RuntimeTypeError) else Ok(Selects(b, rule, pos, pos))
  }

  /** A coordinate is empty for the rule exactly when no piece stands on it. */
  lemma EmptySquareMeansNoPawn(b: Board, pos: Coord, center: Coord)
    requires Valid(b)
    ensures Selects(b, EmptySquare, pos, center) <==> !HasPawn(b, pos)
    ensures !HasSquare(b, pos) ==> Selects(b, EmptySquare, pos, center)
  {
  }

  /**
   * Exactly one colour rule holds for every coordinate; on the shipped board
   * (origin tile black) the white squares among the non-negative coordinates
   * are those with an even coordinate sum. JavaScript's remainder keeps the
   * dividend's sign, so across mixed signs the rule is not a parity test.
   */
  lemma ColoursComplementary(b: Board, pos: Coord, center: Coord)
    requires Valid(b)
    ensures Selects(b, WhiteSquares, pos, center) <==> !Selects(b, BlackSquares, pos, center)
    ensures b.originTileIsBlack && 0 <= pos.x && 0 <= pos.y ==>
      (Selects(b, WhiteSquares, pos, center) <==> (pos.x + pos.y) % 2 == 0)
    ensures b.originTileIsBlack && pos == Coord(-1, 1) ==> !Selects(b, WhiteSquares, pos, center)
  {
    JsRem2IsParity(pos.x);
    JsRem2IsParity(pos.y);
  }

  /**
   * The prototype's colour and rank rules take no centre. Here they give one
   * verdict whatever the centre, and each square has exactly one colour.
   */
  lemma CenterlessRules(b: Board, rule: Rule, pos: Coord, c1: Coord, c2: Coord)
    requires Valid(b) && (rule.BlackSquares? || rule.WhiteSquares? || rule.BottomRanks? || rule.TopRanks?)
    ensures Selects(b, rule, pos, c1) == Selects(b, rule, pos, c2)
    ensures rule.BlackSquares? ==> (Selects(b, rule, pos, c1) <==> !Selects(b, WhiteSquares, pos, c2))
    ensures rule.TopRanks? && rule.numRanks <= 0 ==> !Selects(b, rule, pos, c1) || pos.y >= b.dims.height
  {
  }

  /** The two rank bands, and their disjointness when they fit on the board together. */
  lemma RankBands(b: Board, n: int, pos: Coord, center: Coord)
    requires Valid(b)
    ensures Selects(b, BottomRanks(n), pos, center) <==> pos.y < n
    ensures Selects(b, TopRanks(n), pos, center) <==> pos.y >= b.dims.height - n
    ensures 2 * n <= b.dims.height ==> !(Selects(b, BottomRanks(n), pos, center) && Selects(b, TopRanks(n), pos, center))
  {
  }

  /** The Chebyshev neighbourhood of radius `d`, centre included. */
  lemma AroundIsChebyshevBall(b: Board, d: int, pos: Coord, center: Coord)
    requires Valid(b)
    ensures Selects(b, Around(d), pos, center) <==> Abs(pos.x - center.x) <= d && Abs(pos.y - center.y) <= d
    ensures d >= 0 ==> Selects(b, Around(d), center, center)
  {
  }

  /**
   * The diagonal extents of radius `d` are the squares one to `d` diagonal
   * steps from the centre; the centre itself is never selected.
   */
  lemma DiagonalExtentsAreDiagonalSteps(b: Board, d: int, pos: Coord, center: Coord)
    requires Valid(b)
    ensures Selects(b, DiagonalExtents(d), pos, center) <==> exists k | 1 <= k <= d :: OnDiagonal(center, pos, k)
    ensures !Selects(b, DiagonalExtents(d), center, center)
    ensures Selects(b, DiagonalExtents(d), pos, center) ==> Selects(b, Around(d), pos, center)
  {
    if Selects(b, DiagonalExtents(d), pos, center) {
      assert OnDiagonal(center, pos, Abs(Dx(center, pos)));
    }
  }

  /**
   * A piece-between rule selects a point exactly when the point is on its
   * diagonal extents and some square strictly between the centre and the
   * point exists and holds a piece passing the ownership check.
   */
  lemma PieceBetweenScansInterior(b: Board, d: int, req: Ownership, pos: Coord, center: Coord)
    requires Valid(b)
    ensures Selects(b, PieceBetween(d, req), pos, center) ==> Selects(b, DiagonalExtents(d), pos, center)
    ensures Selects(b, PieceBetween(d, req), pos, center) <==>
      && Selects(b, DiagonalExtents(d), pos, center)
      && exists k | 0 < k < Abs(Dx(center, pos)) ::
           HasSquare(b, WalkAt(center, pos, k)) && Qualifies(b, WalkAt(center, pos, k), req)
  {
    if OnExtent(center, pos, d) {
      StrictlyBetweenIsInterior(b, center, pos);
      var walk := StrictlyBetween(b, center, pos);
      if AnyQualifies(b, walk, req) {
        var i :| 0 <= i < |walk| && Qualifies(b, walk[i], req);
        assert walk[i] in walk;
      }
    }
  }

  /**
   * Within distance two a piece-between rule selects a point exactly when
   * the point is two diagonal steps away and the midpoint holds a
   * qualifying piece; one step away there is nothing between.
   */
  lemma PieceBetweenAtShortRange(b: Board, d: int, req: Ownership, pos: Coord, center: Coord)
    requires Valid(b) && d <= 2
    ensures Selects(b, PieceBetween(d, req), pos, center) <==>
      && d == 2 && OnDiagonal(center, pos, 2)
      && HasSquare(b, Midpoint(center, pos)) && Qualifies(b, Midpoint(center, pos), req)
  {
    WalkOnShortDiagonals(b, center, pos);
    StepTowardOnShortDiagonals(center, pos);
    if OnExtent(center, pos, d) {
      assert OnDiagonal(center, pos, 1) || OnDiagonal(center, pos, 2);
    }
  }

  /**
   * The piece-between test over the scan as written: the one square the
   * scan probes, the neighbour of the centre toward the point.
   */
  function PieceBetweenAsWritten(b: Board, d: int, req: Ownership, pos: Coord, center: Coord): (r: bool)
    requires Valid(b)
    ensures r ==> pos != center && Abs(Dx(center, pos)) == Abs(Dy(center, pos)) <= d
    ensures r ==> HasSquare(b, StepToward(center, pos)) && Qualifies(b, StepToward(center, pos), req)
  {
    OnExtent(center, pos, d) && AnyQualifies(b, Probes(b, center, pos), req)
  }

  /**
   * As written, a piece-between rule selects a point of its diagonal extents
   * exactly when the one square the scan probes, the neighbour of the centre
   * toward the point, exists and holds a piece passing the ownership check.
   */
  lemma PieceBetweenInspectsNeighbour(b: Board, d: int, req: Ownership, pos: Coord, center: Coord)
    requires Valid(b)
    ensures PieceBetweenAsWritten(b, d, req, pos, center) <==>
      && Selects(b, DiagonalExtents(d), pos, center)
      && HasSquare(b, StepToward(center, pos))
      && Qualifies(b, StepToward(center, pos), req)
  {
    var probes := Probes(b, center, pos);
    if Selects(b, DiagonalExtents(d), pos, center) && HasSquare(b, StepToward(center, pos))
       && Qualifies(b, StepToward(center, pos), req) {
      assert probes[0] == StepToward(center, pos);
    }
  }

  /**
   * On any square the current player's variant and the other-than variant
   * never both accept. As written, each inspects the one neighbour square,
   * so for one name the two rules never select the same point at any
   * distance; with the corrected walk that holds up to the shipped distance
   * two, where at most the midpoint lies between.
   */
  lemma OwnershipVariantsExclusive(b: Board, name: string, d: int, pos: Coord, center: Coord)
    requires Valid(b)
    ensures forall c :: !(Qualifies(b, c, SameOwner(name)) && Qualifies(b, c, OtherOwner(name)))
    ensures forall c :: Qualifies(b, c, AnyOwner) <==> HasPawn(b, c)
    ensures !(PieceBetweenAsWritten(b, d, SameOwner(name), pos, center) &&
              PieceBetweenAsWritten(b, d, OtherOwner(name), pos, center))
    ensures d <= 2 ==>
      !(Selects(b, PieceBetween(d, SameOwner(name)), pos, center) && Selects(b, PieceBetween(d, OtherOwner(name)), pos, center))
  {
    PieceBetweenInspectsNeighbour(b, d, SameOwner(name), pos, center);
    PieceBetweenInspectsNeighbour(b, d, OtherOwner(name), pos, center);
    if d <= 2 {
      PieceBetweenAtShortRange(b, d, SameOwner(name), pos, center);
      PieceBetweenAtShortRange(b, d, OtherOwner(name), pos, center);
    }
  }

  /**
   * One diagonal step out the two readings part: a qualifying piece on the
   * point itself is what the scan as written probes, so it selects the
   * point, while nothing lies strictly between and the corrected rule
   * does not.
   */
  lemma PieceBetweenDiffersOneStepOut(b: Board, d: int, req: Ownership, pos: Coord, center: Coord)
    requires Valid(b) && d >= 1 && OnDiagonal(center, pos, 1) && HasSquare(b, pos) && Qualifies(b, pos, req)
    ensures PieceBetweenAsWritten(b, d, req, pos, center)
    ensures !Selects(b, PieceBetween(d, req), pos, center)
  {
    ProbesReachEndpoint(b, center, pos);
    assert Probes(b, center, pos)[0] == pos;
  }

  /**
   * Three diagonal steps out the two readings part the other way: with the
   * centre's neighbour empty and a qualifying piece on the second square,
   * the corrected rule selects the point and the rule as written does not.
   */
  lemma PieceBetweenDiffersThreeStepsOut(b: Board, d: int, req: Ownership, center: Coord)
    requires Valid(b) && d >= 3
    requires HasSquare(b, Coord(center.x + 1, center.y + 1)) && !HasPawn(b, Coord(center.x + 1, center.y + 1))
    requires HasSquare(b, Coord(center.x + 2, center.y + 2)) && Qualifies(b, Coord(center.x + 2, center.y + 2), req)
    ensures Selects(b, PieceBetween(d, req), Coord(center.x + 3, center.y + 3), center)
    ensures !PieceBetweenAsWritten(b, d, req, Coord(center.x + 3, center.y + 3), center)
  {
    var pos := Coord(center.x + 3, center.y + 3);
    var w := Walk(center, pos);
    assert w == [Coord(center.x + 1, center.y + 1), Coord(center.x + 2, center.y + 2)];
    var walk := StrictlyBetween(b, center, pos);
    assert walk == w;
    assert walk[1] == Coord(center.x + 2, center.y + 2);
    PieceBetweenInspectsNeighbour(b, d, req, pos, center);
  }

  /**
   * At the shipped distance two, and under the empty-square mask every
   * shipped piece-between rule is paired with, the scan as written and the
   * corrected walk select the same points.
   */
  lemma ShippedDistanceAgreesWithWalk(b: Board, req: Ownership, pos: Coord, center: Coord)
    requires Valid(b)
    ensures Selects(b, PieceBetween(2, req), pos, center) && Selects(b, EmptySquare, pos, center) <==>
      PieceBetweenAsWritten(b, 2, req, pos, center) && Selects(b, EmptySquare, pos, center)
  {
    PieceBetweenAtShortRange(b, 2, req, pos, center);
    PieceBetweenInspectsNeighbour(b, 2, req, pos, center);
    StepTowardOnShortDiagonals(center, pos);
    DiagonalExtentsAreDiagonalSteps(b, 2, pos, center);
    if OnExtent(center, pos, 2) && OnDiagonal(center, pos, 1) && HasSquare(b, pos) {
      ProbesReachEndpoint(b, center, pos);
    }
  }
}

=== FILE: scan.dfy ===
/**
 * The diagonal scan used by the piece-between rules and by capture
 * resolution (checkSquaresBetweenSquaresOnDiagonals).
 */
module Scan {
  import opened Coords
  import opened Outcomes
  import opened Boards

  /**
   * The squares the scan hands to its callback, as written: its probe is
   * always `from` plus the unit step toward `to` and never advances, so the
   * callback sees that one square |dx| times, or never when it has no square.
   */
  function Probes(b: Board, from: Coord, to: Coord): (r: seq<Coord>)
    ensures forall c | c in r :: c == StepToward(from, to) && HasSquare(b, c)
    ensures forall k | 1 < k <= Abs(Dx(from, to)) :: WalkAt(from, to, k) !in r
  {
    var probe := StepToward(from, to);
    if HasSquare(b, probe) then Repeat(probe, Abs(Dx(from, to))) else []
  }

  function Repeat(c: Coord, n: nat): (r: seq<Coord>)
    ensures |r| == n
    ensures forall i | 0 <= i < n :: r[i] == c
  {
    if n == 0 then [] else Repeat(c, n - 1) + [c]
  }

  /** What one run of the scan produces: the callback's arguments in order and the return value. */
  datatype ScanResult = ScanResult(visited: seq<Coord>, returned: bool)

  /** The scan itself, with the source's shrinking `betweenSquares` loop. */
  method CheckSquaresBetween(b: Board, from: Coord, to: Coord) returns (r: Result<ScanResult>)
    ensures r.Err? <==> Abs(Dx(from, to)) != Abs(Dy(from, to))
    ensures r.Err? ==> r.error == PlainError(NotDiagonal)
    ensures r.Ok? ==> !r.value.returned
    ensures r.Ok? ==> |r.value.visited| == (if HasSquare(b, StepToward(from, to)) then Abs(Dx(from, to)) else 0)
    ensures r.Ok? ==> forall i | 0 <= i < |r.value.visited| :: r.value.visited[i] == StepToward(from, to)
    ensures r.Ok? ==> r.value.visited == Probes(b, from, to)
  {
    var between := Coord(to.x - from.x, to.y - from.y);
    if Abs(between.x) != Abs(between.y) {
      return Err(PlainError(NotDiagonal));
    }
    var unit := Coord(Sign(between.x), Sign(between.y));
    var probe := StepToward(from, to);
    var exists_ := HasSquare(b, probe);
    var visited: seq<Coord> := [];
    while between != Coord(0, 0)
      invariant Abs(between.x) == Abs(between.y) <= Abs(Dx(from, to))
      invariant between.x != 0 ==> Sign(between.x) == unit.x
      invariant between.y != 0 ==> Sign(between.y) == unit.y
      invariant exists_ ==> |visited| == Abs(Dx(from, to)) - Abs(between.x)
      invariant !exists_ ==> visited == []
      invariant forall i | 0 <= i < |visited| :: visited[i] == probe
      decreases Abs(between.x)
    {
      var checkPosition := Coord(from.x + unit.x, from.y + unit.y);
      if HasSquare(b, checkPosition) {
        visited := visited + [checkPosition];
      }
      between := Coord(between.x - unit.x, between.y - unit.y);
    }
    r := Ok(ScanResult(visited, false));
  }

  /** At distance one the only probe is the far endpoint itself. */
  lemma ProbesAtDistanceOne(b: Board, from: Coord, to: Coord)
    requires OnDiagonal(from, to, 1) && HasSquare(b, to)
    ensures Probes(b, from, to) == [to]
  {
    StepTowardOnShortDiagonals(from, to);
  }

  /** At distance two the probe is the midpoint, visited twice. */
  lemma ProbesAtDistanceTwo(b: Board, from: Coord, to: Coord)
    requires OnDiagonal(from, to, 2) && HasSquare(b, Midpoint(from, to))
    ensures Probes(b, from, to) == [Midpoint(from, to), Midpoint(from, to)]
  {
    StepTowardOnShortDiagonals(from, to);
  }

  /** From a square to itself the callback never runs. */
  lemma ProbesOfSamePoint(b: Board, c: Coord)
    ensures Probes(b, c, c) == []
  {
  }

  /** The square `k` diagonal steps from `from` toward `to`. */
  function WalkAt(from: Coord, to: Coord, k: int): Coord {
    Coord(from.x + Scaled(k, Dx(from, to)), from.y + Scaled(k, Dy(from, to)))
  }

  /** `k` times the sign of `n`. */
  function Scaled(k: int, n: int): int {
    if n > 0 then k else if n < 0 then -k else 0
  }

  /** The coordinates strictly between the endpoints, nearest to `from` first. */
  function Walk(from: Coord, to: Coord): (w: seq<Coord>)
    ensures |w| == if Dx(from, to) == 0 then 0 else Abs(Dx(from, to)) - 1
    ensures forall i | 0 <= i < |w| :: w[i] == WalkAt(from, to, i + 1)
  {
    var d := Abs(Dx(from, to));
    WalkUpTo(from, to, if d == 0 then 0 else d - 1)
  }

  /** The first `n` squares from `from` toward `to`. */
  function WalkUpTo(from: Coord, to: Coord, n: nat): (w: seq<Coord>)
    ensures |w| == n
    ensures forall i | 0 <= i < n :: w[i] == WalkAt(from, to, i + 1)
  {
    if n == 0 then [] else WalkUpTo(from, to, n - 1) + [WalkAt(from, to, n)]
  }

  /**
   * The walk the design describes: every existing square strictly between
   * the endpoints, nearest to `from` first.
   */
  function StrictlyBetween(b: Board, from: Coord, to: Coord): seq<Coord> {
    Existing(b, Walk(from, to))
  }

  function Existing(b: Board, cs: seq<Coord>): (r: seq<Coord>)
    ensures forall c | c in r :: c in cs && HasSquare(b, c)
    ensures forall c | c in cs && HasSquare(b, c) :: c in r
    ensures (forall c | c in cs :: HasSquare(b, c)) ==> r == cs
  {
    if |cs| == 0 then []
    else if HasSquare(b, cs[0]) then [cs[0]] + Existing(b, cs[1..])
    else Existing(b, cs[1..])
  }

  /**
   * The corrected walk visits exactly the interior squares of the diagonal
   * that exist: each is some k steps from `from` and d - k steps from `to`.
   */
  lemma StrictlyBetweenIsInterior(b: Board, from: Coord, to: Coord)
    requires OnDiagonal(from, to, Abs(Dx(from, to)))
    ensures forall c | c in StrictlyBetween(b, from, to) ::
      exists k | 0 < k < Abs(Dx(from, to)) :: c == WalkAt(from, to, k)
    ensures forall k | 0 < k < Abs(Dx(from, to)) ::
      OnDiagonal(from, WalkAt(from, to, k), k) && OnDiagonal(WalkAt(from, to, k), to, Abs(Dx(from, to)) - k)
    ensures forall k | 0 < k < Abs(Dx(from, to)) && HasSquare(b, WalkAt(from, to, k)) ::
      WalkAt(from, to, k) in StrictlyBetween(b, from, to)
  {
    var w := Walk(from, to);
    forall c | c in StrictlyBetween(b, from, to)
      ensures exists k | 0 < k < Abs(Dx(from, to)) :: c == WalkAt(from, to, k)
    {
      var i :| 0 <= i < |w| && w[i] == c;
    }
    forall k | 0 < k < Abs(Dx(from, to))
      ensures OnDiagonal(from, WalkAt(from, to, k), k) && OnDiagonal(WalkAt(from, to, k), to, Abs(Dx(from, to)) - k)
    {
      WalkStep(from, to, k);
    }
    forall k | 0 < k < Abs(Dx(from, to)) && HasSquare(b, WalkAt(from, to, k))
      ensures WalkAt(from, to, k) in StrictlyBetween(b, from, to)
    {
      assert w[k - 1] == WalkAt(from, to, k);
    }
  }

  lemma WalkStep(from: Coord, to: Coord, k: int)
    requires OnDiagonal(from, to, Abs(Dx(from, to))) && 0 < k < Abs(Dx(from, to))
    ensures OnDiagonal(from, WalkAt(from, to, k), k) && OnDiagonal(WalkAt(from, to, k), to, Abs(Dx(from, to)) - k)
  {
  }

  /**
   * The as-written scan leaves the interior: three steps up-right of any
   * square it visits the first step three times and never the second, which
   * the corrected walk visits.
   */
  lemma ProbesMissInterior(b: Board, from: Coord, to: Coord)
    requires to == Coord(from.x + 3, from.y + 3) && HasSquare(b, from) && HasSquare(b, to)
    ensures Probes(b, from, to) == [Coord(from.x + 1, from.y + 1), Coord(from.x + 1, from.y + 1), Coord(from.x + 1, from.y + 1)]
    ensures StrictlyBetween(b, from, to) == [Coord(from.x + 1, from.y + 1), Coord(from.x + 2, from.y + 2)]
    ensures Coord(from.x + 2, from.y + 2) !in Probes(b, from, to)
  {
    var w := Walk(from, to);
    assert w == [Coord(from.x + 1, from.y + 1), Coord(from.x + 2, from.y + 2)];
  }

  /**
   * Between two diagonal neighbours the as-written scan visits the far
   * endpoint, where the corrected walk visits nothing.
   */
  lemma ProbesReachEndpoint(b: Board, from: Coord, to: Coord)
    requires OnDiagonal(from, to, 1) && HasSquare(b, to)
    ensures Probes(b, from, to) == [to]
    ensures StrictlyBetween(b, from, to) == []
  {
    StepTowardOnShortDiagonals(from, to);
  }

  /** At the two shortest distances the corrected walk holds at most the midpoint. */
  lemma WalkOnShortDiagonals(b: Board, from: Coord, to: Coord)
    ensures OnDiagonal(from, to, 1) ==> StrictlyBetween(b, from, to) == []
    ensures OnDiagonal(from, to, 2) ==>
      StrictlyBetween(b, from, to) == (if HasSquare(b, StepToward(from, to)) then [StepToward(from, to)] else [])
  {
    var w := Walk(from, to);
    if OnDiagonal(from, to, 2) {
      assert w == [WalkAt(from, to, 1)];
      assert WalkAt(from, to, 1) == StepToward(from, to);
    }
  }
}

=== FILE: selection.dfy ===
/**
 * The board's selected piece: selecting lifts it, the available moves are
 * computed for it, and deselecting sets it back down on its current square.
 */
module Selection {
  import opened Coords
  import opened Outcomes
  import opened Moves
  import opened Boards
  import opened MoveGen

  /** Board.selectPiece: the piece becomes the selection and is lifted. */
  function SelectPiece(b: Board, id: PieceId): (r: Board)
    requires Valid(b) && id < |b.pieces|
    ensures Valid(r) && |r.pieces| == |b.pieces|
    ensures r.selected == Some(id) && !r.pieces[id].placed
    ensures r.pieces[id].square == b.pieces[id].square && r.pieces[id].owner == b.pieces[id].owner
    ensures r.pieces[id].available == b.pieces[id].available
    ensures forall j | 0 <= j < |b.pieces| && j != id :: r.pieces[j] == b.pieces[j]
    ensures r.occupant == b.occupant && r.rosters == b.rosters && r.dims == b.dims
  {
    Lift(b.(selected := Some(id)), id)
  }

  /**
   * Board.deselectPiece: the selected piece, if any, is placed on its own
   * square (a no-op while it is set down) and the selection is cleared.
   */
  function DeselectPiece(b: Board): (r: Board)
    requires Valid(b)
    ensures Valid(r) && |r.pieces| == |b.pieces|
    ensures r.selected.None?
    ensures b.selected.Some? ==> r.pieces[b.selected.value].placed
    ensures b.selected.None? ==> r == b
    ensures b.selected.Some? && b.pieces[b.selected.value].placed ==> r == b.(selected := None)
    ensures r.rosters == b.rosters && r.dims == b.dims
  {
    if b.selected.None? then b
    else
      var id := b.selected.value;
      var placed := Place(b, id, b.pieces[id].square);
      UnselectedStaysValid(placed);
      placed.(selected := None)
  }

  /** Selecting a piece that stands on its square and deselecting it gives back the board, unselected. */
  lemma SelectDeselectRoundTrip(b: Board, id: PieceId)
    requires Valid(b) && id < |b.pieces|
    requires b.pieces[id].placed && GetPawn(b, b.pieces[id].square) == Some(id)
    ensures DeselectPiece(SelectPiece(b, id)) == b.(selected := None)
  {
    var s := SelectPiece(b, id);
    var r := DeselectPiece(s);
    var sq := b.pieces[id].square;
    assert r.pieces[id] == b.pieces[id];
    assert r.pieces == b.pieces;
    assert r.occupant == b.occupant;
  }

  /**
   * Board.createAvailableMoves: with no selection it is an engine error;
   * otherwise the selected piece recomputes its moves.
   */
  function CreateAvailableMoves(b: Board, mask: seq<Coord>, filter: seq<Tag>): (r: Result<Board>)
    requires Valid(b)
    ensures b.selected.None? ==> r == Err(EngineError)
    ensures b.selected.Some? ==> r == CalcAvailableMoves(b, b.selected.value, mask, filter)
  {
    if b.selected.None? then Err(EngineError) else CalcAvailableMoves(b, b.selected.value, mask, filter)
  }

  /** Board.hasAvailableMoves: a selected piece with a non-empty move map. */
  function HasAvailableMoves(b: Board): (r: bool)
    requires Valid(b)
    ensures r ==> b.selected.Some?
    ensures b.selected.Some? && |b.pieces[b.selected.value].available| > 0 ==> r
    ensures !r ==> SelectedMovesAreAllCancel(b) != Some(false)
  {
    b.selected.Some? && |b.pieces[b.selected.value].available| > 0
  }

  /** Board.allAvailableMovesAreCancel: undefined (None) with no selection. */
  function SelectedMovesAreAllCancel(b: Board): (r: Option<bool>)
    requires Valid(b)
    ensures r.Some? <==> b.selected.Some?
    ensures r.Some? ==> (r.value <==> forall i | 0 <= i < |b.pieces[b.selected.value].available| ::
                                        b.pieces[b.selected.value].available[i].kind.Cancel?)
  {
    match b.selected
    case None => None
    case Some(id) => Some(AllAvailableMovesAreCancel(b, id))
  }

  /** The tag filter of a chain continuation. */
  const ChainFilter: seq<Tag> := [CancelTag, JumpTag]

  lemma ChainFilterAdmits()
    ensures !MovementAdmitted(ChainFilter)
    ensures JumpAdmitted(ChainFilter) && CaptureAdmitted(ChainFilter) && CancelAdmitted(ChainFilter)
  {
    assert ChainFilter[1] == JumpTag && ChainFilter[0] == CancelTag;
  }

  /**
   * Regenerating the selected piece's moves for a chain, the previous origin
   * masked: it always succeeds, offers no plain movement, always offers the
   * Cancel on the current square (so the move map is never empty), and it
   * is all-Cancel exactly when no jump or capture lands anywhere else.
   */
  lemma ChainRegeneration(b: Board, origin: Coord)
    requires Valid(b) && b.selected.Some?
    ensures CreateAvailableMoves(b, [origin], ChainFilter).Ok?
    ensures var r := CreateAvailableMoves(b, [origin], ChainFilter).value;
      var id := b.selected.value;
      var moves := r.pieces[id].available;
      && r.selected == b.selected && r.occupant == b.occupant && r.pieces[id].square == b.pieces[id].square
      && HasAvailableMoves(r)
      && (forall i | 0 <= i < |moves| :: !moves[i].kind.Movement?)
      && MoveTo(moves, b.pieces[id].square) == Some(NewCancelMove(id, b.pieces[id].square, b.pieces[id].square))
      && (forall c :: MoveTo(moves, c) == Reference(b, id, c, [origin], ChainFilter))
      && (SelectedMovesAreAllCancel(r) == Some(true) <==>
            forall c | c != b.pieces[id].square :: Reference(b, id, c, [origin], ChainFilter).None?)
  {
    var id := b.selected.value;
    AvailableMovesMatchReference(b, id, [origin], ChainFilter);
    ChainMovesShape(b, id, origin);
    assert CreateAvailableMoves(b, [origin], ChainFilter).value.pieces[id].available ==
      AvailableMoves(b, id, [origin], ChainFilter).value;
  }

  /**
   * The move map generated under the chain filter: no
   * plain movement, the Cancel on the current square, and all-Cancel
   * exactly when no jump or capture lands anywhere else.
   */
  lemma ChainMovesShape(b: Board, id: PieceId, origin: Coord)
    requires Valid(b) && id < |b.pieces|
    ensures AvailableMoves(b, id, [origin], ChainFilter).Ok?
    ensures var moves := AvailableMoves(b, id, [origin], ChainFilter).value;
      && (forall i | 0 <= i < |moves| :: !moves[i].kind.Movement?)
      && MoveTo(moves, b.pieces[id].square) == Some(NewCancelMove(id, b.pieces[id].square, b.pieces[id].square))
      && ((forall i | 0 <= i < |moves| :: moves[i].kind.Cancel?) <==>
            forall c | c != b.pieces[id].square :: Reference(b, id, c, [origin], ChainFilter).None?)
  {
    var cur := b.pieces[id].square;
    ChainFilterAdmits();
    AvailableMovesMatchReference(b, id, [origin], ChainFilter);
    var moves := AvailableMoves(b, id, [origin], ChainFilter).value;
    forall i | 0 <= i < |moves|
      ensures !moves[i].kind.Movement?
      ensures moves[i].kind.Cancel? <==> moves[i].target == cur
    {
      assert MoveTo(moves, moves[i].target) == Some(moves[i]) by {
        MoveToDistinct(moves, i);
      }
    }
    if forall c | c != cur :: Reference(b, id, c, [origin], ChainFilter).None? {
      forall i | 0 <= i < |moves|
        ensures moves[i].kind.Cancel?
      {
        MoveToDistinct(moves, i);
      }
    }
    if forall i | 0 <= i < |moves| :: moves[i].kind.Cancel? {
      forall c | c != cur
        ensures Reference(b, id, c, [origin], ChainFilter).None?
      {
      }
    }
    assert MoveTo(moves, cur).Some?;
  }
}

=== FILE: setup.dfy ===
/**
 * The initial placement of pieces: every square, in board order, gets a
 * white piece when all white setup rules select it, a black piece when all
 * black setup rules do, and both is a rule error.
 */
module Setup {
  import opened Coords
  import opened Outcomes
  import opened Players
  import opened Boards
  import opened Rules
  import opened Moves

  /**
   * `rules.reduce((prev, rule) => prev && rule.select(pos), acc)`: once the
   * running value is false the remaining rules are not evaluated.
   */
  function ReduceSelect(b: Board, rules: seq<Rule>, pos: Coord, acc: bool): (r: Result<bool>)
    requires Valid(b)
    ensures !acc ==> r == Ok(false)
    ensures (forall i | 0 <= i < |rules| :: !NeedsCenter(rules[i])) ==>
      r == Ok(acc && forall i | 0 <= i < |rules| :: Selects(b, rules[i], pos, pos))
    ensures acc && |rules| > 0 && NeedsCenter(rules[0]) ==> r == Err(RuntimeTypeError)
  {
    if |rules| == 0 then Ok(acc)
    else if !acc then ReduceSelect(b, rules[1..], pos, false)
    else
      var first :- SelectWithoutCenter(b, rules[0], pos);
      ReduceSelect(b, rules[1..], pos, first)
  }

  /** A setup list selects a square when it is non-empty and all its rules select it. */
  function SetupSelects(b: Board, rules: seq<Rule>, pos: Coord): (r: Result<bool>)
    requires Valid(b)
    ensures |rules| == 0 ==> r == Ok(false)
    ensures (forall i | 0 <= i < |rules| :: !NeedsCenter(rules[i])) ==> r == Ok(AllSelect(b, rules, pos))
  {
    if |rules| == 0 then Ok(false) else ReduceSelect(b, rules, pos, true)
  }

  predicate AllSelect(b: Board, rules: seq<Rule>, pos: Coord)
    requires Valid(b)
  {
    |rules| > 0 && forall i | 0 <= i < |rules| :: Selects(b, rules[i], pos, pos)
  }

  /** The callback `createPieces` runs on one square. */
  function PlaceAt(b: Board, white: Player, black: Player, whiteRules: seq<Rule>, blackRules: seq<Rule>,
                   sq: Coord): (r: Result<Board>)
    requires Valid(b) && HasSquare(b, sq)
    ensures r.Ok? ==> Valid(r.value) && r.value.dims == b.dims && r.value.originTileIsBlack == b.originTileIsBlack
    ensures r.Ok? ==> forall d | d != sq :: GetPawn(r.value, d) == GetPawn(b, d)
  {
    var w :- SetupSelects(b, whiteRules, sq);
    var k :- SetupSelects(b, blackRules, sq);
    if w && k then Err(RuleError)
    else if w then Ok(AddPiece(b, white, sq))
    else if k then Ok(AddPiece(b, black, sq))
    else Ok(b)
  }

  /** `foreachSquare` over `squares`, stopping at the first error. */
  function PlaceOver(b: Board, white: Player, black: Player, whiteRules: seq<Rule>, blackRules: seq<Rule>,
                     squares: seq<Coord>): (r: Result<Board>)
    requires Valid(b) && forall k | 0 <= k < |squares| :: HasSquare(b, squares[k])
    ensures r.Ok? ==> Valid(r.value) && r.value.dims == b.dims && r.value.originTileIsBlack == b.originTileIsBlack
    ensures r.Ok? ==> forall d | d !in squares :: GetPawn(r.value, d) == GetPawn(b, d)
    decreases |squares|
  {
    if |squares| == 0 then Ok(b)
    else
      match PlaceAt(b, white, black, whiteRules, blackRules, squares[0])
      case Err(e) => Err(e)
      case Ok(next) =>
        assert next.dims == b.dims;
        assert forall k | 0 <= k < |squares| - 1 :: HasSquare(next, squares[1..][k]) by {
          forall k | 0 <= k < |squares| - 1
            ensures HasSquare(next, squares[1..][k])
          {
            assert squares[1..][k] == squares[k + 1];
            assert HasSquare(b, squares[k + 1]);
          }
        }
        PlaceOver(next, white, black, whiteRules, blackRules, squares[1..])
  }

  /** Each owner's piece list, both empty. */
  function EmptyRosters(white: Player, black: Player): (r: map<string, seq<PieceId>>)
    ensures r.Keys == {white.name, black.name}
    ensures forall n | n in r :: r[n] == []
  {
    var whites: map<string, seq<PieceId>> := map[white.name := []];
    whites[black.name := []]
  }

  /** `createPieces`: both owners get an empty list, then every square is visited in board order. */
  function CreatePieces(b: Board, white: Player, black: Player, whiteRules: seq<Rule>, blackRules: seq<Rule>): (r: Result<Board>)
    requires Valid(b)
    ensures r.Ok? ==> Valid(r.value) && r.value.dims == b.dims && r.value.originTileIsBlack == b.originTileIsBlack
  {
    var start := b.(rosters := EmptyRosters(white, black));
    SquareOrderInBounds(b.dims);
    PlaceOver(start, white, black, whiteRules, blackRules, SquareOrder(b.dims.width, b.dims.height))
  }

  /** The rules whose verdict depends only on the position and the board's fixed configuration. */
  predicate Static(rule: Rule) {
    rule.BlackSquares? || rule.WhiteSquares? || rule.BottomRanks? || rule.TopRanks?
  }

  predicate AllStatic(rules: seq<Rule>) {
    forall i | 0 <= i < |rules| :: Static(rules[i])
  }

  /** A static rule gives the same verdict on two boards with the same configuration. */
  lemma StaticIgnoresPieces(b1: Board, b2: Board, rules: seq<Rule>, pos: Coord)
    requires Valid(b1) && Valid(b2) && AllStatic(rules)
    requires b1.dims == b2.dims && b1.originTileIsBlack == b2.originTileIsBlack
    ensures AllSelect(b1, rules, pos) <==> AllSelect(b2, rules, pos)
  {
  }

  /** One step of the placement with static rules, decided against the board it starts from. */
  lemma PlaceAtStatic(b: Board, white: Player, black: Player, whiteRules: seq<Rule>, blackRules: seq<Rule>, sq: Coord)
    requires Valid(b) && HasSquare(b, sq)
    requires AllStatic(whiteRules) && AllStatic(blackRules)
    ensures PlaceAt(b, white, black, whiteRules, blackRules, sq).Ok? <==>
      !(AllSelect(b, whiteRules, sq) && AllSelect(b, blackRules, sq))
    ensures PlaceAt(b, white, black, whiteRules, blackRules, sq).Ok? ==>
      var r := PlaceAt(b, white, black, whiteRules, blackRules, sq).value;
      forall c :: OwnerAt(r, c) ==
        if c == sq && AllSelect(b, whiteRules, c) then Some(white)
        else if c == sq && AllSelect(b, blackRules, c) then Some(black)
        else OwnerAt(b, c)
  {
  }

  /**
   * With static rules the placement is decided square by square against the
   * starting board: it fails iff some square is selected by both lists, and
   * otherwise each visited square holds a white piece iff the white rules
   * select it, a black piece iff only the black rules do.
   */
  lemma PlaceOverStatic(b: Board, white: Player, black: Player, whiteRules: seq<Rule>,
                        blackRules: seq<Rule>, squares: seq<Coord>)
    requires Valid(b) && forall k | 0 <= k < |squares| :: HasSquare(b, squares[k])
    requires AllStatic(whiteRules) && AllStatic(blackRules)
    ensures PlaceOver(b, white, black, whiteRules, blackRules, squares).Ok? <==>
      forall k | 0 <= k < |squares| :: !(AllSelect(b, whiteRules, squares[k]) && AllSelect(b, blackRules, squares[k]))
    ensures PlaceOver(b, white, black, whiteRules, blackRules, squares).Ok? ==>
      var r := PlaceOver(b, white, black, whiteRules, blackRules, squares).value;
      forall c :: OwnerAt(r, c) ==
        if c in squares && AllSelect(b, whiteRules, c) then Some(white)
        else if c in squares && AllSelect(b, blackRules, c) then Some(black)
        else OwnerAt(b, c)
  {
    PlaceOverStaticSucceeds(b, white, black, whiteRules, blackRules, squares);
    if PlaceOver(b, white, black, whiteRules, blackRules, squares).Ok? {
      PlaceOverStaticOwners(b, white, black, whiteRules, blackRules, squares);
    }
  }

  /** Static rules select the same squares on two boards of the same shape and colouring. */
  lemma StaticSelectionsAgree(b: Board, next: Board, whiteRules: seq<Rule>, blackRules: seq<Rule>)
    requires Valid(b) && Valid(next) && AllStatic(whiteRules) && AllStatic(blackRules)
    requires next.dims == b.dims && next.originTileIsBlack == b.originTileIsBlack
    ensures forall c :: AllSelect(next, whiteRules, c) == AllSelect(b, whiteRules, c)
    ensures forall c :: AllSelect(next, blackRules, c) == AllSelect(b, blackRules, c)
  {
    forall c
      ensures AllSelect(next, whiteRules, c) == AllSelect(b, whiteRules, c)
      ensures AllSelect(next, blackRules, c) == AllSelect(b, blackRules, c)
    {
      StaticIgnoresPieces(b, next, whiteRules, c);
      StaticIgnoresPieces(b, next, blackRules, c);
    }
  }

  /** With static rules the placement fails exactly when some visited square is selected by both lists. */
  lemma {:induction false} PlaceOverStaticSucceeds(b: Board, white: Player, black: Player, whiteRules: seq<Rule>,
                                                   blackRules: seq<Rule>, squares: seq<Coord>)
    requires Valid(b) && forall k | 0 <= k < |squares| :: HasSquare(b, squares[k])
    requires AllStatic(whiteRules) && AllStatic(blackRules)
    ensures PlaceOver(b, white, black, whiteRules, blackRules, squares).Ok? <==>
      forall k | 0 <= k < |squares| :: !(AllSelect(b, whiteRules, squares[k]) && AllSelect(b, blackRules, squares[k]))
    decreases |squares|
  {
    if |squares| > 0 {
      var sq := squares[0];
      var rest := squares[1..];
      var step := PlaceAt(b, white, black, whiteRules, blackRules, sq);
      PlaceAtStatic(b, white, black, whiteRules, blackRules, sq);
      if step.Ok? {
        var next := step.value;
        StaticSelectionsAgree(b, next, whiteRules, blackRules);
        assert forall k | 0 <= k < |rest| :: HasSquare(next, rest[k]);
        PlaceOverStaticSucceeds(next, white, black, whiteRules, blackRules, rest);
        assert PlaceOver(b, white, black, whiteRules, blackRules, squares)
            == PlaceOver(next, white, black, whiteRules, blackRules, rest);
        ConflictFreeTail(b, next, whiteRules, blackRules, squares);
      }
    }
  }

  /**
   * When the first square is claimed by at most one colour, the list is
   * conflict-free exactly when its tail is, judged on a board where the
   * rules select the same squares.
   */
  lemma ConflictFreeTail(b: Board, next: Board, whiteRules: seq<Rule>, blackRules: seq<Rule>, squares: seq<Coord>)
    requires Valid(b) && Valid(next) && |squares| > 0
    requires forall c :: AllSelect(next, whiteRules, c) == AllSelect(b, whiteRules, c)
    requires forall c :: AllSelect(next, blackRules, c) == AllSelect(b, blackRules, c)
    requires !(AllSelect(b, whiteRules, squares[0]) && AllSelect(b, blackRules, squares[0]))
    ensures (forall k | 0 <= k < |squares| :: !(AllSelect(b, whiteRules, squares[k]) && AllSelect(b, blackRules, squares[k])))
      <==> (forall k | 0 <= k < |squares[1..]| ::
             !(AllSelect(next, whiteRules, squares[1..][k]) && AllSelect(next, blackRules, squares[1..][k])))
  {
    var rest := squares[1..];
    if forall k | 0 <= k < |rest| :: !(AllSelect(next, whiteRules, rest[k]) && AllSelect(next, blackRules, rest[k])) {
      forall k | 0 <= k < |squares|
        ensures !(AllSelect(b, whiteRules, squares[k]) && AllSelect(b, blackRules, squares[k]))
      {
        if k > 0 {
          assert squares[k] == rest[k - 1];
        }
      }
    } else {
      var k :| 0 <= k < |rest| && AllSelect(next, whiteRules, rest[k]) && AllSelect(next, blackRules, rest[k]);
      assert squares[k + 1] == rest[k];
    }
  }

  /**
   * With static rules a successful placement puts a white piece on each
   * visited square the white rules select, a black piece on each one only
   * the black rules select, and leaves every other square as it was.
   */
  lemma {:induction false} PlaceOverStaticOwners(b: Board, white: Player, black: Player, whiteRules: seq<Rule>,
                                                 blackRules: seq<Rule>, squares: seq<Coord>)
    requires Valid(b) && forall k | 0 <= k < |squares| :: HasSquare(b, squares[k])
    requires AllStatic(whiteRules) && AllStatic(blackRules)
    requires PlaceOver(b, white, black, whiteRules, blackRules, squares).Ok?
    ensures var r := PlaceOver(b, white, black, whiteRules, blackRules, squares).value;
      forall c :: OwnerAt(r, c) ==
        if c in squares && AllSelect(b, whiteRules, c) then Some(white)
        else if c in squares && AllSelect(b, blackRules, c) then Some(black)
        else OwnerAt(b, c)
    decreases |squares|
  {
    if |squares| > 0 {
      var sq := squares[0];
      var rest := squares[1..];
      PlaceAtStatic(b, white, black, whiteRules, blackRules, sq);
      var next := PlaceAt(b, white, black, whiteRules, blackRules, sq).value;
      StaticSelectionsAgree(b, next, whiteRules, blackRules);
      assert forall k | 0 <= k < |rest| :: HasSquare(next, rest[k]);
      var whole := PlaceOver(b, white, black, whiteRules, blackRules, squares);
      assert whole == PlaceOver(next, white, black, whiteRules, blackRules, rest);
      PlaceOverStaticOwners(next, white, black, whiteRules, blackRules, rest);
      forall c
        ensures OwnerAt(whole.value, c) ==
          if c in squares && AllSelect(b, whiteRules, c) then Some(white)
          else if c in squares && AllSelect(b, blackRules, c) then Some(black)
          else OwnerAt(b, c)
      {
        assert c in squares <==> c == sq || c in rest;
      }
    }
  }

  lemma AllSelectPair(b: Board, first: Rule, second: Rule, pos: Coord)
    requires Valid(b)
    ensures AllSelect(b, [first, second], pos) <==> Selects(b, first, pos, pos) && Selects(b, second, pos, pos)
  {
    var rules := [first, second];
    assert rules[0] == first && rules[1] == second;
    if Selects(b, first, pos, pos) && Selects(b, second, pos, pos) {
      forall i | 0 <= i < 2
        ensures Selects(b, rules[i], pos, pos)
      {
      }
    }
  }

  /** The shipped setup: white on the bottom two ranks, black on the top two, both on white squares. */
  const DefaultWhiteRules: seq<Rule> := [BottomRanks(2), WhiteSquares]
  const DefaultBlackRules: seq<Rule> := [TopRanks(2), WhiteSquares]

  /**
   * On a new board at least four ranks high the shipped setup succeeds and
   * puts white on the even-sum squares of ranks 0 and 1 and black on the
   * even-sum squares of the top two ranks; every other square stays empty.
   */
  lemma DefaultSetupPlacement(dims: Dimensions, white: Player, black: Player)
    requires dims.height >= 4
    ensures CreatePieces(NewBoard(dims), white, black, DefaultWhiteRules, DefaultBlackRules).Ok?
    ensures var r := CreatePieces(NewBoard(dims), white, black, DefaultWhiteRules, DefaultBlackRules).value;
      forall c :: OwnerAt(r, c) ==
        if InBounds(dims, c) && (c.x + c.y) % 2 == 0 && c.y < 2 then Some(white)
        else if InBounds(dims, c) && (c.x + c.y) % 2 == 0 && c.y >= dims.height - 2 then Some(black)
        else None
  {
    var b := NewBoard(dims);
    var start := b.(rosters := EmptyRosters(white, black));
    var squares := SquareOrder(dims.width, dims.height);
    SquareOrderInBounds(dims);
    forall c | InBounds(dims, c)
      ensures AllSelect(start, DefaultWhiteRules, c) <==> (c.x + c.y) % 2 == 0 && c.y < 2
      ensures AllSelect(start, DefaultBlackRules, c) <==> (c.x + c.y) % 2 == 0 && c.y >= dims.height - 2
    {
      ColoursComplementary(start, c, c);
      AllSelectPair(start, BottomRanks(2), WhiteSquares, c);
      AllSelectPair(start, TopRanks(2), WhiteSquares, c);
    }
    PlaceOverStatic(start, white, black, DefaultWhiteRules, DefaultBlackRules, squares);
    forall c
      ensures c in squares <==> InBounds(dims, c)
    {
      SquareOrderCovers(dims.width, dims.height, c);
    }
  }

  /**
   * A setup list that starts with a rule needing a centre fails with a
   * TypeError as soon as the board has a square.
   */
  lemma CenterRuleFailsSetup(b: Board, white: Player, black: Player, whiteRules: seq<Rule>, blackRules: seq<Rule>)
    requires Valid(b) && b.dims.width > 0 && b.dims.height > 0
    requires |whiteRules| > 0 && NeedsCenter(whiteRules[0])
    ensures CreatePieces(b, white, black, whiteRules, blackRules) == Err(RuntimeTypeError)
  {
    var squares := SquareOrder(b.dims.width, b.dims.height);
    SquareOrderCovers(b.dims.width, b.dims.height, Coord(0, 0));
    var i :| 0 <= i < |squares| && squares[i] == Coord(0, 0);
    assert |squares| > 0;
    SquareOrderCovers(b.dims.width, b.dims.height, squares[0]);
  }
}

=== FILE: tile_names.dfy ===
/**
 * Tile names: the rank letter 'A' + y followed by the file number x + 1 in
 * decimal. Names are JavaScript strings, so they are modelled as sequences
 * of UTF-16 code units; String.fromCharCode keeps only the low 16 bits.
 */
module TileNames {
  import opened Coords
  import opened Outcomes

  /** One UTF-16 code unit. */
  type CodeUnit = n: int | 0 <= n < 0x1_0000

  const Minus: CodeUnit := 45
  const Zero: CodeUnit := 48
  const LetterA: CodeUnit := 65

  predicate IsDigit(u: CodeUnit) {
    Zero <= u < Zero + 10
  }

  /** The decimal digits of `n`, without leading zeros ("0" for zero). */
  function Digits(n: nat): (s: seq<CodeUnit>)
    ensures |s| >= 1 && forall k | 0 <= k < |s| :: IsDigit(s[k])
    ensures |s| > 1 ==> s[0] != Zero
    decreases n
  {
    if n < 10 then [Zero + n] else Digits(n / 10) + [Zero + n % 10]
  }

  /** Template-literal conversion of an integer: a minus sign, then the digits of its magnitude. */
  function IntName(n: int): seq<CodeUnit>
  {
    if n < 0 then [Minus] + Digits(-n) else Digits(n)
  }

  /** getRankName: String.fromCharCode('A'.charCodeAt(0) + rank), reduced to 16 bits. */
  function RankName(y: int): (r: CodeUnit)
    ensures -(LetterA as int) <= y < 0x1_0000 - LetterA ==> r - LetterA == y
  {
    (LetterA + y) % 0x1_0000
  }

  /** getFileName: the decimal text of `file + 1`. */
  function FileName(x: int): (r: seq<CodeUnit>)
    ensures ParseInt(r) == Some(x + 1)
    ensures |r| >= 1 && (x >= 0 ==> forall k | 0 <= k < |r| :: IsDigit(r[k]))
  {
    IntNameRoundTrip(x + 1);
    IntName(x + 1)
  }

  /** getTileName: the rank letter followed by the file number. */
  function TileName(c: Coord): (r: seq<CodeUnit>)
    ensures |r| >= 2 && r[0] == RankName(c.y)
    ensures ParseInt(r[1..]) == Some(c.x + 1)
  {
    [RankName(c.y)] + FileName(c.x)
  }

  /** The value of a run of decimal digits. */
  function DigitsValue(s: seq<CodeUnit>): nat
    decreases |s|
  {
    if |s| == 0 then 0 else 10 * DigitsValue(s[..|s| - 1]) + (if IsDigit(s[|s| - 1]) then s[|s| - 1] - Zero else 0)
  }

  predicate AllDigits(s: seq<CodeUnit>) {
    |s| >= 1 && forall k | 0 <= k < |s| :: IsDigit(s[k])
  }

  /** Reads an optionally signed decimal integer. */
  function ParseInt(s: seq<CodeUnit>): Option<int>
  {
    if |s| >= 1 && s[0] == Minus && AllDigits(s[1..]) then Some(-(DigitsValue(s[1..]) as int))
    else if AllDigits(s) then Some(DigitsValue(s) as int)
    else None
  }

  /** Reads a tile name back into the coordinate it names. */
  function ParseTileName(name: seq<CodeUnit>): Option<Coord>
  {
    if |name| == 0 then None
    else match ParseInt(name[1..])
      case None => None
      case Some(file) => Some(Coord(file - 1, name[0] - LetterA))
  }

  lemma {:induction false} DigitsRoundTrip(n: nat)
    ensures DigitsValue(Digits(n)) == n
    decreases n
  {
    if n >= 10 {
      DigitsRoundTrip(n / 10);
      var s := Digits(n);
      assert s[..|s| - 1] == Digits(n / 10);
    }
  }

  lemma IntNameRoundTrip(n: int)
    ensures ParseInt(IntName(n)) == Some(n)
  {
    if n < 0 {
      DigitsRoundTrip(-n);
      assert IntName(n)[1..] == Digits(-n);
    } else {
      DigitsRoundTrip(n);
    }
  }

  /**
   * Every tile whose rank letter does not wrap past the 16-bit range is
   * named unambiguously: its name reads back as the same coordinate.
   */
  lemma TileNameRoundTrip(c: Coord)
    requires -(LetterA as int) <= c.y < 0x1_0000 - LetterA
    ensures ParseTileName(TileName(c)) == Some(c)
  {
    IntNameRoundTrip(c.x + 1);
    assert TileName(c)[1..] == FileName(c.x);
  }

  /** On a board at most 65471 ranks tall, distinct squares have distinct names. */
  lemma TileNamesDistinct(dims: Dimensions, c: Coord, d: Coord)
    requires dims.height <= 0x1_0000 - LetterA
    requires InBounds(dims, c) && InBounds(dims, d) && c != d
    ensures TileName(c) != TileName(d)
  {
    TileNameRoundTrip(c);
    TileNameRoundTrip(d);
  }

  /** Past the 16-bit range the rank letter wraps around, so two ranks 65536 apart share their names. */
  lemma RankLetterWraps(c: Coord)
    ensures TileName(Coord(c.x, c.y + 0x1_0000)) == TileName(c)
  {
  }

  /** Square (0, 0) is "A1". */
  lemma OriginIsA1()
    ensures TileName(Coord(0, 0)) == [LetterA, Zero + 1]
  {
  }
}
